=== FILE: README.md ===
# Recurring expenses: a Dafny model of the expense engine

This project models the server core of a personal-finance API. A user records
**base expenses**: a name, an amount, a due day, a category, a start month and an
optional end month. Each base expense recurs every calendar month.

Two side collections adjust a single month of a base expense:
- **variants** override the amount, due day or category for one month (`"YYYY-MM"`);
- **payments** mark one month as paid.

The monthly listing combines all three into one row per expense that is active in
the requested month. Edits and deletions take a **scope**:
- `only` touches one month (a variant, and possibly a payment);
- `future` touches that month and every later one;
- `all` touches the base expense and drops its variants.

An older **monthly-instance** design sits alongside. It stores one `MonthlyExpense`
document per month and has its own listing, status update, scoped update and
deletions. The request validators and the uniform JSON response helpers complete
the core.

Every operation is a pure function from the store and the request to a reply and
a new store. The database is a record of sequences. The reply is either
`Ok(status, body)` or `Err(status, message, details)`. Every operation's contract
states:
- which request gets which status and message;
- what the new store holds;
- that "nothing else changes";
- that the store invariant is preserved. The invariant is that base ids are unique
  and there is at most one variant or payment per (expense, month).

Lemmas then connect the operations to each other. They cover:
- round trips (mark and then unmark payment; parsing and formatting month tokens);
- idempotence (an `only` edit, status updates, scoped updates, deletions);
- what the listing shows after each edit or delete scope.

## Layout

| file | module | contents |
|---|---|---|
| common.dfy | Common | `Option`, ids, the `Reply`/`Step` shapes |
| months.dfy | Months | `YYYY-MM` tokens, their order, month ordinals, the JavaScript `Date` month roll-over, inclusive month ranges |
| collection.dfy | Collection | a keyed document collection with find, upsert, remove-first and purge-from-month |
| models.dfy | Models | the Expense, ExpenseVariant and Payment schemas, the store invariant, ownership lookup, the create validator |
| expenses.dfy | Expenses | creating a base expense (with the optional first-month payment), `hasAny` |
| materializer.dfy | Materializer | the monthly listing that merges bases, variants and payments |
| payments.dfy | Payments | marking and unmarking a month as paid |
| variants.dfy | Variants | the single-month variant upsert and the from-month variant sweep |
| scope_engine.dfy | ScopeEngine | edit with scope `only`/`future`/`all`, delete with scope `future`/`all` |
| scope_properties.dfy | ScopeProperties | what the listing shows after each scoped edit or delete |
| legacy.dfy | Legacy | the `MonthlyExpense` instance controller |
| js.dfy | JsValues | the JavaScript value semantics the validators rely on: truthiness, `trim`, UTF-16 `length`, numeric conversion |
| validation.dfy | Validation | `validateUserInput` and `validateExpenseInput` |
| responses.dfy | Responses | `errorResponse`, `successResponse` and `errorHandler` |

## Modelling choices

- **Dates as month ordinals.** Every date comparison in the core is against a
  month boundary, so a date is modelled as the ordinal `year * 12 + month - 1` of
  its month. The server is taken to run in UTC, so a stored date and the local
  dates dayjs builds agree on which month they fall in (see "Left out").
  - `Months.DayjsMonth` models ``dayjs(`${token}-01`)``. JavaScript's `Date` maps
    years 0..99 to 1900..1999 and carries a month of `00` or `13` into the
    neighbouring year.
  - A `startDate`/`endDate` is the ordinal of its month.
  - The "end of month k" that delete-future writes is stored as ordinal `k`.
- **String order of stored months.** Variant and payment months are stored as
  the `"YYYY-MM"` strings dayjs renders (`Months.MonthString`), and `$gte`
  compares them as strings. The collections key documents by
  `MonthKey(year, mm)`, but `Collection.Doomed` compares the rendered strings.
  - `Months.TokenOrderIsPairOrder` and `Collection.DoomedOnTokens` prove that,
    for months a token spells, this is the order of (year, month) pairs.
  - A `future` edit can roll over into year 10000, which renders as
    `"10000-01"` and sorts before every four-digit year
    (`ScopeProperties.DeleteFutureSparesYear10000`).
- **Clocks are parameters.** The current time (`now`, `thisMonth`), the current
  date compared with a due date (`isPastDue`) and the ISO timestamp of a response
  are all parameters.
- **JavaScript numbers and type conversion.** Numbers are `real`. The
  conversion behind `amount <= 0` is `JsValues.ToNumber`. It fixes the
  primitives and parsed objects: an object with its own `toString` key throws,
  any other object is NaN. The numeral grammar of strings and the `join` of
  arrays are the parameter `Conversion`.
- **Collections allow duplicates.** Collections are sequences, because a Mongo
  collection has no uniqueness index. The at-most-one-per-key property is an
  invariant that every modelled operation is proved to preserve. Edits whose
  `updates` rewrite a variant's own key can break it; they are not modelled
  (see `ScopeEngine.EditOnly` under "Left out").

Where the code and its documentation differ, the model follows the code:
- An open-ended `future` edit writes 61 months: the start month and the next 60,
  inclusive (`ScopeProperties.FutureEditOpenEnded`).
- Delete-future sets `endDate` to the end of month k. The listing requires
  `endDate >= start of the next month`, so month k itself disappears from the
  listing along with every later month (`ScopeProperties.DeleteFutureHidesFromMonth`).
- The legacy scoped update reports `modifiedCount`. Every matched document gets a
  new `updatedAt` timestamp, so the count equals the number of instances matched
  (`Legacy.UpdateFromInstance`).
- The validators exist but no route applies them. They are modelled as functions
  of the request body.

## Model

| member | source | states |
|---|---|---|
| Months.ParseMonth | src/controllers/expenseController.js:97 | a parameter is accepted exactly when it matches `^\d{4}-\d{2}$`; the parsed year is 0..9999 and the month 0..99 |
| Months.ParseMonthParam | src/controllers/expenseController.js:184-188 | a missing parameter is rejected like a malformed one |
| Months.FormatThenParse | src/controllers/variantController.js:69 | formatting a month as `YYYY-MM` and parsing it back gives the same month |
| Months.ParseThenFormat | src/controllers/variantController.js:69 | every accepted token is the `YYYY-MM` rendering of what it parses to |
| Months.ParseInjective | src/controllers/expenseController.js:121-122 | two tokens that parse to the same month are the same string, so a lookup by month string is a lookup by month |
| Months.TokenOrderIsPairOrder | src/controllers/expenseController.js:311-319 | `$gte` on month strings is the chronological order of (year, month) |
| Months.TokenMonthString | src/controllers/expenseController.js:240 | the dayjs rendering of a month a token spells is that token |
| Months.MonthStringOrder | src/controllers/expenseController.js:311-319 | for months a token spells, `$gte` on the stored strings holds exactly when the month is not earlier |
| Months.FiveDigitYearSortsEarly | src/controllers/expenseController.js:240 | January 10000 renders as `"10000-01"`, a later month than June 9999 whose string sorts before it |
| Months.CalendarMonth | src/controllers/expenseController.js:52 | `format("YYYY-MM")` of a date yields a month 1..12 with the same ordinal |
| Months.CalendarOfOrdinal | src/controllers/expenseController.js:52 | a calendar month survives the round trip through its ordinal |
| Months.CalendarOrder | src/controllers/expenseController.js:239 | comparing dates by month is comparing their ordinals, strictly and non-strictly |
| Months.DayjsMonth | src/controllers/expenseController.js:231 | `dayjs(token-01)` is the token's own month for years >= 100; month `00` and `13` roll into the previous and next year |
| Months.MonthRange | src/controllers/variantController.js:65-94 | the months visited from start to end inclusive, one per ordinal, none when start is after end |
| Months.MonthRangeAscending | src/controllers/expenseController.js:239-250 | the visited months are strictly increasing |
| Months.MonthRangeCovers | src/controllers/variantController.js:68 | a calendar month is visited iff its ordinal lies between start and end |
| Months.MonthRangeExample | src/controllers/variantController.js:62-94 | worked example of `Months.MonthRangeCovers`: from `2024-08` to `2024-10` visits exactly August, September and October |
| Months.DigitOrder | src/controllers/monthlyExpenseController.js:52 | on equal-length digit strings, string order is numeric order |
| Months.LexTotal | src/controllers/monthlyExpenseController.js:52 | string comparison is total |
| Months.LexTrans | src/controllers/monthlyExpenseController.js:52 | string comparison is transitive |
| Collection.IndexOf | src/controllers/variantController.js:16 | `findOne` yields the first document with the key, and none exactly when no document has it |
| Collection.Find | src/controllers/expenseController.js:126-132 | a lookup finds data iff some document has the key, and the data found is stored under that key |
| Collection.Put | src/controllers/expenseController.js:196-200 | an upsert leaves the key holding the new data, every other key unchanged, grows the collection only for a new key, and keeps keys unique |
| Collection.PutTwice | src/controllers/expenseController.js:196-200 | repeating an upsert changes nothing |
| Collection.Insert | src/controllers/paymentController.js:30-38 | `create` appends one document; for a fresh key that is the same as an upsert and keeps keys unique |
| Collection.RemoveFirst | src/controllers/paymentController.js:75-77 | `deleteOne` removes one document with the key, changes no other key, and on a unique collection leaves the key absent |
| Collection.RemoveAfterInsert | src/controllers/paymentController.js:30-77 | removing the key just created restores the collection |
| Collection.Purge | src/controllers/expenseController.js:311-319 | `deleteMany` from a month keeps exactly the documents that are not of that expense with a stored month string at least the requested one, and keeps keys unique |
| Collection.DoomedOnTokens | src/controllers/expenseController.js:311-319 | for months a token spells, a document is purged exactly when it is of the expense and not earlier than the requested month |
| Collection.PurgeSparesYear10000 | src/controllers/expenseController.js:311-319 | a document of January 10000 survives a purge from June 9999 although it is the later month |
| Collection.FindWithout | src/controllers/expenseController.js:263 | dropping one key's documents does not change a lookup of another key |
| Common.FirstOf | src/controllers/variantController.js:20-22 | `a ?? b` is present iff either is; it is `a` when `a` is present and `b` otherwise |
| Models.OwnedIndex | src/controllers/expenseController.js:190-193 | `findOne({_id, userId})` finds the first base with that id and owner, and none exactly when no base matches both |
| Models.FindOwned | src/controllers/paymentController.js:19-22 | the base found belongs to the user; none is found exactly when the user owns no base with that id |
| Models.FindOwnedUnique | src/controllers/expenseController.js:303 | under unique ids, the owned base is found at its own position |
| Models.RemoveAt | src/controllers/expenseController.js:344 | deleting a base keeps the others in order and, under unique ids, removes its id |
| Models.DeleteOwned | src/controllers/monthlyExpenseController.js:212 | `deleteOne({_id, userId})` removes the owned base and keeps every base with another id |
| Models.MergeOverrides | src/controllers/variantController.js:20-22 | per field: a given value replaces the stored override; an absent one keeps it |
| Models.MergeIdempotent | src/controllers/variantController.js:20-22 | merging the same values twice is merging once, so the per-field `??` of `Models.MergeOverrides` is idempotent |
| Models.ApplyToBase | src/controllers/expenseController.js:258-264 | per field of the base: a value the update names replaces it, an absent one keeps it; the id never changes |
| Models.ApplyToBaseTwice | src/controllers/expenseController.js:258-264 | `$set: updates` on a base is idempotent: applying the same update twice is applying it once |
| Models.ApplyNothing | src/controllers/expenseController.js:258-264 | an update naming no field leaves the base unchanged |
| Models.ExpenseErrors | src/models/Expense.js:10-16 | creation fails validation exactly when name, amount, due day, start date or category is missing, with name reported first |
| Models.NewExpense | src/models/Expense.js:3-22 | a created base holds the given fields, a missing description defaults to empty, `endDate` to none and status to active |
| Models.NewPayment | src/models/Payment.js:11-19 | a payment's method and note default to empty and its status to confirmed |
| Expenses.CreateExpense | src/controllers/expenseController.js:8-90 | invalid drafts get 400 with the per-field details and change nothing; otherwise 201 with the new base appended, plus a confirmed payment for the start month exactly when `paymentStatus` is `paid` |
| Expenses.CreatedIsListed | src/controllers/expenseController.js:51-63 | a created base is listed exactly in the months from its start to before its end, and its first month shows as paid when created paid |
| Expenses.HasAnyExpense | src/controllers/expenseController.js:361-368 | `hasAny` is true iff the user owns some base |
| Materializer.EffectiveView | src/controllers/expenseController.js:125-159 | a row takes each of amount, due day and category from the variant when set, else from the base; status is paid iff a payment exists, due iff unpaid and past due |
| Materializer.ListedBases | src/controllers/expenseController.js:109-114 | exactly the user's active bases listed in the month, in store order |
| Materializer.Listing | src/controllers/expenseController.js:92-170 | a malformed month is 400; otherwise 200 with one row per listed base, in order, each merged with that month's variant and payment |
| Materializer.ListingMembership | src/controllers/expenseController.js:109-114 | a base is listed iff it is the user's, active, started by the month and not ended before the month after it |
| Materializer.ListingPaidIffPayment | src/controllers/expenseController.js:137-139 | a row is paid iff a payment for that expense and month exists |
| Materializer.ListingEmpty | src/controllers/expenseController.js:116 | with no listed base the answer is 200 with an empty list |
| Materializer.EndMonthNotListed | src/controllers/expenseController.js:113 | a base whose end falls in month m is not listed in m |
| Payments.MarkPaid | src/controllers/paymentController.js:4-51 | 400 for a bad month or a missing or non-positive amount, 404 when not owned, 409 when already paid; otherwise 201 and exactly one new payment with the defaults, nothing else changed |
| Payments.UnmarkPaid | src/controllers/paymentController.js:53-85 | 400 for a bad month, 404 when not owned or not paid; otherwise the month's payment is removed and nothing else changes |
| Payments.MarkThenUnmarkRestores | src/controllers/paymentController.js:4-85 | unmarking a month just marked succeeds and restores the store exactly |
| Variants.UpsertMonths | src/controllers/variantController.js:68-94 | one touched entry per month in order; under distinct months an entry is created iff no variant existed; keys stay unique |
| Variants.UpsertMonthsWrites | src/controllers/variantController.js:68-94 | each swept month holds its old overrides merged with the new values; no other key changes |
| Variants.UpdateMonthlyVariant | src/controllers/variantController.js:5-44 | a bad month is 400; otherwise the month's variant is the old one merged with the given values, created if missing, and nothing else changes |
| Variants.OtherUserWritesVariant | src/controllers/variantController.js:5-37 | as written, a user who does not own the base still writes its variant; the checked version refuses with 404 |
| Variants.UpdateMonthlyVariantOwned | src/controllers/variantController.js:5-44 | the same upsert, but 404 unless the caller owns the base |
| Variants.UpdateVariantsFromMonth | src/controllers/variantController.js:46-107 | 404 when not owned, 500 without a start month; otherwise every month from the start to the end (or 12 months ahead) is merged, in ascending order, reporting created iff new, and nothing else changes |
| Variants.FromMonthRepeat | src/controllers/variantController.js:46-107 | repeating the sweep changes nothing and reports every month as updated |
| ScopeEngine.OnlyPaymentEffect | src/controllers/expenseController.js:203-223 | `paid` ensures a payment exists (created with the edited amount only if none did), `unpaid` removes it, any other value leaves payments alone |
| ScopeEngine.EditOnly | src/controllers/expenseController.js:195-228 | the month's variant becomes the old overrides with the updates applied; no other variant and no base changes |
| ScopeEngine.EditFuture | src/controllers/expenseController.js:230-256 | every month from the given one to the base's end (or 60 months on) gets the updates, in ascending order; no other key changes |
| ScopeEngine.EditAll | src/controllers/expenseController.js:258-268 | only the base gets the updates, and all of its variants are dropped while others stay |
| ScopeEngine.EditWithScope | src/controllers/expenseController.js:172-276 | 400 for a bad scope, then 400 for a bad month, then 404 when not owned; otherwise dispatches on the scope; errors change nothing |
| ScopeEngine.DeleteFromMonth | src/controllers/expenseController.js:310-341 | variants and payments whose stored month string is at least the requested one are purged; in the first month the base is deleted, otherwise it ends at that month |
| ScopeEngine.DeleteEverything | src/controllers/expenseController.js:343-351 | the base and all its variants and payments are removed; other bases stay |
| ScopeEngine.DeleteWithScope | src/controllers/expenseController.js:278-359 | 400 for missing parameters, for a scope other than future or all, or for a bad month, then 404 when not owned; otherwise the future or all deletion; errors change nothing |
| ScopeProperties.EditOnlyIdempotent | src/controllers/expenseController.js:195-228 | repeating an `only` edit leaves reply and store as the first one left them |
| ScopeProperties.EditOnlyShowsMonth | src/controllers/expenseController.js:195-228 | after an `only` edit the month shows the updated fields and the requested payment status |
| ScopeProperties.FutureEditOpenEnded | src/controllers/expenseController.js:232-239 | an open-ended `future` edit touches 61 months |
| ScopeProperties.FutureEditKeepsEarlierMonths | src/controllers/expenseController.js:239 | months before the edit month keep their variants |
| ScopeProperties.FutureEditExample | src/controllers/expenseController.js:230-256 | worked example of `ScopeEngine.EditFuture`: an edit from August to a base ending in October reports exactly August, September, October |
| ScopeProperties.EditAllShowsBaseEverywhere | src/controllers/expenseController.js:258-268 | after an `all` edit every month shows the updated base fields |
| ScopeProperties.DeleteFutureHidesFromMonth | src/controllers/expenseController.js:330-336 | after delete-future the base is listed in no month from the given one on, that month included |
| ScopeProperties.DeleteFutureSparesYear10000 | src/controllers/expenseController.js:230-249 | a `future` delete from June 9999 keeps the January 10000 variant that an open-ended `future` edit wrote |
| ScopeProperties.DeleteFutureKeepsEarlierMonths | src/controllers/expenseController.js:310-341 | earlier months are listed exactly as before, when the base did not already end before the month |
| ScopeProperties.DeleteAllLeavesNothing | src/controllers/expenseController.js:343-351 | after delete-all no base, variant or payment of the expense remains |
| Legacy.FindInstance | src/controllers/monthlyExpenseController.js:78 | an instance is found by id and owner, and none exactly when no instance matches both |
| Legacy.KeepWhere | src/controllers/monthlyExpenseController.js:179-183 | the kept instances are exactly those satisfying the filter |
| Legacy.KeepWhereAppend | src/controllers/monthlyExpenseController.js:18-22 | `find` keeps the matching instances in store order: the matches of a concatenation are the concatenated matches |
| Legacy.KeepWhereCount | src/controllers/monthlyExpenseController.js:187 | the kept count plus the deleted count is the original count |
| Legacy.RowOf | src/controllers/monthlyExpenseController.js:26-34 | a row copies the instance's fields, takes the category from its base, and never has a title |
| Legacy.NamedRowOf | src/controllers/monthlyExpenseController.js:26-34 | the corrected row takes its title from the base's name and agrees with the original row on every other field |
| Legacy.InstancesOfMonth | src/controllers/monthlyExpenseController.js:4-36 | 400 without month or year; otherwise one row per instance of the user in that month and year, in order |
| Legacy.ListingNeverTitled | src/controllers/monthlyExpenseController.js:28 | as written, every listed row's title is missing |
| Legacy.InstancesOfMonthNamed | src/controllers/monthlyExpenseController.js:4-36 | the corrected listing carries a title exactly when the base exists |
| Legacy.ListingIsTheMonth | src/controllers/monthlyExpenseController.js:18-22 | an instance appears in the listing iff it is the user's and in that month and year |
| Legacy.UserYears | src/controllers/monthlyExpenseController.js:50 | `distinct("year")` is duplicate-free and holds exactly the years of the user's instances |
| Legacy.InsertBy | src/controllers/monthlyExpenseController.js:52 | inserting into a sorted list keeps it sorted and adds exactly the element |
| Legacy.SortBy | src/controllers/monthlyExpenseController.js:52 | sorting yields a sorted permutation |
| Legacy.StringOrderIsTotal | src/controllers/monthlyExpenseController.js:52 | the default `sort()` order (comparing decimal strings) is a total order |
| Legacy.AvailableYears | src/controllers/monthlyExpenseController.js:46-54 | 200 with the user's distinct years in string order |
| Legacy.FourDigitYearsOrder | src/controllers/monthlyExpenseController.js:52 | for four-digit years, string order agrees with numeric order |
| Legacy.FourDigitYearsSorted | src/controllers/monthlyExpenseController.js:46-54 | when every year has four digits, the answer is in numeric order |
| Legacy.StringOrderMisplacesYears | src/controllers/monthlyExpenseController.js:52 | as strings, 2025 sorts before 999 |
| Legacy.YearsMisordered | src/controllers/monthlyExpenseController.js:46-54 | as written, a user with years 999 and 2025 gets 2025 first |
| Legacy.AvailableYearsNumeric | src/controllers/monthlyExpenseController.js:46-54 | the corrected answer lists the same years strictly increasing |
| Legacy.YearsInNumericOrder | src/controllers/monthlyExpenseController.js:46-54 | corrected, 999 comes before 2025 |
| Legacy.HasAnyInstance | src/controllers/monthlyExpenseController.js:226-233 | `hasAny` is true iff some instance belongs to the caller |
| Legacy.HasAnyIffSomeYear | src/controllers/monthlyExpenseController.js:226-233 | `hasAny` is true iff the years list is non-empty |
| Legacy.FlagOf | src/controllers/monthlyExpenseController.js:71 | only `paid` and `unpaid` are accepted |
| Legacy.UpdateStatus | src/controllers/monthlyExpenseController.js:64-102 | 400 for another status, 404 when not found, 500 when the saved document breaks the schema bounds; otherwise only that instance's status changes |
| Legacy.UpdateStatusIdempotent | src/controllers/monthlyExpenseController.js:64-102 | setting the same status twice leaves reply and store as once |
| Legacy.FromCurrentIsMonthOrder | src/controllers/monthlyExpenseController.js:124 | the `$or` filter selects the same base's instances at or after the current (year, month) |
| Legacy.SetFields | src/controllers/monthlyExpenseController.js:126 | per instance field: a given value replaces it, an absent one keeps it; every other field is kept |
| Legacy.SetFieldsTwice | src/controllers/monthlyExpenseController.js:126 | `$set` of the same fields twice is `$set` once, which makes `Legacy.UpdateFromInstanceTwice` hold |
| Legacy.UpdateFromInstance | src/controllers/monthlyExpenseController.js:104-139 | 404 when not found; otherwise every instance from the current month on is rewritten, and the count reported is the number matched |
| Legacy.UpdateFromInstanceReachesCurrent | src/controllers/monthlyExpenseController.js:110-127 | the instance itself is always among those updated |
| Legacy.UpdateFromInstanceTwice | src/controllers/monthlyExpenseController.js:104-139 | repeating the update leaves reply and store unchanged |
| Legacy.UnvalidatedStatusListed | src/controllers/monthlyExpenseController.js:104-139 | `updateMany` skips the status enum of src/models/MonthlyExpense.js:29-33, so a scope update stores `"pending"` and the month's listing returns it |
| Legacy.UnvalidatedDueDayBlocksStatus | src/models/MonthlyExpense.js:38-43 | `updateMany` skips the bounds, so a due day of 40 is stored and the next status save answers 500 |
| Legacy.DeleteInstance | src/controllers/monthlyExpenseController.js:141-162 | 404 when not found; otherwise exactly that instance is removed |
| Legacy.DropAt | src/controllers/monthlyExpenseController.js:152 | `deleteOne` keeps every other instance in order |
| Legacy.DeleteInstanceTwice | src/controllers/monthlyExpenseController.js:141-162 | deleting the same instance again is 404 |
| Legacy.DeleteFuture | src/controllers/monthlyExpenseController.js:164-195 | 404 when not found; otherwise exactly the instances before the current month remain, and the count deleted is reported |
| Legacy.DeleteFutureKeepsEarlier | src/controllers/monthlyExpenseController.js:179-183 | an instance of an earlier month survives |
| Legacy.DeleteFutureTwice | src/controllers/monthlyExpenseController.js:164-195 | the current instance is itself deleted, so repeating is 404 |
| Legacy.DeleteAllOfBase | src/controllers/monthlyExpenseController.js:197-224 | 404 when the user owns no such base; otherwise the base and all its instances are removed |
| Legacy.DeleteAllOfBaseTwice | src/controllers/monthlyExpenseController.js:197-224 | repeating is 404 |
| JsValues.ToNumber | src/middlewares/validationMiddleware.js:35 | the numeric conversion in a comparison: fixed for primitives; a string never throws; a parsed object throws iff it has its own `toString` key and is otherwise NaN |
| JsValues.OwnKey | src/middlewares/validationMiddleware.js:17 | an own property of a parsed object is present iff some entry has that key, and is the last such entry |
| JsValues.Length | src/middlewares/validationMiddleware.js:17 | `length` is the UTF-16 length of a string, the size of an array, an object's own `length` key, and undefined otherwise |
| JsValues.Trim | src/middlewares/validationMiddleware.js:5 | `trim` removes white space at both ends only; what remains starts and ends with non-space, and is empty iff all was space |
| JsValues.TrimIdempotent | src/middlewares/validationMiddleware.js:5 | trimming twice is trimming once |
| JsValues.TrimPadding | src/middlewares/validationMiddleware.js:29 | padding a word with white space does not change its trim |
| JsValues.Utf16Length | src/middlewares/validationMiddleware.js:17 | `length` counts UTF-16 units, between one and two per character |
| Validation.TrimmedAtLeastTwo | src/middlewares/validationMiddleware.js:5 | passes iff the value is a string whose trim is at least two units; a truthy non-string throws |
| Validation.HasAt | src/middlewares/validationMiddleware.js:11 | passes iff a string or array contains `@`; any other truthy value throws |
| Validation.LongEnough | src/middlewares/validationMiddleware.js:17 | fails iff falsy or its `length` converts to a number below 6; throws iff that conversion throws |
| Validation.Positive | src/middlewares/validationMiddleware.js:35 | fails iff falsy or converting to a number that is at most 0; NaN passes; throws iff the conversion throws |
| Validation.DayOfMonth | src/middlewares/validationMiddleware.js:41 | passes iff truthy and NaN or between 1 and 31; throws iff the conversion throws |
| Validation.Chain | src/middlewares/validationMiddleware.js:2-24 | the first non-passing check decides the answer; the request goes on iff every check passes |
| Validation.ValidateUser | src/middlewares/validationMiddleware.js:2-24 | the request goes on iff name, email and password pass; otherwise 400 with the first failing field's message, or an exception |
| Validation.ValidateExpense | src/middlewares/validationMiddleware.js:26-60 | the request goes on iff all five fields pass; otherwise 400 with the first failing field's message, in the order name, amount, due day, start date, category, or an exception when the first non-passing check throws |
| Validation.NameCheckedFirst | src/middlewares/validationMiddleware.js:29-33 | a body failing every check is refused for its name |
| Validation.PaddingIgnored | src/middlewares/validationMiddleware.js:29 | white space around a name does not count towards its length |
| Validation.AmountNaNPasses | src/middlewares/validationMiddleware.js:35 | a non-numeric amount string passes the amount check |
| Validation.PasswordStringLength | src/middlewares/validationMiddleware.js:17 | a string password is refused iff it has fewer than six UTF-16 units, and never throws |
| Validation.ObjectPasswordTooShort | src/middlewares/validationMiddleware.js:17-22 | a password `{"length": 3}` is refused with the password message |
| Validation.ObjectAmountThrows | src/middlewares/validationMiddleware.js:35 | an amount `{"toString": 1}` makes the validator throw |
| Responses.ErrorResponse | src/utils/responseUtils.js:2-14 | `success` is false, `details` is present iff truthy |
| Responses.SuccessResponse | src/utils/responseUtils.js:16-28 | `success` is true, `data` is present iff truthy |
| Responses.DetailsReadBack | src/utils/responseUtils.js:36-39 | detail `i` read back by its `field` and `message` keys gives failing path `i` and its message |
| Responses.ErrorHandler | src/utils/responseUtils.js:31-56 | validation errors are 400 with details, then a duplicate key (`code === 11000`) is 409, then a cast error is 400, else 500; each status holds iff its condition does |
| Responses.ValidationBeforeDuplicate | src/utils/responseUtils.js:35-47 | a validation error carrying the duplicate code is still 400 |
| Responses.DuplicateCodeIsStrict | src/utils/responseUtils.js:45 | the string `"11000"` is not a duplicate key |
| Responses.EmptyDetailsStillSent | src/utils/responseUtils.js:9-11 | an empty details array is truthy and is sent |
| Responses.FalsyPayloadsDropped | src/utils/responseUtils.js:23-25 | `0`, `""` and `null` payloads are left out; an empty array is kept |

## Findings

| source | as written | input that shows it | evidently intended | confidence | as-written member | corrected member |
|---|---|---|---|---|---|---|
| src/controllers/variantController.js:5-37 | the variant upsert never checks that the caller owns the base expense | user B calls it with user A's expense id and a valid month | 404 unless the caller owns the base, as the from-month sweep does | medium, not executed | Variants.UpdateMonthlyVariant (shown by Variants.OtherUserWritesVariant) | Variants.UpdateMonthlyVariantOwned |
| src/controllers/monthlyExpenseController.js:28 | the row title reads `expenseId?.title`, a field the Expense schema does not have | any listing with a populated base | the base's `name` | high, not executed | Legacy.InstancesOfMonth (shown by Legacy.ListingNeverTitled) | Legacy.InstancesOfMonthNamed |
| src/controllers/monthlyExpenseController.js:52 | `years.sort()` compares years as strings | a user with instances in years 999 and 2025 gets `[2025, 999]` | numeric order | low, not executed | Legacy.AvailableYears (shown by Legacy.YearsMisordered) | Legacy.AvailableYearsNumeric (with Legacy.YearsInNumericOrder) |

The third finding only matters for years that do not have four digits.
`Legacy.FourDigitYearsSorted` proves the as-written order is numeric when every
year has four digits.

## Left out

- Authentication, routing and the demo seeding: the user id is a parameter.
- Database failures and the `catch` blocks that answer 500 with `error.message`:
  every store operation is modelled as succeeding.
- Invalid object ids (`CastError`) inside the controllers: ids are abstract values.
  `Responses.ErrorHandler` still classifies a `CastError`.
- Concurrency between requests: each request is one atomic step.
- Console logging: no observable effect.
- The `timestamps` fields: they never influence a reply. The one exception is the
  modified count, noted at `Legacy.UpdateFromInstance`.
- Floating point: amounts are `real`.
- The due date built from `new Date(`${month}-${dueDay}`)` and compared with
  today is the parameter `isPastDue`.
- Expenses.CreateExpense: the fresh id is a parameter, required to be unused
  (ObjectId uniqueness). Only the missing-field validation errors are modelled;
  the 500 answer for other creation failures is not.
- Materializer.Listing: the response body's `dueDate` field is not modelled.
- Variants.UpdateVariantsFromMonth: `fromMonth` is a parsed month with a year of
  1000..9999 and a month of 0..99 (`FromMonthModelled`). A missing `fromMonth` is
  the 500 path. Other strings, which go through JavaScript `Date` string parsing,
  are not modelled.
- Variants.UpdateMonthlyVariant: the repository's tests expect a `name` field on a
  variant. It is not in the variant schema and is not modelled.
- Models.ApplyToBase: an update that sets a field to `null` is not modelled. An
  update value is either absent or present.
- Models.NewExpense: a body with `description: null` is not modelled. Mongoose
  fills the default `""` only for a missing value and stores `null` as given; the
  model's draft has no null, so a created base always has a string description.
- Legacy.UpdateFromInstance: the update body is one of the four instance fields
  (value, paymentStatus, description, dueDay). Updates that rewrite month, year,
  userId or expenseId are not modelled. A status is any string, as `updateMany`
  stores it without the enum check; a non-string status and its cast are not
  modelled.
- Legacy.InstancesOfMonth: `month` and `year` are query numbers. A non-numeric
  query string (`Number` gives NaN) is not modelled.
- Validation.ValidateExpense: the numeral grammar of strings and the conversion
  of arrays are the parameter `Conversion`, not the ECMAScript algorithms.
- Validation.Positive: the conversion of strings and arrays to numbers is the
  parameter `Conversion`. Objects are converted as `JsValues.ToNumber` states.
- ScopeEngine.EditOnly: a request without an `updates` object is not modelled.
  The source upserts the month's variant, then reading `updates.paymentStatus`
  throws and the answer is 500. `Updates` always exists, with each field
  present or absent.
- ScopeEngine.EditOnly: updates that name `month` or `expenseId` are not
  modelled. The variant schema declares both, so `$set` keeps them and moves the
  variant to another month or onto another base, another user's included. That
  can leave two variants under one key, so the uniqueness these members promise
  holds only for the modelled updates.
- ScopeEngine.EditFuture: updates that name `month` or `expenseId` are not
  modelled, for the same reason: each upserted variant of the sweep would be
  re-keyed.
- Time zones: the model assumes the server's local time zone is UTC. Mongoose
  parses a date-only `startDate`/`endDate` as UTC midnight, while dayjs builds
  month bounds and renders `YYYY-MM` in local time. West of UTC a base starting
  on the first of a month is listed in the previous month too, and a future
  delete from its first month is not recognised as one. This affects
  `Materializer.Listing`, `ScopeEngine.DeleteFromMonth` and `Months.DayjsMonth`,
  which all compare months as if both sides used the same clock.
- Responses.ErrorHandler: a `ValidationError` is assumed to carry its `errors`
  object. The timestamp is a parameter.

=== FILE: collection.dfy ===
/**
 * A collection of documents keyed by (expenseId, month) — the shape of both the
 * variant and the payment collections.  Neither collection has a unique index, so a
 * collection is a sequence that could hold two documents with one key; `Unique`
 * states that it does not, and every operation below says whether it keeps it.
 *
 * `findOne` returns the first document with the key, `deleteOne` removes it, an
 * upsert rewrites it in place or appends a new document, `deleteMany` keeps the
 * documents its filter does not match, in order.
 */
module Collection {
  import opened Common
  import opened Months

  datatype Key = Key(expenseId: Id, month: MonthKey)

  datatype Doc<D> = Doc(key: Key, data: D)

  /** At most one document per key. */
  predicate Unique<D>(xs: seq<Doc<D>>)
  {
    forall i, j :: 0 <= i < j < |xs| ==> xs[i].key != xs[j].key
  }

  predicate HasKey<D>(xs: seq<Doc<D>>, k: Key)
  {
    exists i :: 0 <= i < |xs| && xs[i].key == k
  }

  /** Position of the first document with key `k`. */
  function IndexOf<D>(xs: seq<Doc<D>>, k: Key): (r: Option<nat>)
    ensures r.Some? ==> r.value < |xs| && xs[r.value].key == k
    ensures r.Some? ==> forall j :: 0 <= j < r.value ==> xs[j].key != k
    ensures r.None? <==> !HasKey(xs, k)
  {
    if |xs| == 0 then None
    else if xs[0].key == k then Some(0)
    else
      match IndexOf(xs[1..], k)
      case None =>
        assert forall j :: 1 <= j < |xs| ==> xs[j] == xs[1..][j - 1];
        None
      case Some(i) => Some(i + 1)
  }

  /** `findOne({ expenseId, month })`: the data of the first document with the key. */
  function Find<D>(xs: seq<Doc<D>>, k: Key): (r: Option<D>)
    ensures r.Some? <==> HasKey(xs, k)
    ensures r.Some? ==> Doc(k, r.value) in xs
  {
    match IndexOf(xs, k)
    case Some(i) => Some(xs[i].data)
    case None => None
  }

  /** The documents whose key is not `k`, in order. */
  function Without<D>(xs: seq<Doc<D>>, k: Key): (r: seq<Doc<D>>)
    ensures forall i :: 0 <= i < |r| ==> r[i] in xs && r[i].key != k
    ensures forall i :: 0 <= i < |xs| && xs[i].key != k ==> xs[i] in r
  {
    if |xs| == 0 then []
    else if xs[0].key == k then Without(xs[1..], k)
    else [xs[0]] + Without(xs[1..], k)
  }

  lemma {:induction false} WithoutAppend<D>(xs: seq<Doc<D>>, ys: seq<Doc<D>>, k: Key)
    ensures Without(xs + ys, k) == Without(xs, k) + Without(ys, k)
  {
    if |xs| == 0 {
      assert xs + ys == ys;
    } else {
      assert (xs + ys)[0] == xs[0] && (xs + ys)[1..] == xs[1..] + ys;
      WithoutAppend(xs[1..], ys, k);
    }
  }

  lemma WithoutReplace<D>(xs: seq<Doc<D>>, i: nat, d: Doc<D>, k: Key)
    requires i < |xs| && xs[i].key == k && d.key == k
    ensures Without(xs[i := d], k) == Without(xs, k)
  {
    var a, b := xs[..i], xs[i + 1..];
    assert xs == (a + [xs[i]]) + b;
    assert xs[i := d] == (a + [d]) + b;
    WithoutAppend(a + [xs[i]], b, k);
    WithoutAppend(a + [d], b, k);
    WithoutAppend(a, [xs[i]], k);
    WithoutAppend(a, [d], k);
    assert Without([d], k) == [] == Without([xs[i]], k);
  }

  lemma WithoutRemove<D>(xs: seq<Doc<D>>, i: nat, k: Key)
    requires i < |xs| && xs[i].key == k
    ensures Without(xs[..i] + xs[i + 1..], k) == Without(xs, k)
  {
    var a, x, b := xs[..i], xs[i], xs[i + 1..];
    assert xs == (a + [x]) + b;
    assert Without([x], k) == [] by {
      assert [x][1..] == [];
    }
    calc {
      Without(xs, k);
      { WithoutAppend(a + [x], b, k); }
      Without(a + [x], k) + Without(b, k);
      { WithoutAppend(a, [x], k); }
      Without(a, k) + Without(b, k);
      { WithoutAppend(a, b, k); }
      Without(a + b, k);
    }
  }

  /** The first document with key `k` is at position `i`. */
  lemma IndexOfIs<D>(xs: seq<Doc<D>>, k: Key, i: nat)
    requires i < |xs| && xs[i].key == k
    requires forall j :: 0 <= j < i ==> xs[j].key != k
    ensures IndexOf(xs, k) == Some(i)
  {
  }

  /** Looking up another key sees only the documents `Without` keeps. */
  lemma {:induction false} FindWithout<D>(xs: seq<Doc<D>>, k: Key, k': Key)
    requires k != k'
    ensures Find(Without(xs, k), k') == Find(xs, k')
  {
    if |xs| > 0 {
      FindWithout(xs[1..], k, k');
      FindCons(xs, k');
      if xs[0].key != k {
        var w := [xs[0]] + Without(xs[1..], k);
        assert w[1..] == Without(xs[1..], k);
        FindCons(w, k');
      }
    }
  }

  /** Looking up a key in a non-empty collection: the head, or else the tail. */
  lemma FindCons<D>(xs: seq<Doc<D>>, k: Key)
    requires |xs| > 0
    ensures Find(xs, k) == if xs[0].key == k then Some(xs[0].data) else Find(xs[1..], k)
  {
  }

  /** Two collections that agree off key `k` answer every other lookup alike. */
  lemma FindOtherKey<D>(xs: seq<Doc<D>>, ys: seq<Doc<D>>, k: Key, k': Key)
    requires Without(xs, k) == Without(ys, k) && k != k'
    ensures Find(xs, k') == Find(ys, k')
  {
    FindWithout(xs, k, k');
    FindWithout(ys, k, k');
  }

  /**
   * Upsert: rewrites the first document with key `k` in place, or appends one when
   * there is none.
   */
  function Put<D>(xs: seq<Doc<D>>, k: Key, d: D): (r: seq<Doc<D>>)
    ensures Find(r, k) == Some(d)
    ensures Without(r, k) == Without(xs, k)
    ensures forall k' :: k' != k ==> Find(r, k') == Find(xs, k')
    ensures |r| == if HasKey(xs, k) then |xs| else |xs| + 1
    ensures Unique(xs) ==> Unique(r)
  {
    match IndexOf(xs, k)
    case Some(i) =>
      var r := xs[i := Doc(k, d)];
      IndexOfIs(r, k, i);
      WithoutReplace(xs, i, Doc(k, d), k);
      forall k' | k' != k ensures Find(r, k') == Find(xs, k') {
        FindOtherKey(r, xs, k, k');
      }
      r
    case None =>
      var r := xs + [Doc(k, d)];
      IndexOfIs(r, k, |xs|);
      WithoutAppend(xs, [Doc(k, d)], k);
      assert Without(r, k) == Without(xs, k);
      forall k' | k' != k ensures Find(r, k') == Find(xs, k') {
        FindOtherKey(r, xs, k, k');
      }
      r
  }

  /** Upserting the same document twice is upserting it once. */
  lemma PutTwice<D>(xs: seq<Doc<D>>, k: Key, d: D)
    ensures Put(Put(xs, k, d), k, d) == Put(xs, k, d)
  {
    match IndexOf(xs, k)
    case Some(i) =>
      IndexOfIs(xs[i := Doc(k, d)], k, i);
    case None =>
      IndexOfIs(xs + [Doc(k, d)], k, |xs|);
  }

  /** `create`: appends a document whatever the collection already holds. */
  function Insert<D>(xs: seq<Doc<D>>, k: Key, d: D): (r: seq<Doc<D>>)
    ensures |r| == |xs| + 1 && r[..|xs|] == xs && r[|xs|] == Doc(k, d)
    ensures !HasKey(xs, k) ==> r == Put(xs, k, d)
    ensures Unique(xs) && !HasKey(xs, k) ==> Unique(r)
  {
    xs + [Doc(k, d)]
  }

  /** `deleteOne`: removes the first document with key `k`, if there is one. */
  function RemoveFirst<D>(xs: seq<Doc<D>>, k: Key): (r: seq<Doc<D>>)
    ensures Without(r, k) == Without(xs, k)
    ensures forall k' :: k' != k ==> Find(r, k') == Find(xs, k')
    ensures |r| == if HasKey(xs, k) then |xs| - 1 else |xs|
    ensures Unique(xs) ==> Unique(r) && !HasKey(r, k)
    ensures !HasKey(xs, k) ==> r == xs
  {
    match IndexOf(xs, k)
    case Some(i) =>
      var r := xs[..i] + xs[i + 1..];
      WithoutRemove(xs, i, k);
      forall k' | k' != k ensures Find(r, k') == Find(xs, k') {
        FindOtherKey(r, xs, k, k');
      }
      RemoveKeepsUnique(xs, i);
      r
    case None => xs
  }

  /** Dropping one document of a collection with distinct keys leaves none with its key. */
  lemma RemoveKeepsUnique<D>(xs: seq<Doc<D>>, i: nat)
    requires i < |xs|
    ensures Unique(xs) ==> Unique(xs[..i] + xs[i + 1..]) && !HasKey(xs[..i] + xs[i + 1..], xs[i].key)
  {
    var r := xs[..i] + xs[i + 1..];
    assert forall j :: 0 <= j < |r| ==> r[j] == if j < i then xs[j] else xs[j + 1];
  }

  /** Removing the document just appended gives back the collection as it was. */
  lemma RemoveAfterInsert<D>(xs: seq<Doc<D>>, k: Key, d: D)
    requires !HasKey(xs, k)
    ensures RemoveFirst(Insert(xs, k, d), k) == xs
  {
    var r := Insert(xs, k, d);
    IndexOfIs(r, k, |xs|);
    assert r[..|xs|] == xs;
  }

  /**
   * Whether `deleteMany` removes the document with key `k`: all documents of the
   * expense, or only those whose stored month string is at least the requested
   * one (`month: { $gte: from }`, a string comparison).
   */
  predicate Doomed(k: Key, id: Id, from: Option<MonthKey>)
  {
    k.expenseId == id && (from.None? || LexLe(MonthString(from.value), MonthString(k.month)))
  }

  /** For months that tokens spell, the string comparison is month order. */
  lemma DoomedOnTokens(k: Key, id: Id, from: MonthKey)
    requires IsTokenKey(k.month) && IsTokenKey(from)
    ensures Doomed(k, id, Some(from)) <==> k.expenseId == id && KeyLe(from, k.month)
  {
    MonthStringOrder(from, k.month);
  }

  /**
   * A document of January 10000 (which an open-ended future edit from 9999 writes)
   * is later in the calendar than June 9999 but survives a purge from it.
   */
  lemma PurgeSparesYear10000<D>(xs: seq<Doc<D>>, id: Id, i: nat)
    requires i < |xs| && xs[i].key == Key(id, MonthKey(10000, 1))
    ensures KeyLt(MonthKey(9999, 6), xs[i].key.month)
    ensures xs[i] in Purge(xs, id, Some(MonthKey(9999, 6)))
  {
    FiveDigitYearSortsEarly();
    LexTotal(MonthString(MonthKey(9999, 6)), MonthString(MonthKey(10000, 1)));
  }

  /** `deleteMany` for one expense, from a month on or entirely. */
  function Purge<D>(xs: seq<Doc<D>>, id: Id, from: Option<MonthKey>): (r: seq<Doc<D>>)
    ensures forall i :: 0 <= i < |r| ==> r[i] in xs && !Doomed(r[i].key, id, from)
    ensures forall i :: 0 <= i < |xs| && !Doomed(xs[i].key, id, from) ==> xs[i] in r
    ensures |r| <= |xs|
    ensures Unique(xs) ==> Unique(r)
  {
    Retain(xs, k => !Doomed(k, id, from))
  }

  /** The documents whose keys satisfy `keep`, in their order. */
  function Retain<D>(xs: seq<Doc<D>>, keep: Key -> bool): (r: seq<Doc<D>>)
    ensures forall i :: 0 <= i < |r| ==> r[i] in xs && keep(r[i].key)
    ensures forall i :: 0 <= i < |xs| && keep(xs[i].key) ==> xs[i] in r
    ensures |r| <= |xs|
    ensures Unique(xs) ==> Unique(r)
  {
    if |xs| == 0 then []
    else
      var rest := Retain(xs[1..], keep);
      if !keep(xs[0].key) then rest
      else
        var r := [xs[0]] + rest;
        assert Unique(xs) ==> Unique(r) by {
          if Unique(xs) {
            assert Unique(xs[1..]);
            assert forall j :: 0 <= j < |rest| ==> rest[j] in xs[1..];
          }
        }
        r
  }
}

=== FILE: common.dfy ===
/**
 * Shared vocabulary of the recurring-expense model: optional values (JavaScript's
 * null/undefined), the `??` operator, document identifiers and the HTTP-style reply
 * every controller produces.
 */
module Common {

  /** A value that may be absent: `None` stands for `undefined` or `null`. */
  datatype Option<+T> = None | Some(value: T)

  /** JavaScript's `a ?? b`: the value of `a` unless it is absent. */
  function OrElse<T>(a: Option<T>, b: T): T
  {
    match a
    case Some(v) => v
    case None => b
  }

  /** `a ?? b` where the fallback may itself be absent. */
  function FirstOf<T>(a: Option<T>, b: Option<T>): (r: Option<T>)
    ensures r.Some? <==> a.Some? || b.Some?
    ensures a.Some? ==> r == a
    ensures a.None? ==> r == b
  {
    if a.Some? then a else b
  }

  /** A document identifier (MongoDB ObjectId), compared by equality only. */
  type Id = nat

  /** The authenticated caller's id. */
  type UserId = nat

  /** One `{ field, message }` entry of a validation failure. */
  datatype FieldError = FieldError(field: string, message: string)

  /**
   * What a controller answers: a success status with a body, or an error status
   * with its message (and, for schema validation failures, the failing fields).
   */
  datatype Reply<+T> =
    | Ok(status: int, body: T)
    | Err(status: int, message: string, details: seq<FieldError>)

  /** An error reply without details. */
  function Reject<T>(status: int, message: string): (r: Reply<T>)
    ensures r.Err? && r.status == status && r.message == message && r.details == []
  {
    Err(status, message, [])
  }
}

=== FILE: expenses.dfy ===
/** Creating a recurring base, and asking whether a user has any. */
module Expenses {
  import opened Common
  import opened Months
  import opened Collection
  import opened Models
  import opened Materializer

  const MsgInvalid := "Dados inválidos para criar despesa"
  const CreateNote := "Marcado como pago na criação"

  /**
   * `createExpense`: a draft missing a required field is answered 400 with one
   * detail per missing field and nothing is written.  Otherwise the base is
   * appended with `newId` (a fresh ObjectId) and answered 201; with
   * `paymentStatus == "paid"` a confirmed manual payment of the base's amount is
   * also created for the month of its start date.
   */
  function CreateExpense(s: Store, user: UserId, newId: Id, d: ExpenseDraft,
                         paymentStatus: Option<string>, now: int): (r: Step<Expense>)
    requires IdUnused(s, newId)
    ensures r.reply.Err? <==> ExpenseErrors(d) != []
    ensures r.reply.Err? ==> r.reply == Err(400, MsgInvalid, ExpenseErrors(d)) && r.store == s
    ensures r.reply.Ok? ==>
      && r.reply.status == 201
      && r.reply.body == NewExpense(newId, user, d)
      && r.store.expenses == s.expenses + [r.reply.body]
      && r.store.variants == s.variants
    ensures r.reply.Ok? && paymentStatus == Some("paid") ==>
      && var key := Key(newId, CalendarMonth(d.startMonth.value));
      && Find(r.store.payments, key) == Some(PaymentData(d.amount.value, now, "manual", CreateNote, Confirmed))
      && |r.store.payments| == |s.payments| + 1
      && forall k :: k != key ==> Find(r.store.payments, k) == Find(s.payments, k)
    ensures r.reply.Ok? && paymentStatus != Some("paid") ==> r.store.payments == s.payments
    ensures Valid(s) ==> Valid(r.store)
  {
    var errors := ExpenseErrors(d);
    if errors != [] then Step(Err(400, MsgInvalid, errors), s)
    else
      var e := NewExpense(newId, user, d);
      var es := s.expenses + [e];
      if paymentStatus == Some("paid") then
        var key := Key(newId, CalendarMonth(d.startMonth.value));
        assert !HasKey(s.payments, key);
        var p := PaymentData(d.amount.value, now, "manual", CreateNote, Confirmed);
        Step(Ok(201, e), s.(expenses := es, payments := Insert(s.payments, key, p)))
      else
        Step(Ok(201, e), s.(expenses := es))
  }

  /** `Expense.exists({ userId })`. */
  function HasAnyExpense(es: seq<Expense>, user: UserId): (r: bool)
    ensures r <==> exists i :: 0 <= i < |es| && es[i].userId == user
  {
    if |es| == 0 then false
    else if es[0].userId == user then true
    else
      assert forall i :: 1 <= i < |es| ==> es[i] == es[1..][i - 1];
      HasAnyExpense(es[1..], user)
  }

  /**
   * A created base is listed for its owner in every month from its start through
   * the month before its end, and after "paid" its first month shows it paid.
   */
  lemma CreatedIsListed(s: Store, user: UserId, newId: Id, d: ExpenseDraft,
                        paymentStatus: Option<string>, now: int, m: int,
                        isPastDue: (MonthKey, int) -> bool)
    requires IdUnused(s, newId)
    requires CreateExpense(s, user, newId, d, paymentStatus, now).reply.Ok?
    ensures var r := CreateExpense(s, user, newId, d, paymentStatus, now);
            var e := r.reply.body;
            && e in r.store.expenses
            && HasAnyExpense(r.store.expenses, user)
            && (Listed(e, user, m) <==>
                  d.startMonth.value <= m && (d.endMonth.None? || m < d.endMonth.value))
            && (paymentStatus == Some("paid") ==>
                  ViewIn(r.store, e, CalendarMonth(d.startMonth.value), isPastDue).status == Paid)
  {
    var r := CreateExpense(s, user, newId, d, paymentStatus, now);
    assert r.store.expenses[|s.expenses|] == r.reply.body;
  }
}

=== FILE: js.dfy ===
/**
 * The few JavaScript value semantics the request validators and the error
 * responses rely on: truthiness, `String.prototype.trim`, `length`, the own keys
 * of a parsed object, and the numeric conversion behind `<` and `<=` against a
 * number.
 */
module JsValues {
  import opened Common

  /** A decoded JSON value, plus `undefined` and `NaN`. */
  datatype JsValue =
    | Undefined
    | Null
    | Boolean(b: bool)
    | Number(n: real)
    | NotANumber
    | Text(s: string)
    | Array(items: seq<JsValue>)
    | Object(fields: seq<(string, JsValue)>)

  /** ToBoolean: the falsy values are undefined, null, false, 0, NaN and "". */
  predicate Truthy(v: JsValue)
  {
    match v
    case Undefined => false
    case Null => false
    case Boolean(b) => b
    case Number(n) => n != 0.0
    case NotANumber => false
    case Text(s) => |s| > 0
    case Array(_) => true
    case Object(_) => true
  }

  /** The outcome of a numeric conversion: a number, NaN, or a thrown TypeError. */
  datatype Numeric = Num(x: real) | NaN | TypeError

  /**
   * The conversions the model does not spell out: `numeral` is the grammar of
   * numeric strings (`None` where it yields NaN), and `ofArray` stands for an
   * array's `join(",")` followed by that grammar, which throws when an element
   * cannot be turned into a string.
   */
  datatype Conversion = Conversion(numeral: string -> Option<real>, ofArray: seq<JsValue> -> Numeric)

  /**
   * The value of an own property of a parsed object.  `JSON.parse` keeps the last
   * of several equal keys.
   */
  function OwnKey(fields: seq<(string, JsValue)>, k: string): (r: Option<JsValue>)
    ensures r.None? <==> forall i :: 0 <= i < |fields| ==> fields[i].0 != k
    ensures r.Some? ==> exists i :: 0 <= i < |fields| && fields[i] == (k, r.value)
                                    && forall j :: i < j < |fields| ==> fields[j].0 != k
  {
    if |fields| == 0 then None
    else if fields[|fields| - 1].0 == k then
      var i := |fields| - 1;
      assert fields[i] == (k, fields[i].1);
      Some(fields[i].1)
    else
      var r := OwnKey(fields[..|fields| - 1], k);
      assert forall i :: 0 <= i < |fields| - 1 ==> fields[i] == fields[..|fields| - 1][i];
      r
  }

  /**
   * ToNumber.  The primitives convert as the language fixes.  A parsed object has
   * only `Object.prototype`'s methods: its `valueOf` yields the object itself, so
   * its `toString` decides.  An own `toString` key is not callable and the
   * conversion throws; otherwise the result is "[object Object]", which is NaN.
   */
  function ToNumber(v: JsValue, conv: Conversion): (r: Numeric)
    ensures v.Number? ==> r == Num(v.n)
    ensures v.Undefined? || v.NotANumber? ==> r == NaN
    ensures v.Null? ==> r == Num(0.0)
    ensures v.Boolean? ==> r == Num(if v.b then 1.0 else 0.0)
    ensures v.Text? ==> r != TypeError && (r.Num? <==> conv.numeral(v.s).Some?)
    ensures v.Text? && r.Num? ==> r.x == conv.numeral(v.s).value
    ensures v.Object? ==> (r == TypeError <==> OwnKey(v.fields, "toString").Some?) && !r.Num?
    ensures r == TypeError ==> v.Array? || v.Object?
  {
    match v
    case Undefined => NaN
    case Null => Num(0.0)
    case Boolean(b) => Num(if b then 1.0 else 0.0)
    case Number(n) => Num(n)
    case NotANumber => NaN
    case Text(s) => (match conv.numeral(s) case Some(x) => Num(x) case None => NaN)
    case Array(items) => conv.ofArray(items)
    case Object(fields) => if OwnKey(fields, "toString").Some? then TypeError else NaN
  }

  /**
   * `v.length` on a value that is not null or undefined: the UTF-16 length of a
   * string, the element count of an array, an object's own `length` key, and
   * `undefined` for the rest.
   */
  function Length(v: JsValue): (r: JsValue)
    ensures v.Text? ==> r == Number(Utf16Length(v.s) as real)
    ensures v.Array? ==> r == Number(|v.items| as real)
    ensures v.Object? ==> (r != Undefined ==> OwnKey(v.fields, "length") == Some(r))
                          && (OwnKey(v.fields, "length").Some? ==> r == OwnKey(v.fields, "length").value)
    ensures !v.Text? && !v.Array? && !v.Object? ==> r == Undefined
  {
    match v
    case Text(s) => Number(Utf16Length(s) as real)
    case Array(items) => Number(|items| as real)
    case Object(fields) => OrElse(OwnKey(fields, "length"), Undefined)
    case _ => Undefined
  }

  /** The WhiteSpace and LineTerminator code points `trim` removes. */
  predicate IsWhiteSpace(c: char)
  {
    || c == '\t' || c == '\U{000B}' || c == '\U{000C}' || c == ' ' || c == '\U{00A0}' || c == '\U{FEFF}'
    || c == '\U{1680}' || ('\U{2000}' <= c <= '\U{200A}') || c == '\U{202F}' || c == '\U{205F}' || c == '\U{3000}'
    || c == '\n' || c == '\r' || c == '\U{2028}' || c == '\U{2029}'
  }

  /** Where the leading white space ends. */
  function LeadEnd(s: string): (i: nat)
    ensures i <= |s|
    ensures forall k :: 0 <= k < i ==> IsWhiteSpace(s[k])
    ensures i == |s| || !IsWhiteSpace(s[i])
  {
    if |s| == 0 || !IsWhiteSpace(s[0]) then 0
    else
      var i := LeadEnd(s[1..]);
      assert forall k :: 1 <= k < i + 1 ==> s[k] == s[1..][k - 1];
      i + 1
  }

  /** Where the trailing white space begins. */
  function TrailStart(s: string): (j: nat)
    ensures j <= |s|
    ensures forall k :: j <= k < |s| ==> IsWhiteSpace(s[k])
    ensures j == 0 || !IsWhiteSpace(s[j - 1])
  {
    if |s| == 0 || !IsWhiteSpace(s[|s| - 1]) then |s|
    else TrailStart(s[..|s| - 1])
  }

  /**
   * `s.trim()`: the slice of `s` left after removing white space at both ends;
   * what remains neither starts nor ends with white space.
   */
  function Trim(s: string): (r: string)
    ensures exists i, j :: 0 <= i <= j <= |s| && r == s[i..j]
              && (forall k :: 0 <= k < i ==> IsWhiteSpace(s[k]))
              && (forall k :: j <= k < |s| ==> IsWhiteSpace(s[k]))
    ensures |r| > 0 ==> !IsWhiteSpace(r[0]) && !IsWhiteSpace(r[|r| - 1])
    ensures (forall k :: 0 <= k < |s| ==> IsWhiteSpace(s[k])) <==> r == []
  {
    var i := LeadEnd(s);
    var t := s[i..];
    var j := TrailStart(t);
    if i == |s| then
      assert s[i..i] == [];
      []
    else
      assert t[..j] == s[i..i + j];
      assert forall k :: i + j <= k < |s| ==> IsWhiteSpace(s[k]) by {
        forall k | i + j <= k < |s| ensures IsWhiteSpace(s[k]) {
          assert s[k] == t[k - i];
        }
      }
      assert j > 0 by {
        assert t[0] == s[i];
      }
      t[..j]
  }

  /** Trimming twice is trimming once. */
  lemma TrimIdempotent(s: string)
    ensures Trim(Trim(s)) == Trim(s)
  {
    var r := Trim(s);
    if |r| > 0 {
      var a := LeadEnd(r);
      assert a == 0;
      var b := TrailStart(r);
      assert b == |r|;
    }
  }

  /** Leading white space followed by a non-space ends where the white space does. */
  lemma {:induction false} LeadEndAfter(p: string, t: string)
    requires forall k :: 0 <= k < |p| ==> IsWhiteSpace(p[k])
    requires |t| == 0 || !IsWhiteSpace(t[0])
    ensures LeadEnd(p + t) == |p|
  {
    if |p| > 0 {
      assert (p + t)[1..] == p[1..] + t;
      LeadEndAfter(p[1..], t);
    } else {
      assert p + t == t;
    }
  }

  /** Trailing white space after a non-space starts where the white space does. */
  lemma {:induction false} TrailStartBefore(t: string, q: string)
    requires forall k :: 0 <= k < |q| ==> IsWhiteSpace(q[k])
    requires |t| == 0 || !IsWhiteSpace(t[|t| - 1])
    ensures TrailStart(t + q) == |t|
  {
    if |q| > 0 {
      assert (t + q)[..|t + q| - 1] == t + q[..|q| - 1];
      TrailStartBefore(t, q[..|q| - 1]);
    } else {
      assert t + q == t;
    }
  }

  /** Padding a word with white space on either side does not change its trim. */
  lemma TrimPadding(p: string, core: string, q: string)
    requires forall k :: 0 <= k < |p| ==> IsWhiteSpace(p[k])
    requires forall k :: 0 <= k < |q| ==> IsWhiteSpace(q[k])
    requires |core| > 0 && !IsWhiteSpace(core[0]) && !IsWhiteSpace(core[|core| - 1])
    ensures Trim(p + core + q) == core
  {
    var s := p + core + q;
    LeadEndAfter(p, core + q);
    assert p + (core + q) == s;
    assert s[|p|..] == core + q;
    TrailStartBefore(core, q);
    assert (core + q)[..|core|] == core;
  }

  /** A word without white space at its ends is its own trim. */
  lemma TrimWord(core: string)
    requires |core| > 0 && !IsWhiteSpace(core[0]) && !IsWhiteSpace(core[|core| - 1])
    ensures Trim(core) == core
  {
    TrimPadding([], core, []);
    assert [] + core + [] == core;
  }

  /** `length`: UTF-16 code units, two for a code point above U+FFFF. */
  function Utf16Length(s: string): (n: nat)
    ensures |s| <= n <= 2 * |s|
    ensures (forall k :: 0 <= k < |s| ==> s[k] as int <= 0xFFFF) ==> n == |s|
  {
    if |s| == 0 then 0
    else
      assert forall k :: 1 <= k < |s| ==> s[k] == s[1..][k - 1];
      (if s[0] as int > 0xFFFF then 2 else 1) + Utf16Length(s[1..])
  }
}

=== FILE: legacy.dfy ===
/**
 * The legacy store of monthly instances: one record per (base, year, month) with
 * its own value and payment status, addressed by integer year and month.
 */
module Legacy {
  import opened Common
  import opened Months
  import opened Models

  const MsgNeedMonthYear := "Mês e ano são obrigatórios"
  const MsgBadStatus := "Status inválido. Use 'paid' ou 'unpaid'"
  const MsgNoInstance := "Despesa mensal não encontrada"
  const MsgNoBase := "Despesa base não encontrada"
  const MsgStatusFailed := "Erro ao atualizar status da despesa mensal"

  /** The two statuses the status route accepts. */
  datatype PayFlag = PaidFlag | UnpaidFlag

  /** The string a flag is stored as. */
  function FlagText(f: PayFlag): (s: string)
    ensures s == "paid" || s == "unpaid"
    ensures f == PaidFlag <==> s == "paid"
  {
    match f
    case PaidFlag => "paid"
    case UnpaidFlag => "unpaid"
  }

  /**
   * A monthly instance.  The payment status is the stored string: the schema's
   * enum of "paid" and "unpaid" is checked by `save()` but not by `updateMany`.
   */
  datatype Instance = Instance(
    id: Id,
    userId: UserId,
    expenseId: Id,
    month: int,
    year: int,
    value: real,
    paymentStatus: string,
    description: string,
    dueDay: int)

  /**
   * The schema's bounds, which `save()` checks and `updateMany` does not.  The
   * status enum is left out: the only `save()` rewrites the status first.
   */
  predicate WellFormed(x: Instance)
  {
    1 <= x.month <= 12 && 1 <= x.dueDay <= 31
  }

  datatype LegacyStore = LegacyStore(bases: seq<Expense>, instances: seq<Instance>)

  datatype LegacyStep<+T> = LegacyStep(reply: Reply<T>, store: LegacyStore)

  predicate UniqueInstanceIds(xs: seq<Instance>)
  {
    forall i, j :: 0 <= i < j < |xs| ==> xs[i].id != xs[j].id
  }

  predicate LegacyValid(ls: LegacyStore)
  {
    UniqueIds(ls.bases) && UniqueInstanceIds(ls.instances)
  }

  // ---------------------------------------------------------------------------
  // Collection helpers
  // ---------------------------------------------------------------------------

  /** `find(filter)`, and the survivors of `deleteMany(not filter)`, in order. */
  function KeepWhere(xs: seq<Instance>, keep: Instance -> bool): (r: seq<Instance>)
    ensures forall i :: 0 <= i < |r| ==> r[i] in xs && keep(r[i])
    ensures forall i :: 0 <= i < |xs| && keep(xs[i]) ==> xs[i] in r
  {
    if |xs| == 0 then []
    else
      var rest := KeepWhere(xs[1..], keep);
      assert forall i :: 1 <= i < |xs| ==> xs[i] == xs[1..][i - 1];
      if keep(xs[0]) then [xs[0]] + rest else rest
  }

  /** What `deleteMany` keeps and what it counts as deleted add up to the collection. */
  lemma {:induction false} KeepWhereCount(xs: seq<Instance>, keep: Instance -> bool)
    ensures |KeepWhere(xs, keep)| + CountWhere(xs, x => !keep(x)) == |xs|
  {
    if |xs| > 0 {
      KeepWhereCount(xs[1..], keep);
    }
  }

  /** The filter is a left-to-right scan: the survivors of a concatenation are concatenated. */
  lemma {:induction false} KeepWhereAppend(xs: seq<Instance>, ys: seq<Instance>, keep: Instance -> bool)
    ensures KeepWhere(xs + ys, keep) == KeepWhere(xs, keep) + KeepWhere(ys, keep)
  {
    if |xs| == 0 {
      assert xs + ys == ys;
    } else {
      assert (xs + ys)[0] == xs[0] && (xs + ys)[1..] == xs[1..] + ys;
      KeepWhereAppend(xs[1..], ys, keep);
    }
  }

  /** How many records satisfy `p`. */
  function CountWhere(xs: seq<Instance>, p: Instance -> bool): (n: nat)
    ensures n <= |xs|
    ensures n == 0 <==> forall i :: 0 <= i < |xs| ==> !p(xs[i])
  {
    if |xs| == 0 then 0
    else
      assert forall i :: 1 <= i < |xs| ==> xs[i] == xs[1..][i - 1];
      (if p(xs[0]) then 1 else 0) + CountWhere(xs[1..], p)
  }

  /** `updateMany(filter, $set)`: every selected record is rewritten, the others kept. */
  function UpdateWhere(xs: seq<Instance>, sel: Instance -> bool, f: Instance -> Instance): (r: seq<Instance>)
    ensures |r| == |xs|
    ensures forall i :: 0 <= i < |xs| ==> r[i] == (if sel(xs[i]) then f(xs[i]) else xs[i])
  {
    if |xs| == 0 then []
    else
      var rest := UpdateWhere(xs[1..], sel, f);
      assert forall i :: 1 <= i < |xs| ==> xs[i] == xs[1..][i - 1];
      [if sel(xs[0]) then f(xs[0]) else xs[0]] + rest
  }

  /** `findOne({ _id: id, userId })`. */
  function FindInstance(xs: seq<Instance>, id: Id, user: UserId): (r: Option<nat>)
    ensures r.Some? ==> r.value < |xs| && xs[r.value].id == id && xs[r.value].userId == user
    ensures r.None? <==> forall i :: 0 <= i < |xs| ==> !(xs[i].id == id && xs[i].userId == user)
  {
    if |xs| == 0 then None
    else if xs[0].id == id && xs[0].userId == user then Some(0)
    else
      match FindInstance(xs[1..], id, user)
      case None =>
        assert forall i :: 1 <= i < |xs| ==> xs[i] == xs[1..][i - 1];
        None
      case Some(i) => Some(i + 1)
  }

  // ---------------------------------------------------------------------------
  // getMonthlyExpensesByMonth
  // ---------------------------------------------------------------------------

  /**
   * One listed instance.  `title` reads a field the base does not have, so it is
   * absent; `category` is the base's when the referenced base exists.
   */
  datatype Row = Row(id: Id, title: Option<string>, category: Option<string>, value: real,
                     paymentStatus: string, dueDay: int, description: string)

  /** `populate("expenseId")`: the referenced base, whoever owns it. */
  function BaseOf(bases: seq<Expense>, expenseId: Id): (r: Option<Expense>)
    ensures r.Some? ==> r.value in bases && r.value.id == expenseId
    ensures r.None? ==> forall e :: e in bases ==> e.id != expenseId
  {
    if |bases| == 0 then None
    else if bases[0].id == expenseId then Some(bases[0])
    else BaseOf(bases[1..], expenseId)
  }

  predicate InMonth(x: Instance, user: UserId, month: int, year: int)
  {
    x.userId == user && x.month == month && x.year == year
  }

  /** The row as written: the title is never found. */
  function RowOf(bases: seq<Expense>, x: Instance): (r: Row)
    ensures r.id == x.id && r.value == x.value && r.paymentStatus == x.paymentStatus
    ensures r.dueDay == x.dueDay && r.description == x.description
    ensures r.title.None?
    ensures r.category.Some? <==> BaseOf(bases, x.expenseId).Some?
    ensures r.category.Some? ==> r.category.value == BaseOf(bases, x.expenseId).value.category
  {
    var base := BaseOf(bases, x.expenseId);
    Row(x.id, None, if base.Some? then Some(base.value.category) else None,
        x.value, x.paymentStatus, x.dueDay, x.description)
  }

  /** The row with the title taken from the base's name. */
  function NamedRowOf(bases: seq<Expense>, x: Instance): (r: Row)
    ensures r.title.Some? <==> BaseOf(bases, x.expenseId).Some?
    ensures r.title.Some? ==> r.title.value == BaseOf(bases, x.expenseId).value.name
    ensures r.(title := None) == RowOf(bases, x)
  {
    var base := BaseOf(bases, x.expenseId);
    RowOf(bases, x).(title := if base.Some? then Some(base.value.name) else None)
  }

  /**
   * `getMonthlyExpensesByMonth` as written: 400 unless month and year are both
   * given; otherwise one row per instance of the caller in that (month, year), in
   * store order.
   */
  function InstancesOfMonth(ls: LegacyStore, user: UserId, month: Option<int>, year: Option<int>)
    : (r: Reply<seq<Row>>)
    ensures r.Err? <==> month.None? || year.None?
    ensures r.Err? ==> r == Reject(400, MsgNeedMonthYear)
    ensures r.Ok? ==>
      && month.Some? && year.Some?
      && var xs := KeepWhere(ls.instances, x => InMonth(x, user, month.value, year.value));
      && r.status == 200 && |r.body| == |xs|
      && forall i :: 0 <= i < |xs| ==> r.body[i] == RowOf(ls.bases, xs[i])
  {
    if month.None? || year.None? then Reject(400, MsgNeedMonthYear)
    else
      var xs := KeepWhere(ls.instances, x => InMonth(x, user, month.value, year.value));
      Ok(200, seq(|xs|, i requires 0 <= i < |xs| => RowOf(ls.bases, xs[i])))
  }

  /** `getMonthlyExpensesByMonth` with the title the listing evidently means: the base's name. */
  function InstancesOfMonthNamed(ls: LegacyStore, user: UserId, month: Option<int>, year: Option<int>)
    : (r: Reply<seq<Row>>)
    ensures r.Err? <==> month.None? || year.None?
    ensures r.Err? ==> r == Reject(400, MsgNeedMonthYear)
    ensures r.Ok? ==>
      && month.Some? && year.Some?
      && var xs := KeepWhere(ls.instances, x => InMonth(x, user, month.value, year.value));
      && r.status == 200 && |r.body| == |xs|
      && forall i :: 0 <= i < |xs| ==>
           r.body[i].(title := None) == RowOf(ls.bases, xs[i])
           && (r.body[i].title.Some? <==> BaseOf(ls.bases, xs[i].expenseId).Some?)
  {
    if month.None? || year.None? then Reject(400, MsgNeedMonthYear)
    else
      var xs := KeepWhere(ls.instances, x => InMonth(x, user, month.value, year.value));
      Ok(200, seq(|xs|, i requires 0 <= i < |xs| => NamedRowOf(ls.bases, xs[i])))
  }

  /** The listing as written never carries a title, even when every base exists. */
  lemma ListingNeverTitled(ls: LegacyStore, user: UserId, month: Option<int>, year: Option<int>, i: nat)
    requires InstancesOfMonth(ls, user, month, year).Ok?
    requires i < |InstancesOfMonth(ls, user, month, year).body|
    ensures InstancesOfMonth(ls, user, month, year).body[i].title.None?
  {
  }

  /**
   * With unique instance ids, an instance's id is in the month's listing exactly
   * when the instance is the caller's for that month and year.
   */
  lemma ListingIsTheMonth(ls: LegacyStore, user: UserId, m: int, y: int, x: Instance)
    requires UniqueInstanceIds(ls.instances) && x in ls.instances
    ensures var r := InstancesOfMonth(ls, user, Some(m), Some(y));
            (exists i :: 0 <= i < |r.body| && r.body[i].id == x.id) <==> InMonth(x, user, m, y)
  {
    var r := InstancesOfMonth(ls, user, Some(m), Some(y));
    var xs := KeepWhere(ls.instances, x => InMonth(x, user, m, y));
    if InMonth(x, user, m, y) {
      var i :| 0 <= i < |xs| && xs[i] == x;
      assert r.body[i].id == x.id;
    }
    if i :| 0 <= i < |r.body| && r.body[i].id == x.id {
      assert xs[i] in ls.instances && xs[i].id == x.id;
      var j :| 0 <= j < |ls.instances| && ls.instances[j] == xs[i];
      var k :| 0 <= k < |ls.instances| && ls.instances[k] == x;
      assert j == k;
    }
  }

  // ---------------------------------------------------------------------------
  // getAvailableYears
  // ---------------------------------------------------------------------------

  /** `distinct("year", { userId })`: each of the caller's years once. */
  function UserYears(xs: seq<Instance>, user: UserId): (r: seq<int>)
    ensures forall i, j :: 0 <= i < j < |r| ==> r[i] != r[j]
    ensures forall y :: y in r <==> exists i :: 0 <= i < |xs| && xs[i].userId == user && xs[i].year == y
  {
    if |xs| == 0 then []
    else
      var rest := UserYears(xs[1..], user);
      assert forall i :: 1 <= i < |xs| ==> xs[i] == xs[1..][i - 1];
      if xs[0].userId == user && xs[0].year !in rest then [xs[0].year] + rest else rest
  }

  ghost predicate TotalOrder(le: (int, int) -> bool)
  {
    && (forall a, b :: le(a, b) || le(b, a))
    && (forall a, b, c :: le(a, b) && le(b, c) ==> le(a, c))
  }

  lemma OrderTrans(le: (int, int) -> bool, a: int, b: int, c: int)
    requires TotalOrder(le) && le(a, b) && le(b, c)
    ensures le(a, c)
  {
  }

  lemma OrderFlip(le: (int, int) -> bool, a: int, b: int)
    requires TotalOrder(le) && !le(a, b)
    ensures le(b, a)
  {
  }

  ghost predicate SortedBy(xs: seq<int>, le: (int, int) -> bool)
  {
    forall i, j :: 0 <= i < j < |xs| ==> le(xs[i], xs[j])
  }

  /** Inserts `y` before the first element it does not follow. */
  function InsertBy(y: int, xs: seq<int>, le: (int, int) -> bool): (r: seq<int>)
    requires TotalOrder(le) && SortedBy(xs, le)
    ensures SortedBy(r, le)
    ensures multiset(r) == multiset(xs) + multiset{y}
  {
    if |xs| == 0 then [y]
    else if le(y, xs[0]) then
      assert forall k :: 0 <= k < |xs| ==> le(y, xs[k]) by {
        forall k | 0 <= k < |xs| ensures le(y, xs[k]) {
          if k > 0 {
            OrderTrans(le, y, xs[0], xs[k]);
          }
        }
      }
      [y] + xs
    else
      var rest := InsertBy(y, xs[1..], le);
      assert xs == [xs[0]] + xs[1..];
      InsertBehindHead(y, xs, le, rest);
      [xs[0]] + rest
  }

  /** Everything inserted behind the head of a sorted list still follows it. */
  lemma InsertBehindHead(y: int, xs: seq<int>, le: (int, int) -> bool, rest: seq<int>)
    requires TotalOrder(le) && SortedBy(xs, le) && |xs| > 0 && !le(y, xs[0])
    requires SortedBy(rest, le) && multiset(rest) == multiset(xs[1..]) + multiset{y}
    ensures SortedBy([xs[0]] + rest, le)
  {
    forall k | 0 <= k < |rest| ensures le(xs[0], rest[k]) {
      assert rest[k] in multiset(rest);
      if rest[k] == y {
        OrderFlip(le, y, xs[0]);
      } else {
        assert rest[k] in multiset(xs[1..]);
        var j :| 0 <= j < |xs[1..]| && xs[1..][j] == rest[k];
        assert xs[j + 1] == rest[k];
      }
    }
    var r := [xs[0]] + rest;
    forall i, j | 0 <= i < j < |r| ensures le(r[i], r[j]) {
      if i > 0 {
        assert r[i] == rest[i - 1] && r[j] == rest[j - 1];
      } else {
        assert r[j] == rest[j - 1];
      }
    }
  }

  /** Insertion sort: the elements, rearranged into `le` order. */
  function SortBy(xs: seq<int>, le: (int, int) -> bool): (r: seq<int>)
    requires TotalOrder(le)
    ensures SortedBy(r, le)
    ensures multiset(r) == multiset(xs)
  {
    if |xs| == 0 then []
    else
      assert xs == [xs[0]] + xs[1..];
      InsertBy(xs[0], SortBy(xs[1..], le), le)
  }

  /** JavaScript's default `sort()`: numbers compared as their decimal strings. */
  predicate StringLe(a: int, b: int)
  {
    LexLe(DecimalString(a), DecimalString(b))
  }

  lemma StringOrderIsTotal()
    ensures TotalOrder(StringLe)
  {
    forall a, b ensures StringLe(a, b) || StringLe(b, a) {
      LexTotal(DecimalString(a), DecimalString(b));
    }
    forall a, b, c | StringLe(a, b) && StringLe(b, c) ensures StringLe(a, c) {
      LexTrans(DecimalString(a), DecimalString(b), DecimalString(c));
    }
  }

  predicate NumLe(a: int, b: int)
  {
    a <= b
  }

  /**
   * `getAvailableYears` as written: the caller's distinct years, sorted by
   * JavaScript's default (string) order.
   */
  function AvailableYears(ls: LegacyStore, user: UserId): (r: Reply<seq<int>>)
    ensures r.Ok? && r.status == 200
    ensures SortedBy(r.body, StringLe)
    ensures forall i, j :: 0 <= i < j < |r.body| ==> r.body[i] != r.body[j]
    ensures forall y :: y in r.body <==>
              exists i :: 0 <= i < |ls.instances| && ls.instances[i].userId == user && ls.instances[i].year == y
  {
    StringOrderIsTotal();
    var ys := UserYears(ls.instances, user);
    var r := SortBy(ys, StringLe);
    DistinctPermutation(ys, r);
    Ok(200, r)
  }

  /** `getAvailableYears` with the numeric order the answer evidently means. */
  function AvailableYearsNumeric(ls: LegacyStore, user: UserId): (r: Reply<seq<int>>)
    ensures r.Ok? && r.status == 200
    ensures forall i, j :: 0 <= i < j < |r.body| ==> r.body[i] < r.body[j]
    ensures forall y :: y in r.body <==>
              exists i :: 0 <= i < |ls.instances| && ls.instances[i].userId == user && ls.instances[i].year == y
  {
    var ys := UserYears(ls.instances, user);
    var r := SortBy(ys, NumLe);
    DistinctPermutation(ys, r);
    Ok(200, r)
  }

  /** A rearrangement of a list without repeats has no repeats and the same members. */
  lemma DistinctPermutation(xs: seq<int>, r: seq<int>)
    requires multiset(r) == multiset(xs)
    requires forall i, j :: 0 <= i < j < |xs| ==> xs[i] != xs[j]
    ensures forall i, j :: 0 <= i < j < |r| ==> r[i] != r[j]
    ensures forall y :: y in r <==> y in xs
  {
    forall y ensures y in r <==> y in xs {
      assert y in r <==> y in multiset(r);
      assert y in xs <==> y in multiset(xs);
    }
    forall i, j | 0 <= i < j < |r| ensures r[i] != r[j] {
      if r[i] == r[j] {
        MultisetTwice(r, i, j);
        DistinctCount(xs, r[i]);
        assert false;
      }
    }
  }

  lemma MultisetTwice(r: seq<int>, i: nat, j: nat)
    requires i < j < |r| && r[i] == r[j]
    ensures multiset(r)[r[i]] >= 2
  {
    assert r == r[..i] + [r[i]] + r[i + 1..j] + [r[j]] + r[j + 1..];
  }

  lemma {:induction false} DistinctCount(xs: seq<int>, y: int)
    requires forall i, j :: 0 <= i < j < |xs| ==> xs[i] != xs[j]
    ensures multiset(xs)[y] <= 1
  {
    if |xs| > 0 {
      assert xs == [xs[0]] + xs[1..];
      DistinctCount(xs[1..], y);
      if xs[0] == y {
        assert y !in xs[1..];
      }
    }
  }

  /** For four-digit years the string order is the numeric order. */
  lemma FourDigitYearsOrder(a: int, b: int)
    requires 1000 <= a <= 9999 && 1000 <= b <= 9999
    ensures StringLe(a, b) <==> a <= b
  {
    FourDigits(a);
    FourDigits(b);
    DigitOrder(Digits(a, 4), Digits(b, 4));
  }

  /** So while every year has four digits the answer as written is in numeric order. */
  lemma FourDigitYearsSorted(ls: LegacyStore, user: UserId)
    requires forall i :: 0 <= i < |ls.instances| ==> 1000 <= ls.instances[i].year <= 9999
    ensures SortedBy(AvailableYears(ls, user).body, NumLe)
  {
    var r := AvailableYears(ls, user).body;
    forall i, j | 0 <= i < j < |r| ensures r[i] <= r[j] {
      assert r[i] in r && r[j] in r;
      FourDigitYearsOrder(r[i], r[j]);
    }
  }

  /** The string order puts 2025 before 999. */
  lemma StringOrderMisplacesYears()
    ensures StringLe(2025, 999) && !StringLe(999, 2025)
  {
    assert Width(2025 / 1000) == 1 && Width(2025 / 100) == 2 && Width(2025 / 10) == 3;
    assert Width(999 / 100) == 1 && Width(999 / 10) == 2;
    assert DecimalString(2025)[0] == '2';
    assert DecimalString(999)[0] == '9';
  }

  /** A caller with instances in 999 and 2025 is answered 2025 first. */
  lemma YearsMisordered(ls: LegacyStore, user: UserId, i: nat, j: nat)
    requires i < |ls.instances| && j < |ls.instances|
    requires ls.instances[i].userId == user && ls.instances[i].year == 999
    requires ls.instances[j].userId == user && ls.instances[j].year == 2025
    ensures var r := AvailableYears(ls, user).body;
            exists p, q :: 0 <= p < q < |r| && r[p] == 2025 && r[q] == 999
  {
    var r := AvailableYears(ls, user).body;
    assert 999 in r && 2025 in r;
    StringOrderMisplacesYears();
    SortedPlaces(r, StringLe, 2025, 999);
  }

  /** In a sorted list, `a` comes before `b` when `b` does not precede `a`. */
  lemma SortedPlaces(r: seq<int>, le: (int, int) -> bool, a: int, b: int)
    requires SortedBy(r, le) && a in r && b in r && a != b && !le(b, a)
    ensures exists p, q :: 0 <= p < q < |r| && r[p] == a && r[q] == b
  {
    var p :| 0 <= p < |r| && r[p] == a;
    var q :| 0 <= q < |r| && r[q] == b;
    assert p < q;
  }

  /** The numeric answer puts 999 before 2025. */
  lemma YearsInNumericOrder(ls: LegacyStore, user: UserId, i: nat, j: nat)
    requires i < |ls.instances| && j < |ls.instances|
    requires ls.instances[i].userId == user && ls.instances[i].year == 999
    requires ls.instances[j].userId == user && ls.instances[j].year == 2025
    ensures var r := AvailableYearsNumeric(ls, user).body;
            exists p, q :: 0 <= p < q < |r| && r[p] == 999 && r[q] == 2025
  {
    var r := AvailableYearsNumeric(ls, user).body;
    assert 999 in r && 2025 in r;
    var p :| 0 <= p < |r| && r[p] == 999;
    var q :| 0 <= q < |r| && r[q] == 2025;
    assert p < q;
  }

  // ---------------------------------------------------------------------------
  // updateMonthlyExpenseStatus
  // ---------------------------------------------------------------------------

  /** The two accepted status strings; anything else, or no value, is refused. */
  function FlagOf(status: Option<string>): (r: Option<PayFlag>)
    ensures r == Some(PaidFlag) <==> status == Some("paid")
    ensures r == Some(UnpaidFlag) <==> status == Some("unpaid")
  {
    if status == Some("paid") then Some(PaidFlag)
    else if status == Some("unpaid") then Some(UnpaidFlag)
    else None
  }

  /**
   * `updateMonthlyExpenseStatus`: 400 for a status other than "paid"/"unpaid",
   * 404 unless the caller owns an instance with that id, and otherwise the flag
   * is set and the record saved.  `save()` validates the whole record, so one
   * that an earlier `updateMany` left outside the schema's bounds fails with 500.
   */
  function UpdateStatus(ls: LegacyStore, user: UserId, id: Id, status: Option<string>)
    : (r: LegacyStep<Instance>)
    ensures FlagOf(status).None? ==> r == LegacyStep(Reject(400, MsgBadStatus), ls)
    ensures FlagOf(status).Some? && FindInstance(ls.instances, id, user).None? ==>
              r == LegacyStep(Reject(404, MsgNoInstance), ls)
    ensures r.reply.Err? ==> r.store == ls
    ensures r.reply.Ok? ==>
      && FlagOf(status).Some? && FindInstance(ls.instances, id, user).Some?
      && var i := FindInstance(ls.instances, id, user).value;
      && r.reply == Ok(200, ls.instances[i].(paymentStatus := FlagText(FlagOf(status).value)))
      && r.reply.body.id == id && r.reply.body.userId == user && WellFormed(r.reply.body)
      && r.store.bases == ls.bases && |r.store.instances| == |ls.instances|
      && (forall j :: 0 <= j < |ls.instances| && j != i ==> r.store.instances[j] == ls.instances[j])
      && r.store.instances[i] == r.reply.body
    ensures FlagOf(status).Some? && FindInstance(ls.instances, id, user).Some? ==>
              (r.reply.Ok? <==> WellFormed(ls.instances[FindInstance(ls.instances, id, user).value]))
    ensures LegacyValid(ls) ==> LegacyValid(r.store)
  {
    match FlagOf(status)
    case None => LegacyStep(Reject(400, MsgBadStatus), ls)
    case Some(flag) =>
      match FindInstance(ls.instances, id, user)
      case None => LegacyStep(Reject(404, MsgNoInstance), ls)
      case Some(i) =>
        var x := ls.instances[i].(paymentStatus := FlagText(flag));
        if !WellFormed(x) then LegacyStep(Reject(500, MsgStatusFailed), ls)
        else LegacyStep(Ok(200, x), ls.(instances := ls.instances[i := x]))
  }

  /** Setting the same status twice leaves what setting it once left. */
  lemma UpdateStatusIdempotent(ls: LegacyStore, user: UserId, id: Id, status: Option<string>)
    ensures var once := UpdateStatus(ls, user, id, status);
            var twice := UpdateStatus(once.store, user, id, status);
            twice.store == once.store && twice.reply == once.reply
  {
    var once := UpdateStatus(ls, user, id, status);
    if once.reply.Ok? {
      var i := FindInstance(ls.instances, id, user).value;
      var xs := once.store.instances;
      FindInstanceSameKeys(ls.instances, xs, id, user);
      assert xs[i := xs[i]] == xs;
    }
  }

  /** `findOne` looks only at ids and owners, so rewriting other fields does not move it. */
  lemma {:induction false} FindInstanceSameKeys(xs: seq<Instance>, ys: seq<Instance>, id: Id, user: UserId)
    requires |ys| == |xs|
    requires forall j :: 0 <= j < |xs| ==> ys[j].id == xs[j].id && ys[j].userId == xs[j].userId
    ensures FindInstance(ys, id, user) == FindInstance(xs, id, user)
  {
    if |xs| > 0 {
      assert forall j :: 0 <= j < |xs| - 1 ==> xs[1..][j] == xs[j + 1] && ys[1..][j] == ys[j + 1];
      FindInstanceSameKeys(xs[1..], ys[1..], id, user);
    }
  }

  // ---------------------------------------------------------------------------
  // updateMonthlyExpensesWithScope and deleteFutureMonthlyExpenses
  // ---------------------------------------------------------------------------

  /**
   * The filter both scope endpoints use: the caller's instances of the same base
   * in the current instance's month or later, written as the source's `$or`.
   */
  predicate FromCurrent(x: Instance, cur: Instance)
  {
    && x.userId == cur.userId && x.expenseId == cur.expenseId
    && (x.year > cur.year || (x.year == cur.year && x.month >= cur.month))
  }

  /** The `$or` is the (year, month) order. */
  lemma FromCurrentIsMonthOrder(x: Instance, cur: Instance)
    ensures FromCurrent(x, cur) <==>
              && x.userId == cur.userId && x.expenseId == cur.expenseId
              && KeyLe(MonthKey(cur.year, cur.month), MonthKey(x.year, x.month))
  {
  }

  /** The fields a scope update may carry; absent ones are left as they are. */
  datatype FieldSet = FieldSet(value: Option<real>, paymentStatus: Option<string>,
                               description: Option<string>, dueDay: Option<int>)

  /** `$set` of the given fields. */
  function SetFields(x: Instance, f: FieldSet): (r: Instance)
    ensures f.value.Some? ==> r.value == f.value.value
    ensures f.value.None? ==> r.value == x.value
    ensures f.paymentStatus.Some? ==> r.paymentStatus == f.paymentStatus.value
    ensures f.paymentStatus.None? ==> r.paymentStatus == x.paymentStatus
    ensures f.description.Some? ==> r.description == f.description.value
    ensures f.description.None? ==> r.description == x.description
    ensures f.dueDay.Some? ==> r.dueDay == f.dueDay.value
    ensures f.dueDay.None? ==> r.dueDay == x.dueDay
    ensures r.(value := x.value, paymentStatus := x.paymentStatus,
               description := x.description, dueDay := x.dueDay) == x
  {
    x.(value := OrElse(f.value, x.value), paymentStatus := OrElse(f.paymentStatus, x.paymentStatus),
       description := OrElse(f.description, x.description), dueDay := OrElse(f.dueDay, x.dueDay))
  }

  /**
   * `updateMonthlyExpensesWithScope`: 404 unless the caller owns the instance;
   * otherwise every selected instance gets the fields, without the schema's
   * validators.  The reply counts the selected instances: with timestamps on,
   * `updateMany` also sets `updatedAt`, so every matched record is modified.
   */
  function UpdateFromInstance(ls: LegacyStore, user: UserId, id: Id, f: FieldSet): (r: LegacyStep<nat>)
    ensures FindInstance(ls.instances, id, user).None? <==> r.reply.Err?
    ensures r.reply.Err? ==> r == LegacyStep(Reject(404, MsgNoInstance), ls)
    ensures r.reply.Ok? ==>
      && var cur := ls.instances[FindInstance(ls.instances, id, user).value];
      && r.reply.status == 200
      && r.reply.body == CountWhere(ls.instances, x => FromCurrent(x, cur))
      && r.store.bases == ls.bases && |r.store.instances| == |ls.instances|
      && forall j :: 0 <= j < |ls.instances| ==>
           r.store.instances[j] == (if FromCurrent(ls.instances[j], cur) then SetFields(ls.instances[j], f)
                                    else ls.instances[j])
    ensures LegacyValid(ls) ==> LegacyValid(r.store)
  {
    match FindInstance(ls.instances, id, user)
    case None => LegacyStep(Reject(404, MsgNoInstance), ls)
    case Some(i) =>
      var cur := ls.instances[i];
      var sel := x => FromCurrent(x, cur);
      var ys := UpdateWhere(ls.instances, sel, x => SetFields(x, f));
      assert forall j :: 0 <= j < |ys| ==> ys[j].id == ls.instances[j].id;
      LegacyStep(Ok(200, CountWhere(ls.instances, sel)), ls.(instances := ys))
  }

  /** The current instance itself is always among those rewritten. */
  lemma UpdateFromInstanceReachesCurrent(ls: LegacyStore, user: UserId, id: Id, f: FieldSet)
    requires FindInstance(ls.instances, id, user).Some?
    ensures var i := FindInstance(ls.instances, id, user).value;
            var r := UpdateFromInstance(ls, user, id, f);
            r.reply.Ok? && r.reply.body >= 1 && r.store.instances[i] == SetFields(ls.instances[i], f)
  {
    var i := FindInstance(ls.instances, id, user).value;
    var cur := ls.instances[i];
    assert FromCurrent(ls.instances[i], cur);
  }

  /** Repeating a scope update with the same fields changes nothing further. */
  lemma UpdateFromInstanceTwice(ls: LegacyStore, user: UserId, id: Id, f: FieldSet)
    ensures var once := UpdateFromInstance(ls, user, id, f);
            var twice := UpdateFromInstance(once.store, user, id, f);
            twice.store == once.store && twice.reply == once.reply
  {
    var once := UpdateFromInstance(ls, user, id, f);
    if once.reply.Ok? {
      var xs := ls.instances;
      var ys := once.store.instances;
      var cur := xs[FindInstance(xs, id, user).value];
      FindInstanceSameKeys(xs, ys, id, user);
      var cur' := ys[FindInstance(xs, id, user).value];
      assert cur'.userId == cur.userId && cur'.expenseId == cur.expenseId;
      assert cur'.year == cur.year && cur'.month == cur.month;
      forall j | 0 <= j < |ys| ensures FromCurrent(ys[j], cur') == FromCurrent(xs[j], cur) {
      }
      var zs := UpdateFromInstance(once.store, user, id, f).store.instances;
      RewriteAgainStable(xs, ys, zs, cur, cur', f);
      CountWhereAlike(xs, ys, x => FromCurrent(x, cur), x => FromCurrent(x, cur'));
    }
  }

  /** Rewriting the same selection with the same fields a second time changes nothing. */
  lemma RewriteAgainStable(xs: seq<Instance>, ys: seq<Instance>, zs: seq<Instance>,
                           cur: Instance, cur': Instance, f: FieldSet)
    requires |ys| == |xs| && |zs| == |ys|
    requires forall j :: 0 <= j < |xs| ==>
               ys[j] == (if FromCurrent(xs[j], cur) then SetFields(xs[j], f) else xs[j])
    requires forall j :: 0 <= j < |ys| ==>
               zs[j] == (if FromCurrent(ys[j], cur') then SetFields(ys[j], f) else ys[j])
    requires forall j :: 0 <= j < |ys| ==> FromCurrent(ys[j], cur') == FromCurrent(xs[j], cur)
    ensures zs == ys
  {
    forall j | 0 <= j < |ys| ensures zs[j] == ys[j] {
      SetFieldsTwice(xs[j], f);
    }
  }

  /** Setting the same fields twice is setting them once. */
  lemma SetFieldsTwice(x: Instance, f: FieldSet)
    ensures SetFields(SetFields(x, f), f) == SetFields(x, f)
  {
  }

  /**
   * `updateMany` skips the status enum too: a scope update may store "pending",
   * and the month's listing then shows it.
   */
  lemma UnvalidatedStatusListed(ls: LegacyStore, user: UserId, id: Id)
    requires FindInstance(ls.instances, id, user).Some?
    ensures var r := UpdateFromInstance(ls, user, id, FieldSet(None, Some("pending"), None, None));
            var x := r.store.instances[FindInstance(ls.instances, id, user).value];
            && r.reply.Ok? && x.paymentStatus == "pending" && x.id == id
            && exists row :: row in InstancesOfMonth(r.store, user, Some(x.month), Some(x.year)).body
                             && row.id == id && row.paymentStatus == "pending"
  {
    var f := FieldSet(None, Some("pending"), None, None);
    var r := UpdateFromInstance(ls, user, id, f);
    var i := FindInstance(ls.instances, id, user).value;
    UpdateFromInstanceReachesCurrent(ls, user, id, f);
    var x := r.store.instances[i];
    var xs := KeepWhere(r.store.instances, y => InMonth(y, user, x.month, x.year));
    assert InMonth(x, user, x.month, x.year);
    assert x in xs;
    var k :| 0 <= k < |xs| && xs[k] == x;
    assert InstancesOfMonth(r.store, user, Some(x.month), Some(x.year)).body[k] == RowOf(r.store.bases, x);
  }

  /** Two lists whose records agree on two filters pointwise have equal counts. */
  lemma {:induction false} CountWhereAlike(xs: seq<Instance>, ys: seq<Instance>, p: Instance -> bool, q: Instance -> bool)
    requires |xs| == |ys| && forall j :: 0 <= j < |xs| ==> p(xs[j]) == q(ys[j])
    ensures CountWhere(xs, p) == CountWhere(ys, q)
  {
    if |xs| > 0 {
      assert forall j :: 0 <= j < |xs| - 1 ==> xs[1..][j] == xs[j + 1] && ys[1..][j] == ys[j + 1];
      CountWhereAlike(xs[1..], ys[1..], p, q);
    }
  }

  /**
   * `updateMany` skips the schema's bounds: a scope update may store a due day
   * of 40, and setting that instance's status afterwards fails when `save()`
   * validates it.
   */
  lemma UnvalidatedDueDayBlocksStatus(ls: LegacyStore, user: UserId, id: Id, v: Option<real>)
    requires FindInstance(ls.instances, id, user).Some?
    ensures var f := FieldSet(v, None, None, Some(40));
            var r := UpdateFromInstance(ls, user, id, f);
            var i := FindInstance(ls.instances, id, user).value;
            && r.reply.Ok? && r.store.instances[i].dueDay == 40
            && UpdateStatus(r.store, user, id, Some("paid")).reply == Reject(500, MsgStatusFailed)
  {
    var f := FieldSet(v, None, None, Some(40));
    var r := UpdateFromInstance(ls, user, id, f);
    UpdateFromInstanceReachesCurrent(ls, user, id, f);
    FindInstanceSameKeys(ls.instances, r.store.instances, id, user);
  }

  // ---------------------------------------------------------------------------
  // deleteMonthlyExpense, deleteFutureMonthlyExpenses, deleteAllExpensesOfBase
  // ---------------------------------------------------------------------------

  /** `deleteMonthlyExpense`: 404 unless found; otherwise that one record is removed. */
  function DeleteInstance(ls: LegacyStore, user: UserId, id: Id): (r: LegacyStep<()>)
    ensures FindInstance(ls.instances, id, user).None? <==> r.reply.Err?
    ensures r.reply.Err? ==> r == LegacyStep(Reject(404, MsgNoInstance), ls)
    ensures r.reply.Ok? ==>
      && r.reply.status == 200 && r.store.bases == ls.bases
      && |r.store.instances| == |ls.instances| - 1
      && (forall x :: x in ls.instances && x.id != id ==> x in r.store.instances)
      && (forall x :: x in r.store.instances ==> x in ls.instances)
    ensures r.reply.Ok? && UniqueInstanceIds(ls.instances) ==>
      forall x :: x in r.store.instances ==> x.id != id
    ensures LegacyValid(ls) ==> LegacyValid(r.store)
  {
    match FindInstance(ls.instances, id, user)
    case None => LegacyStep(Reject(404, MsgNoInstance), ls)
    case Some(i) =>
      DropAtUnique(ls.instances, i);
      LegacyStep(Ok(200, ()), ls.(instances := DropAt(ls.instances, i)))
  }

  /** `deleteOne` of the record at index `i`. */
  function DropAt(xs: seq<Instance>, i: nat): (r: seq<Instance>)
    requires i < |xs|
    ensures |r| == |xs| - 1
    ensures forall j :: 0 <= j < |r| ==> r[j] == if j < i then xs[j] else xs[j + 1]
    ensures forall x :: x in r ==> x in xs
    ensures forall x :: x in xs && x.id != xs[i].id ==> x in r
  {
    var r := xs[..i] + xs[i + 1..];
    assert forall x :: x in xs && x.id != xs[i].id ==> x in r by {
      forall x | x in xs && x.id != xs[i].id ensures x in r {
        var j :| 0 <= j < |xs| && xs[j] == x;
        if j < i { assert r[j] == x; } else { assert r[j - 1] == x; }
      }
    }
    r
  }

  /** Dropping a record keeps ids unique and leaves no record with its id. */
  lemma DropAtUnique(xs: seq<Instance>, i: nat)
    requires i < |xs|
    ensures UniqueInstanceIds(xs) ==>
              UniqueInstanceIds(DropAt(xs, i)) && forall x :: x in DropAt(xs, i) ==> x.id != xs[i].id
  {
  }

  /** Deleting the same instance again finds nothing. */
  lemma DeleteInstanceTwice(ls: LegacyStore, user: UserId, id: Id)
    requires LegacyValid(ls)
    ensures var once := DeleteInstance(ls, user, id);
            once.reply.Ok? ==> DeleteInstance(once.store, user, id).reply == Reject(404, MsgNoInstance)
  {
  }

  /**
   * `deleteFutureMonthlyExpenses`: 404 unless found; otherwise every selected
   * instance is removed and the reply counts them.
   */
  function DeleteFuture(ls: LegacyStore, user: UserId, id: Id): (r: LegacyStep<nat>)
    ensures FindInstance(ls.instances, id, user).None? <==> r.reply.Err?
    ensures r.reply.Err? ==> r == LegacyStep(Reject(404, MsgNoInstance), ls)
    ensures r.reply.Ok? ==>
      && var cur := ls.instances[FindInstance(ls.instances, id, user).value];
      && r.reply.status == 200 && r.store.bases == ls.bases
      && r.reply.body == CountWhere(ls.instances, x => FromCurrent(x, cur))
      && r.reply.body + |r.store.instances| == |ls.instances|
      && (forall x :: x in r.store.instances <==> x in ls.instances && !FromCurrent(x, cur))
    ensures LegacyValid(ls) ==> LegacyValid(r.store)
  {
    match FindInstance(ls.instances, id, user)
    case None => LegacyStep(Reject(404, MsgNoInstance), ls)
    case Some(i) =>
      var cur := ls.instances[i];
      var keep := x => !FromCurrent(x, cur);
      var ys := KeepWhere(ls.instances, keep);
      KeepWhereCount(ls.instances, keep);
      CountWhereAlike(ls.instances, ls.instances, x => !keep(x), x => FromCurrent(x, cur));
      KeepWhereUnique(ls.instances, keep);
      LegacyStep(Ok(200, CountWhere(ls.instances, x => FromCurrent(x, cur))), ls.(instances := ys))
  }

  /** Filtering keeps ids unique. */
  lemma {:induction false} KeepWhereUnique(xs: seq<Instance>, keep: Instance -> bool)
    ensures UniqueInstanceIds(xs) ==> UniqueInstanceIds(KeepWhere(xs, keep))
  {
    if |xs| > 0 && UniqueInstanceIds(xs) {
      KeepWhereUnique(xs[1..], keep);
      var rest := KeepWhere(xs[1..], keep);
      assert forall j :: 0 <= j < |rest| ==> rest[j] in xs[1..];
      assert forall x :: x in xs[1..] ==> x.id != xs[0].id;
    }
  }

  /** Instances of the base in months before the current one survive the delete. */
  lemma DeleteFutureKeepsEarlier(ls: LegacyStore, user: UserId, id: Id, x: Instance)
    requires x in ls.instances && FindInstance(ls.instances, id, user).Some?
    requires var cur := ls.instances[FindInstance(ls.instances, id, user).value];
             KeyLt(MonthKey(x.year, x.month), MonthKey(cur.year, cur.month))
    ensures x in DeleteFuture(ls, user, id).store.instances
  {
  }

  /** The current instance goes too, so repeating the delete finds nothing. */
  lemma DeleteFutureTwice(ls: LegacyStore, user: UserId, id: Id)
    requires UniqueInstanceIds(ls.instances)
    ensures var once := DeleteFuture(ls, user, id);
            once.reply.Ok? ==> DeleteFuture(once.store, user, id).reply == Reject(404, MsgNoInstance)
  {
    var once := DeleteFuture(ls, user, id);
    if once.reply.Ok? {
      var i := FindInstance(ls.instances, id, user).value;
      var cur := ls.instances[i];
      assert FromCurrent(cur, cur);
      var ys := once.store.instances;
      forall k | 0 <= k < |ys| ensures !(ys[k].id == id && ys[k].userId == user) {
        assert ys[k] in ls.instances && !FromCurrent(ys[k], cur);
        var j :| 0 <= j < |ls.instances| && ls.instances[j] == ys[k];
        assert j != i;
      }
    }
  }

  predicate OfBase(x: Instance, expenseId: Id, user: UserId)
  {
    x.expenseId == expenseId && x.userId == user
  }

  /**
   * `deleteAllExpensesOfBase`: 404 unless the caller owns the base; otherwise the
   * caller's instances of it and the base itself are removed.
   */
  function DeleteAllOfBase(ls: LegacyStore, user: UserId, expenseId: Id): (r: LegacyStep<()>)
    ensures FindOwned(ls.bases, expenseId, user).None? <==> r.reply.Err?
    ensures r.reply.Err? ==> r == LegacyStep(Reject(404, MsgNoBase), ls)
    ensures r.reply.Ok? ==>
      && r.reply.status == 200
      && (forall x :: x in r.store.instances <==> x in ls.instances && !OfBase(x, expenseId, user))
      && r.store.bases == DeleteOwned(ls.bases, expenseId, user)
      && |r.store.bases| == |ls.bases| - 1
    ensures LegacyValid(ls) ==> LegacyValid(r.store)
  {
    match OwnedIndex(ls.bases, expenseId, user)
    case None => LegacyStep(Reject(404, MsgNoBase), ls)
    case Some(i) =>
      KeepWhereUnique(ls.instances, x => !OfBase(x, expenseId, user));
      LegacyStep(Ok(200, ()), LegacyStore(DeleteOwned(ls.bases, expenseId, user),
                                          KeepWhere(ls.instances, x => !OfBase(x, expenseId, user))))
  }

  /** After a whole-base delete the base is gone, so repeating it answers 404. */
  lemma DeleteAllOfBaseTwice(ls: LegacyStore, user: UserId, expenseId: Id)
    requires LegacyValid(ls)
    ensures var once := DeleteAllOfBase(ls, user, expenseId);
            once.reply.Ok? ==> DeleteAllOfBase(once.store, user, expenseId).reply == Reject(404, MsgNoBase)
  {
  }

  // ---------------------------------------------------------------------------
  // checkIfUserHasAnyMonthlyExpense
  // ---------------------------------------------------------------------------

  /** `exists({ userId })`: whether the caller has any instance at all. */
  function HasAnyInstance(ls: LegacyStore, user: UserId): (r: bool)
    ensures r <==> exists i :: 0 <= i < |ls.instances| && ls.instances[i].userId == user
  {
    AnyOfUser(ls.instances, user)
  }

  /** Scans the records for one of the caller's. */
  function AnyOfUser(xs: seq<Instance>, user: UserId): (r: bool)
    ensures r <==> exists i :: 0 <= i < |xs| && xs[i].userId == user
  {
    if |xs| == 0 then false
    else if xs[0].userId == user then true
    else
      assert forall i :: 1 <= i < |xs| ==> xs[i] == xs[1..][i - 1];
      AnyOfUser(xs[1..], user)
  }

  /** The caller has an instance exactly when the year list is not empty. */
  lemma HasAnyIffSomeYear(ls: LegacyStore, user: UserId)
    ensures HasAnyInstance(ls, user) <==> |AvailableYears(ls, user).body| > 0
  {
    var r := AvailableYears(ls, user).body;
    if HasAnyInstance(ls, user) {
      var i :| 0 <= i < |ls.instances| && ls.instances[i].userId == user;
      assert ls.instances[i].year in r;
    }
    if |r| > 0 {
      assert r[0] in r;
    }
  }
}

=== FILE: materializer.dfy ===
/**
 * The monthly listing: for one month token, one effective view per active base of
 * the caller whose dates cover that month, merging the base with that month's
 * variant and payment.
 */
module Materializer {
  import opened Common
  import opened Months
  import opened Collection
  import opened Models

  const MsgBadMonth := "Parâmetro 'month' inválido. Ex: 2025-06"

  datatype MonthStatus = Paid | Due | Unpaid

  /** The effective view of one expense in one month. */
  datatype View = View(
    expenseId: Id,
    name: string,
    category: string,
    amount: real,
    dueDay: int,
    description: string,
    status: MonthStatus,
    payment: Option<PaymentData>)

  /**
   * Merges a base with a month's overrides and payment.  `isPastDue(month, day)`
   * stands for "today is after the due date built from the month and the day".
   */
  function EffectiveView(e: Expense, o: Overrides, p: Option<PaymentData>, k: MonthKey,
                         isPastDue: (MonthKey, int) -> bool): (r: View)
    ensures r.expenseId == e.id && r.name == e.name && r.description == e.description
    ensures o.amount.Some? ==> r.amount == o.amount.value
    ensures o.amount.None? ==> r.amount == e.amount
    ensures o.dueDay.Some? ==> r.dueDay == o.dueDay.value
    ensures o.dueDay.None? ==> r.dueDay == e.dueDay
    ensures o.category.Some? ==> r.category == o.category.value
    ensures o.category.None? ==> r.category == e.category
    ensures r.status == Paid <==> p.Some?
    ensures r.status == Due <==> p.None? && isPastDue(k, r.dueDay)
    ensures r.payment == p
  {
    var dueDay := OrElse(o.dueDay, e.dueDay);
    var status := if p.Some? then Paid else if isPastDue(k, dueDay) then Due else Unpaid;
    View(e.id, e.name, OrElse(o.category, e.category), OrElse(o.amount, e.amount), dueDay,
         e.description, status, p)
  }

  /** The view of base `e` in month `k` of store `s`. */
  function ViewIn(s: Store, e: Expense, k: MonthKey, isPastDue: (MonthKey, int) -> bool): View
  {
    var key := Key(e.id, k);
    EffectiveView(e, OverridesAt(s.variants, key), Find(s.payments, key), k, isPastDue)
  }

  /**
   * The listing's query for month ordinal `m`: the caller's active bases with
   * `startDate <= end of m` and `endDate` null or `>= start of m + 1`.
   */
  predicate Listed(e: Expense, user: UserId, m: int)
  {
    && e.userId == user
    && e.status == Active
    && e.startMonth <= m
    && (e.endMonth.None? || e.endMonth.value >= m + 1)
  }

  /** The bases the query returns, in the collection's order. */
  function ListedBases(es: seq<Expense>, user: UserId, m: int): (r: seq<Expense>)
    ensures forall i :: 0 <= i < |r| ==> r[i] in es && Listed(r[i], user, m)
    ensures forall i :: 0 <= i < |es| && Listed(es[i], user, m) ==> es[i] in r
    ensures |r| <= |es|
    ensures (forall i :: 0 <= i < |es| ==> !Listed(es[i], user, m)) ==> r == []
  {
    if |es| == 0 then []
    else
      var rest := ListedBases(es[1..], user, m);
      assert forall i :: 1 <= i < |es| ==> es[i] == es[1..][i - 1];
      if Listed(es[0], user, m) then [es[0]] + rest else rest
  }

  /**
   * `getMonthlyExpenses`: 400 unless the month is a token; otherwise the views of the
   * listed bases, in order.
   */
  function Listing(s: Store, user: UserId, month: Option<string>,
                   isPastDue: (MonthKey, int) -> bool): (r: Reply<seq<View>>)
    ensures ParseMonthParam(month).None? <==> r.Err?
    ensures r.Err? ==> r == Reject(400, MsgBadMonth)
    ensures r.Ok? ==>
      && r.status == 200
      && var k := ParseMonthParam(month).value;
      && var bases := ListedBases(s.expenses, user, DayjsMonth(k));
      && |r.body| == |bases|
      && forall i :: 0 <= i < |bases| ==> r.body[i] == ViewIn(s, bases[i], k, isPastDue)
  {
    match ParseMonthParam(month)
    case None => Reject(400, MsgBadMonth)
    case Some(k) =>
      var bases := ListedBases(s.expenses, user, DayjsMonth(k));
      Ok(200, seq(|bases|, i requires 0 <= i < |bases| => ViewIn(s, bases[i], k, isPastDue)))
  }

  /** The query is a left-to-right scan: appending a base appends at most its own view. */
  lemma {:induction false} ListedBasesAppend(es: seq<Expense>, e: Expense, user: UserId, m: int)
    ensures ListedBases(es + [e], user, m)
         == ListedBases(es, user, m) + (if Listed(e, user, m) then [e] else [])
  {
    if |es| == 0 {
      assert es + [e] == [e];
    } else {
      assert (es + [e])[0] == es[0] && (es + [e])[1..] == es[1..] + [e];
      ListedBasesAppend(es[1..], e, user, m);
    }
  }

  /**
   * A base of the store appears in the month's listing exactly when it belongs to
   * the caller, is active, started no later than that month and ends after it.
   */
  lemma ListingMembership(s: Store, user: UserId, month: Option<string>,
                          isPastDue: (MonthKey, int) -> bool, e: Expense)
    requires ParseMonthParam(month).Some? && e in s.expenses
    ensures var k := ParseMonthParam(month).value;
            var m := DayjsMonth(k);
            e in ListedBases(s.expenses, user, m) <==>
              e.userId == user && e.status == Active && e.startMonth <= m
              && (e.endMonth.None? || e.endMonth.value > m)
  {
  }

  /** A month's listing reports "paid" exactly for the bases that have a payment that month. */
  lemma ListingPaidIffPayment(s: Store, user: UserId, month: Option<string>,
                              isPastDue: (MonthKey, int) -> bool, i: nat)
    requires Listing(s, user, month, isPastDue).Ok? && i < |Listing(s, user, month, isPastDue).body|
    ensures var v := Listing(s, user, month, isPastDue).body[i];
            v.status == Paid <==> HasKey(s.payments, Key(v.expenseId, ParseMonthParam(month).value))
  {
  }

  /** With nothing listed the answer is the empty list. */
  lemma ListingEmpty(s: Store, user: UserId, month: Option<string>, isPastDue: (MonthKey, int) -> bool)
    requires ParseMonthParam(month).Some?
    requires forall e :: e in s.expenses ==> !Listed(e, user, DayjsMonth(ParseMonthParam(month).value))
    ensures Listing(s, user, month, isPastDue) == Ok(200, [])
  {
  }

  /** A base is not listed in the month that contains its end date. */
  lemma EndMonthNotListed(e: Expense, user: UserId, m: int)
    requires e.endMonth == Some(m)
    ensures !Listed(e, user, m)
  {
  }
}

=== FILE: models.dfy ===
/**
 * The records of the recurring-expense store: expense bases, per-month variants
 * (sparse overrides) and payments, and the store that holds the three
 * collections.
 */
module Models {
  import opened Common
  import opened Months
  import opened Collection

  datatype ExpenseStatus = Active | Inactive

  datatype PaymentStatus = Confirmed | Pending | Failed

  /**
   * An expense base.  Dates are month ordinals: `startMonth` is the month of
   * `startDate`, `endMonth` that of `endDate`, absent when the expense is open-ended.
   */
  datatype Expense = Expense(
    id: Id,
    userId: UserId,
    name: string,
    description: string,
    amount: real,
    dueDay: int,
    startMonth: int,
    endMonth: Option<int>,
    category: string,
    status: ExpenseStatus)

  /**
   * The override fields of a variant; an absent field is inherited from the base.
   * The variant schema declares exactly these three.
   */
  datatype Overrides = Overrides(amount: Option<real>, dueDay: Option<int>, category: Option<string>)

  const NoOverrides := Overrides(None, None, None)

  /** A variant: the overrides of one expense for one month token. */
  type Variant = Doc<Overrides>

  /** A payment record; `via` is the schema's `method` field (a reserved word here). */
  datatype PaymentData = PaymentData(amount: real, paidAt: int, via: string, note: string, status: PaymentStatus)

  /** A payment of one expense for one month token. */
  type Payment = Doc<PaymentData>

  datatype Store = Store(expenses: seq<Expense>, variants: seq<Variant>, payments: seq<Payment>)

  /** What an operation answers, together with the store it leaves behind. */
  datatype Step<+T> = Step(reply: Reply<T>, store: Store)

  predicate UniqueIds(es: seq<Expense>)
  {
    forall i, j :: 0 <= i < j < |es| ==> es[i].id != es[j].id
  }

  /**
   * The store's invariant: base ids are unique (they are `_id`s), and — with no
   * unique index to enforce it — there is at most one variant and at most one
   * payment per (expenseId, month).
   */
  predicate Valid(s: Store)
  {
    UniqueIds(s.expenses) && Unique(s.variants) && Unique(s.payments)
  }

  /** An id that no record of the store mentions, as a freshly generated ObjectId. */
  predicate IdUnused(s: Store, id: Id)
  {
    && (forall i :: 0 <= i < |s.expenses| ==> s.expenses[i].id != id)
    && (forall i :: 0 <= i < |s.variants| ==> s.variants[i].key.expenseId != id)
    && (forall i :: 0 <= i < |s.payments| ==> s.payments[i].key.expenseId != id)
  }

  // ---------------------------------------------------------------------------
  // Bases: `Expense.findOne / updateOne / deleteOne({ _id, userId })`
  // ---------------------------------------------------------------------------

  predicate OwnedBy(e: Expense, id: Id, user: UserId)
  {
    e.id == id && e.userId == user
  }

  /** Position of the first base with this id owned by this user. */
  function OwnedIndex(es: seq<Expense>, id: Id, user: UserId): (r: Option<nat>)
    ensures r.Some? ==> r.value < |es| && OwnedBy(es[r.value], id, user)
    ensures r.Some? ==> forall j :: 0 <= j < r.value ==> !OwnedBy(es[j], id, user)
    ensures r.None? <==> forall j :: 0 <= j < |es| ==> !OwnedBy(es[j], id, user)
  {
    if |es| == 0 then None
    else if OwnedBy(es[0], id, user) then Some(0)
    else
      match OwnedIndex(es[1..], id, user)
      case None =>
        assert forall j :: 1 <= j < |es| ==> es[j] == es[1..][j - 1];
        None
      case Some(i) => Some(i + 1)
  }

  /** The base a request may act on: absent when missing or owned by someone else. */
  function FindOwned(es: seq<Expense>, id: Id, user: UserId): (r: Option<Expense>)
    ensures r.Some? ==> r.value in es && OwnedBy(r.value, id, user)
    ensures r.None? <==> forall e :: e in es ==> !OwnedBy(e, id, user)
  {
    match OwnedIndex(es, id, user)
    case Some(i) => Some(es[i])
    case None => None
  }

  /** With unique ids, the owned base is the one base carrying the id. */
  lemma FindOwnedUnique(es: seq<Expense>, id: Id, user: UserId, i: nat)
    requires UniqueIds(es) && i < |es| && OwnedBy(es[i], id, user)
    ensures OwnedIndex(es, id, user) == Some(i)
  {
  }

  /** Removes the bases at the given position. */
  function RemoveAt(es: seq<Expense>, i: nat): (r: seq<Expense>)
    requires i < |es|
    ensures |r| == |es| - 1
    ensures forall j :: 0 <= j < |r| ==> r[j] == if j < i then es[j] else es[j + 1]
    ensures UniqueIds(es) ==> UniqueIds(r) && forall j :: 0 <= j < |r| ==> r[j].id != es[i].id
  {
    es[..i] + es[i + 1..]
  }

  /** `deleteOne({ _id, userId })`. */
  function DeleteOwned(es: seq<Expense>, id: Id, user: UserId): (r: seq<Expense>)
    ensures OwnedIndex(es, id, user).None? ==> r == es
    ensures UniqueIds(es) ==> UniqueIds(r) && forall e :: e in r ==> !OwnedBy(e, id, user)
    ensures forall e :: e in es && e.id != id ==> e in r
  {
    match OwnedIndex(es, id, user)
    case None => es
    case Some(i) =>
      var r := RemoveAt(es, i);
      assert forall e :: e in es && e.id != id ==> e in r by {
        forall e | e in es && e.id != id ensures e in r {
          var j :| 0 <= j < |es| && es[j] == e;
          assert j != i;
          if j < i { assert r[j] == e; } else { assert r[j - 1] == e; }
        }
      }
      r
  }

  // ---------------------------------------------------------------------------
  // Overrides and partial updates
  // ---------------------------------------------------------------------------

  /** The overrides a variant holds for a key, or none when there is no variant. */
  function OverridesAt(vs: seq<Variant>, k: Key): Overrides
  {
    OrElse(Find(vs, k), NoOverrides)
  }

  /**
   * Each supplied field replaces the stored one; an absent field keeps it
   * (`field ?? existing.field`, and likewise `$set` of the keys present).
   */
  function MergeOverrides(o: Overrides, amount: Option<real>, dueDay: Option<int>, category: Option<string>): (r: Overrides)
    ensures amount.Some? ==> r.amount == amount
    ensures amount.None? ==> r.amount == o.amount
    ensures dueDay.Some? ==> r.dueDay == dueDay
    ensures dueDay.None? ==> r.dueDay == o.dueDay
    ensures category.Some? ==> r.category == category
    ensures category.None? ==> r.category == o.category
  {
    Overrides(FirstOf(amount, o.amount), FirstOf(dueDay, o.dueDay), FirstOf(category, o.category))
  }

  /** Writing the same fields twice is writing them once. */
  lemma MergeIdempotent(o: Overrides, amount: Option<real>, dueDay: Option<int>, category: Option<string>)
    ensures MergeOverrides(MergeOverrides(o, amount, dueDay, category), amount, dueDay, category)
         == MergeOverrides(o, amount, dueDay, category)
  {
  }

  /**
   * The `updates` object of a scoped edit: each field is present or absent.  Only
   * the fields a schema declares survive a `$set`: the base takes every base field,
   * and a variant its override fields amount, dueDay and category.  The variant
   * schema also declares the key fields `expenseId` and `month`; updates naming
   * them are not represented here.  `paymentStatus` is declared by neither schema
   * and only steers the payment side effect.
   */
  datatype Updates = Updates(
    userId: Option<UserId>,
    name: Option<string>,
    description: Option<string>,
    amount: Option<real>,
    dueDay: Option<int>,
    startMonth: Option<int>,
    endMonth: Option<Option<int>>,
    category: Option<string>,
    status: Option<ExpenseStatus>,
    paymentStatus: Option<string>)

  /** `$set: updates` on a variant. */
  function ApplyToVariant(o: Overrides, u: Updates): Overrides
  {
    MergeOverrides(o, u.amount, u.dueDay, u.category)
  }

  /** `$set: updates` on a base: present fields overwrite, the id never changes. */
  function ApplyToBase(e: Expense, u: Updates): (r: Expense)
    ensures r.id == e.id
    ensures u.userId.Some? ==> r.userId == u.userId.value
    ensures u.userId.None? ==> r.userId == e.userId
    ensures u.name.Some? ==> r.name == u.name.value
    ensures u.name.None? ==> r.name == e.name
    ensures u.description.Some? ==> r.description == u.description.value
    ensures u.description.None? ==> r.description == e.description
    ensures u.amount.Some? ==> r.amount == u.amount.value
    ensures u.amount.None? ==> r.amount == e.amount
    ensures u.dueDay.Some? ==> r.dueDay == u.dueDay.value
    ensures u.dueDay.None? ==> r.dueDay == e.dueDay
    ensures u.startMonth.Some? ==> r.startMonth == u.startMonth.value
    ensures u.startMonth.None? ==> r.startMonth == e.startMonth
    ensures u.endMonth.Some? ==> r.endMonth == u.endMonth.value
    ensures u.endMonth.None? ==> r.endMonth == e.endMonth
    ensures u.category.Some? ==> r.category == u.category.value
    ensures u.category.None? ==> r.category == e.category
    ensures u.status.Some? ==> r.status == u.status.value
    ensures u.status.None? ==> r.status == e.status
  {
    e.(userId := OrElse(u.userId, e.userId),
       name := OrElse(u.name, e.name),
       description := OrElse(u.description, e.description),
       amount := OrElse(u.amount, e.amount),
       dueDay := OrElse(u.dueDay, e.dueDay),
       startMonth := OrElse(u.startMonth, e.startMonth),
       endMonth := OrElse(u.endMonth, e.endMonth),
       category := OrElse(u.category, e.category),
       status := OrElse(u.status, e.status))
  }

  /** An update with no fields leaves the base as it was. */
  lemma ApplyNothing(e: Expense)
    ensures ApplyToBase(e, Updates(None, None, None, None, None, None, None, None, None, None)) == e
  {
  }

  /** Applying the same update twice is applying it once. */
  lemma ApplyToBaseTwice(e: Expense, u: Updates)
    ensures ApplyToBase(ApplyToBase(e, u), u) == ApplyToBase(e, u)
  {
  }

  // ---------------------------------------------------------------------------
  // Schema rules
  // ---------------------------------------------------------------------------

  /** The fields of an expense as a request supplies them; each may be missing. */
  datatype ExpenseDraft = ExpenseDraft(
    name: Option<string>,
    description: Option<string>,
    amount: Option<real>,
    dueDay: Option<int>,
    startMonth: Option<int>,
    endMonth: Option<int>,
    category: Option<string>)

  /** A required string fails on a missing value and on the empty string. */
  predicate StringPresent(v: Option<string>)
  {
    v.Some? && |v.value| > 0
  }

  function RequiredError(path: string): FieldError
  {
    FieldError(path, "Path `" + path + "` is required.")
  }

  /**
   * The required-field errors of a new base, in schema order (`userId` is always
   * supplied by the authenticated request).
   */
  function ExpenseErrors(d: ExpenseDraft): (r: seq<FieldError>)
    ensures r == [] <==> StringPresent(d.name) && d.amount.Some? && d.dueDay.Some?
                         && d.startMonth.Some? && StringPresent(d.category)
    ensures |r| <= 5
    ensures !StringPresent(d.name) ==> r[0] == RequiredError("name")
  {
    (if StringPresent(d.name) then [] else [RequiredError("name")])
    + (if d.amount.Some? then [] else [RequiredError("amount")])
    + (if d.dueDay.Some? then [] else [RequiredError("dueDay")])
    + (if d.startMonth.Some? then [] else [RequiredError("startDate")])
    + (if StringPresent(d.category) then [] else [RequiredError("category")])
  }

  /** A new base from a complete draft, with the schema's defaults filled in. */
  function NewExpense(id: Id, user: UserId, d: ExpenseDraft): (e: Expense)
    requires ExpenseErrors(d) == []
    ensures e.id == id && e.userId == user && e.name == d.name.value && e.amount == d.amount.value
    ensures e.dueDay == d.dueDay.value && e.startMonth == d.startMonth.value && e.category == d.category.value
    ensures e.description == OrElse(d.description, "")
    ensures e.endMonth == d.endMonth
    ensures e.status == Active
  {
    Expense(id, user, d.name.value, OrElse(d.description, ""), d.amount.value, d.dueDay.value,
            d.startMonth.value, d.endMonth, d.category.value, Active)
  }

  /** A new payment; method (`via`) and note default to "", status to confirmed. */
  function NewPayment(amount: real, paidAt: int, via: Option<string>, note: Option<string>,
                      status: Option<PaymentStatus>): (p: PaymentData)
    ensures p.amount == amount && p.paidAt == paidAt
    ensures via.None? ==> p.via == ""
    ensures note.None? ==> p.note == ""
    ensures status.None? ==> p.status == Confirmed
    ensures via.Some? ==> p.via == via.value
    ensures note.Some? ==> p.note == note.value
    ensures status.Some? ==> p.status == status.value
  {
    PaymentData(amount, paidAt, OrElse(via, ""), OrElse(note, ""), OrElse(status, Confirmed))
  }
}

=== FILE: months.dfy ===
/**
 * Month tokens ("YYYY-MM") and the calendar arithmetic the controllers perform
 * through dayjs.
 *
 * The controllers validate a token with the pattern four digits, a dash, two
 * digits, and nothing more: the month part may be anything from 00 to 99.  A token
 * is kept as the pair of numbers it spells (`MonthKey`).  The records store months
 * as strings (`MonthString`, the `YYYY-MM` rendering of dayjs) and compare them
 * with string order.  For tokens this is the pair order (`TokenOrderIsPairOrder`),
 * but a month that dayjs rolled over into year 10000 renders with five digits and
 * sorts before every four-digit year (`FiveDigitYearSortsEarly`).
 *
 * Dates are modelled by the calendar month that contains them, as a month ordinal
 * `year * 12 + (mm - 1)`: every date comparison the core makes is against the
 * first or the last instant of a month.
 */
module Months {
  import opened Common

  /** The two numbers a "YYYY-MM" token spells. */
  datatype MonthKey = MonthKey(year: int, mm: int)

  /** String order on stored month tokens, which is the pair order. */
  predicate KeyLe(a: MonthKey, b: MonthKey)
  {
    a.year < b.year || (a.year == b.year && a.mm <= b.mm)
  }

  predicate KeyLt(a: MonthKey, b: MonthKey)
  {
    a.year < b.year || (a.year == b.year && a.mm < b.mm)
  }

  // ---------------------------------------------------------------------------
  // Decimal digits
  // ---------------------------------------------------------------------------

  predicate IsDigit(c: char)
  {
    '0' <= c <= '9'
  }

  predicate AllDigits(s: string)
  {
    forall i :: 0 <= i < |s| ==> IsDigit(s[i])
  }

  function DigitOf(c: char): (d: nat)
    requires IsDigit(c)
    ensures d < 10
  {
    (c as int) - ('0' as int)
  }

  function DigitChar(d: nat): (c: char)
    requires d < 10
    ensures IsDigit(c) && DigitOf(c) == d
  {
    (('0' as int) + d) as char
  }

  function Pow10(n: nat): (r: nat)
    ensures r >= 1
  {
    if n == 0 then 1 else 10 * Pow10(n - 1)
  }

  /** The number a string of decimal digits spells, most significant digit first. */
  function DigitsValue(s: string): nat
    requires AllDigits(s)
  {
    if |s| == 0 then 0 else DigitOf(s[0]) * Pow10(|s| - 1) + DigitsValue(s[1..])
  }

  lemma MulMono(a: nat, b: nat, p: nat)
    requires a <= b
    ensures a * p <= b * p
  {
  }

  /** One more leading digit stays below the next power of ten. */
  lemma DigitStep(d: nat, p: nat, rest: nat)
    requires d < 10 && rest < p
    ensures d * p + rest < 10 * p
  {
    MulMono(d + 1, 10, p);
  }

  lemma {:induction false} DigitsValueBound(s: string)
    requires AllDigits(s)
    ensures DigitsValue(s) < Pow10(|s|)
  {
    if |s| > 0 {
      DigitsValueBound(s[1..]);
      DigitStep(DigitOf(s[0]), Pow10(|s| - 1), DigitsValue(s[1..]));
    }
  }

  /** `n` written with exactly `width` digits, zero-padded on the left. */
  function Digits(n: nat, width: nat): (s: string)
    requires n < Pow10(width)
    ensures |s| == width && AllDigits(s) && DigitsValue(s) == n
  {
    if width == 0 then ""
    else
      var p := Pow10(width - 1);
      DivBelowTen(n, p);
      var s := [DigitChar(n / p)] + Digits(n % p, width - 1);
      assert s[1..] == Digits(n % p, width - 1);
      s
  }

  /** How many decimal digits `n` is written with (at least one). */
  function Width(n: nat): (w: nat)
    ensures w >= 1 && n < Pow10(w)
  {
    if n < 10 then 1
    else
      var w := Width(n / 10);
      DigitStep(n % 10, 10, 0);
      MulMono(n / 10 + 1, Pow10(w), 10);
      1 + w
  }

  /** JavaScript's `String(n)` for an integer: minimal digits, a leading "-" when negative. */
  function DecimalString(n: int): string
  {
    if n < 0 then "-" + Digits(-n, Width(-n)) else Digits(n, Width(n))
  }

  /** Four-digit numbers are written with four digits. */
  lemma FourDigits(n: int)
    requires 1000 <= n <= 9999
    ensures DecimalString(n) == Digits(n, 4)
  {
    assert Width(n / 1000) == 1;
    assert Width(n / 100) == 2;
    assert Width(n / 10) == 3;
  }

  lemma DivBelowTen(n: nat, p: nat)
    requires p >= 1 && n < 10 * p
    ensures n / p < 10
    ensures n == (n / p) * p + n % p
  {
  }

  /** Lexicographic string comparison, as the database compares stored strings. */
  predicate LexLe(a: string, b: string)
  {
    if |a| == 0 then true
    else if |b| == 0 then false
    else if a[0] != b[0] then a[0] < b[0]
    else LexLe(a[1..], b[1..])
  }

  /** A smaller leading digit makes a smaller number, whatever follows. */
  lemma FirstDigitDecides(a: string, b: string)
    requires |a| == |b| > 0 && AllDigits(a) && AllDigits(b)
    requires a[0] < b[0]
    ensures DigitsValue(a) < DigitsValue(b)
  {
    var p := Pow10(|a| - 1);
    DigitsValueBound(a[1..]);
    assert DigitsValue(a) < (DigitOf(a[0]) + 1) * p;
    MulMono(DigitOf(a[0]) + 1, DigitOf(b[0]), p);
  }

  /** On digit strings of one width, string order is numeric order. */
  lemma {:induction false} DigitOrder(a: string, b: string)
    requires |a| == |b| && AllDigits(a) && AllDigits(b)
    ensures LexLe(a, b) <==> DigitsValue(a) <= DigitsValue(b)
    ensures a != b ==> DigitsValue(a) != DigitsValue(b)
  {
    if |a| > 0 {
      if a[0] < b[0] {
        FirstDigitDecides(a, b);
      } else if b[0] < a[0] {
        FirstDigitDecides(b, a);
      } else {
        var a', b' := a[1..], b[1..];
        DigitOrder(a', b');
        assert DigitsValue(a) - DigitsValue(b) == DigitsValue(a') - DigitsValue(b');
        assert LexLe(a, b) == LexLe(a', b');
        assert a == [a[0]] + a' && b == [b[0]] + b';
      }
    }
  }

  /** String order is total. */
  lemma {:induction false} LexTotal(a: string, b: string)
    ensures LexLe(a, b) || LexLe(b, a)
  {
    if |a| > 0 && |b| > 0 && a[0] == b[0] {
      LexTotal(a[1..], b[1..]);
    }
  }

  /** String order is transitive. */
  lemma {:induction false} LexTrans(a: string, b: string, c: string)
    requires LexLe(a, b) && LexLe(b, c)
    ensures LexLe(a, c)
  {
    if |a| > 0 && |b| > 0 && |c| > 0 && a[0] == b[0] == c[0] {
      LexTrans(a[1..], b[1..], c[1..]);
    }
  }

  /** A comparison of two concatenations whose first parts have one width. */
  lemma {:induction false} LexAppend(p: string, q: string, p': string, q': string)
    requires |p| == |p'|
    ensures LexLe(p + q, p' + q') <==> (if p == p' then LexLe(q, q') else LexLe(p, p'))
  {
    if |p| > 0 {
      assert (p + q)[0] == p[0] && (p' + q')[0] == p'[0];
      assert (p + q)[1..] == p[1..] + q && (p' + q')[1..] == p'[1..] + q';
      LexAppend(p[1..], q, p'[1..], q');
      if p[0] == p'[0] && p[1..] == p'[1..] {
        assert p == [p[0]] + p[1..] && p' == [p'[0]] + p'[1..];
      }
    } else {
      assert p + q == q && p' + q' == q';
    }
  }

  // ---------------------------------------------------------------------------
  // Tokens
  // ---------------------------------------------------------------------------

  /** The controllers' month pattern: four digits, a dash, two digits, nothing else. */
  predicate IsMonthToken(s: string)
  {
    |s| == 7 && AllDigits(s[..4]) && s[4] == '-' && AllDigits(s[5..])
  }

  /** Reads a month token; absent unless the whole string matches the pattern. */
  function ParseMonth(s: string): (r: Option<MonthKey>)
    ensures r.Some? <==> IsMonthToken(s)
    ensures r.Some? ==> 0 <= r.value.year <= 9999 && 0 <= r.value.mm <= 99
  {
    if IsMonthToken(s) then
      DigitsValueBound(s[..4]);
      DigitsValueBound(s[5..]);
      Some(MonthKey(DigitsValue(s[..4]), DigitsValue(s[5..])))
    else None
  }

  /**
   * Reads a month request parameter: `!month || !pattern.test(month)` rejects a
   * missing parameter and every string that is not a token.
   */
  function ParseMonthParam(m: Option<string>): (r: Option<MonthKey>)
    ensures r.Some? <==> m.Some? && IsMonthToken(m.value)
  {
    if m.Some? then ParseMonth(m.value) else None
  }

  /** A pair that some token spells. */
  predicate IsTokenKey(k: MonthKey)
  {
    0 <= k.year <= 9999 && 0 <= k.mm <= 99
  }

  /** The token spelling `k`, as dayjs's "YYYY-MM" format writes it. */
  function FormatMonth(k: MonthKey): (s: string)
    requires IsTokenKey(k)
    ensures IsMonthToken(s)
  {
    var s := Digits(k.year, 4) + "-" + Digits(k.mm, 2);
    assert s[..4] == Digits(k.year, 4) && s[5..] == Digits(k.mm, 2);
    s
  }

  lemma FormatThenParse(k: MonthKey)
    requires IsTokenKey(k)
    ensures ParseMonth(FormatMonth(k)) == Some(k)
  {
    var s := FormatMonth(k);
    assert s[..4] == Digits(k.year, 4) && s[5..] == Digits(k.mm, 2);
  }

  lemma ParseThenFormat(s: string)
    requires IsMonthToken(s)
    ensures FormatMonth(ParseMonth(s).value) == s
  {
    var k := ParseMonth(s).value;
    DigitOrder(Digits(k.year, 4), s[..4]);
    DigitOrder(Digits(k.mm, 2), s[5..]);
    assert s == s[..4] + "-" + s[5..];
  }

  /**
   * `String(n)` padded on the left with "0" to `width` characters, as dayjs writes
   * a date field; a longer string is left as it is.
   */
  function PadStart(n: int, width: nat): (s: string)
    ensures |s| >= width
  {
    var d := DecimalString(n);
    if |d| >= width then d else Zeros(width - |d|) + d
  }

  function Zeros(k: nat): (z: string)
    ensures |z| == k
  {
    if k == 0 then "" else "0" + Zeros(k - 1)
  }

  /**
   * The string a stored variant or payment carries for month `k`: the token itself
   * for a month a request spelled, dayjs's "YYYY-MM" for a month the server
   * computed (which has five digits past year 9999).
   */
  function MonthString(k: MonthKey): string
  {
    PadStart(k.year, 4) + "-" + PadStart(k.mm, 2)
  }

  lemma {:induction false} WidthAtMost(n: nat, v: nat)
    requires v >= 1 && n < Pow10(v)
    ensures Width(n) <= v
  {
    if n >= 10 {
      assert v >= 2;
      assert n / 10 < Pow10(v - 1);
      WidthAtMost(n / 10, v - 1);
    }
  }

  lemma SmallQuotient(n: nat, p: nat)
    requires n < p
    ensures n / p == 0 && n % p == n
  {
  }

  /** A number below `10^(w-1)` is written with `w` digits as a zero and then `w - 1` digits. */
  lemma LeadingZero(n: nat, w: nat)
    requires w >= 1 && n < Pow10(w - 1)
    ensures n < Pow10(w)
    ensures Digits(n, w) == "0" + Digits(n, w - 1)
  {
    SmallQuotient(n, Pow10(w - 1));
    assert DigitChar(0) == '0';
  }

  lemma ConsZero(a: string, b: string, z: string, d: string, z': string)
    requires a == "0" + b && b == z + d && z' == "0" + z
    ensures a == z' + d
  {
  }

  /** Writing a number with more digits than it needs adds leading zeros. */
  lemma {:induction false} DigitsPad(n: nat, v: nat, w: nat)
    requires n < Pow10(v) && v <= w
    ensures n < Pow10(w)
    ensures Digits(n, w) == Zeros(w - v) + Digits(n, v)
  {
    if w > v {
      DigitsPad(n, v, w - 1);
      LeadingZero(n, w);
      ConsZero(Digits(n, w), Digits(n, w - 1), Zeros(w - 1 - v), Digits(n, v), Zeros(w - v));
    } else {
      assert Zeros(0) + Digits(n, v) == Digits(n, v);
    }
  }

  /** A month a token spells is stored as that token. */
  lemma TokenMonthString(k: MonthKey)
    requires IsTokenKey(k)
    ensures MonthString(k) == FormatMonth(k)
  {
    assert Pow10(2) == 100 && Pow10(4) == 10000;
    PadStartDigits(k.year, 4);
    PadStartDigits(k.mm, 2);
  }

  /** Padding a number that fits in `w` digits to width `w` writes it with `w` digits. */
  lemma PadStartDigits(n: nat, w: nat)
    requires w >= 1 && n < Pow10(w)
    ensures PadStart(n, w) == Digits(n, w)
  {
    WidthAtMost(n, w);
    DigitsPad(n, Width(n), w);
  }

  /** On months that tokens spell, the stored strings compare as the pairs do. */
  lemma MonthStringOrder(a: MonthKey, b: MonthKey)
    requires IsTokenKey(a) && IsTokenKey(b)
    ensures LexLe(MonthString(a), MonthString(b)) <==> KeyLe(a, b)
  {
    TokenMonthString(a);
    TokenMonthString(b);
    FormatThenParse(a);
    FormatThenParse(b);
    TokenOrderIsPairOrder(FormatMonth(a), FormatMonth(b));
  }

  /** Past year 9999 the stored strings leave calendar order: "10000-01" sorts before "9999-06". */
  lemma FiveDigitYearSortsEarly()
    ensures MonthString(MonthKey(10000, 1)) == "10000-01"
    ensures KeyLt(MonthKey(9999, 6), MonthKey(10000, 1))
    ensures !LexLe(MonthString(MonthKey(9999, 6)), MonthString(MonthKey(10000, 1)))
  {
    assert Width(10000 / 10000) == 1 && Width(10000 / 1000) == 2 && Width(10000 / 100) == 3;
    assert Width(10000 / 10) == 4 && Width(10000) == 5;
    assert Width(9999 / 1000) == 1 && Width(9999 / 100) == 2 && Width(9999 / 10) == 3;
    assert DecimalString(10000) == "10000";
    assert MonthString(MonthKey(9999, 6))[0] == '9';
  }

  /** Two distinct tokens spell distinct pairs, so keying records by pair is keying by token. */
  lemma ParseInjective(a: string, b: string)
    requires IsMonthToken(a) && IsMonthToken(b)
    requires ParseMonth(a) == ParseMonth(b)
    ensures a == b
  {
    ParseThenFormat(a);
    ParseThenFormat(b);
  }

  /** For tokens, string order (what the store's `$gte` uses) is pair order. */
  lemma TokenOrderIsPairOrder(a: string, b: string)
    requires IsMonthToken(a) && IsMonthToken(b)
    ensures LexLe(a, b) <==> KeyLe(ParseMonth(a).value, ParseMonth(b).value)
  {
    assert a == a[..4] + a[4..] && b == b[..4] + b[4..];
    LexAppend(a[..4], a[4..], b[..4], b[4..]);
    DigitOrder(a[..4], b[..4]);
    if a[..4] == b[..4] {
      assert a[4..] == "-" + a[5..] && b[4..] == "-" + b[5..];
      LexAppend("-", a[5..], "-", b[5..]);
      DigitOrder(a[5..], b[5..]);
    }
  }

  // ---------------------------------------------------------------------------
  // Calendar months
  // ---------------------------------------------------------------------------

  /** The month ordinal of a calendar pair (`mm` in 1..12). */
  function Ordinal(k: MonthKey): int
  {
    k.year * 12 + k.mm - 1
  }

  /** The calendar month with the given ordinal, as dayjs formats it back. */
  function CalendarMonth(n: int): (k: MonthKey)
    ensures 1 <= k.mm <= 12
    ensures Ordinal(k) == n
  {
    MonthKey(n / 12, n % 12 + 1)
  }

  lemma CalendarOfOrdinal(k: MonthKey)
    requires 1 <= k.mm <= 12
    ensures CalendarMonth(Ordinal(k)) == k
  {
  }

  /** Month ordinals and the string order of the months they format to agree. */
  lemma CalendarOrder(n: int, m: int)
    ensures n <= m <==> KeyLe(CalendarMonth(n), CalendarMonth(m))
    ensures n < m <==> KeyLt(CalendarMonth(n), CalendarMonth(m))
  {
  }

  /**
   * JavaScript's `new Date(y, m, d)` (which dayjs uses to parse "YYYY-MM-DD") reads
   * years 0..99 as 1900..1999.
   */
  function JsDateYear(y: int): int
  {
    if 0 <= y <= 99 then 1900 + y else y
  }

  /**
   * The month ordinal of `dayjs(token + "-01")`: the month number overflows into the
   * year, so "2024-13" is January 2025 and "2024-00" is December 2023.
   */
  function DayjsMonth(k: MonthKey): (n: int)
    ensures 100 <= k.year && 1 <= k.mm <= 12 ==> CalendarMonth(n) == k
    ensures k.mm == 0 ==> CalendarMonth(n) == MonthKey(JsDateYear(k.year) - 1, 12)
    ensures k.mm == 13 ==> CalendarMonth(n) == MonthKey(JsDateYear(k.year) + 1, 1)
  {
    JsDateYear(k.year) * 12 + k.mm - 1
  }

  /** The months `from` through `to`, inclusive, one step of dayjs's `add(1, "month")` apart. */
  function MonthRange(from: int, to: int): (r: seq<MonthKey>)
    decreases if from <= to then to - from + 1 else 0
    ensures |r| == (if from <= to then to - from + 1 else 0)
    ensures forall i :: 0 <= i < |r| ==> r[i] == CalendarMonth(from + i)
  {
    if from > to then [] else [CalendarMonth(from)] + MonthRange(from + 1, to)
  }

  /** The range is strictly ascending in string order, so every month appears once. */
  lemma MonthRangeAscending(from: int, to: int)
    ensures forall i, j :: 0 <= i < j < |MonthRange(from, to)| ==>
      KeyLt(MonthRange(from, to)[i], MonthRange(from, to)[j])
  {
    var r := MonthRange(from, to);
    forall i, j | 0 <= i < j < |r|
      ensures KeyLt(r[i], r[j])
    {
      CalendarOrder(from + i, from + j);
    }
  }

  /** Each calendar month between the bounds appears in the range. */
  lemma MonthRangeCovers(from: int, to: int, k: MonthKey)
    requires 1 <= k.mm <= 12
    ensures k in MonthRange(from, to) <==> from <= Ordinal(k) <= to
  {
    var r := MonthRange(from, to);
    if from <= Ordinal(k) <= to {
      assert r[Ordinal(k) - from] == k;
    }
  }

  lemma MonthRangeOrdinals()
    ensures MonthRange(24295, 24297) == [MonthKey(2024, 8), MonthKey(2024, 9), MonthKey(2024, 10)]
  {
    var r := MonthRange(24295, 24297);
    assert |r| == 3;
    assert r[0] == CalendarMonth(24295) == MonthKey(2024, 8);
    assert r[1] == CalendarMonth(24296) == MonthKey(2024, 9);
    assert r[2] == CalendarMonth(24297) == MonthKey(2024, 10);
  }

  /** August through October 2024 is exactly three months, in order. */
  lemma MonthRangeExample()
    ensures MonthRange(DayjsMonth(MonthKey(2024, 8)), DayjsMonth(MonthKey(2024, 10)))
         == [MonthKey(2024, 8), MonthKey(2024, 9), MonthKey(2024, 10)]
  {
    var from, to := DayjsMonth(MonthKey(2024, 8)), DayjsMonth(MonthKey(2024, 10));
    assert from == 24295 && to == 24297;
    MonthRangeOrdinals();
  }
}

=== FILE: payments.dfy ===
/**
 * The payment ledger: marking one month of an expense as paid, and unmarking it.
 * A payment's existence is what makes a month "paid"; with no unique index on
 * (expenseId, month), marking refuses a month that already has one, and that is
 * what keeps at most one payment per month.
 */
module Payments {
  import opened Common
  import opened Months
  import opened Collection
  import opened Models

  const MsgBadMonth := "Mês inválido. Use o formato YYYY-MM."
  const MsgBadAmount := "Valor inválido para pagamento."
  const MsgNoExpense := "Despesa não encontrada."
  const MsgAlreadyPaid := "Pagamento já registrado para esse mês."
  const MsgNotOwned := "Despesa não encontrada ou não pertence ao usuário."
  const MsgNoPayment := "Nenhum pagamento registrado para este mês."
  const MsgRemoved := "Pagamento removido com sucesso."

  /** `!amount || amount <= 0`: a missing, zero or negative amount is refused. */
  predicate AmountOk(amount: Option<real>)
  {
    amount.Some? && amount.value > 0.0
  }

  /**
   * Records a confirmed payment for (expense, month).  Checks, in order: the month
   * token (400), the amount (400), ownership (404), an existing payment (409).
   */
  function MarkPaid(s: Store, user: UserId, id: Id, month: Option<string>, amount: Option<real>,
                    via: Option<string>, note: Option<string>, now: int): (r: Step<Payment>)
    ensures r.reply.Err? ==> r.store == s
    ensures ParseMonthParam(month).None? ==> r.reply == Reject(400, MsgBadMonth)
    ensures ParseMonthParam(month).Some? && !AmountOk(amount) ==> r.reply == Reject(400, MsgBadAmount)
    ensures ParseMonthParam(month).Some? && AmountOk(amount) && FindOwned(s.expenses, id, user).None?
            ==> r.reply == Reject(404, MsgNoExpense)
    ensures ParseMonthParam(month).Some? && AmountOk(amount) && FindOwned(s.expenses, id, user).Some?
            && HasKey(s.payments, Key(id, ParseMonthParam(month).value))
            ==> r.reply == Reject(409, MsgAlreadyPaid)
    ensures r.reply.Ok? <==> ParseMonthParam(month).Some? && AmountOk(amount)
                             && FindOwned(s.expenses, id, user).Some?
                             && !HasKey(s.payments, Key(id, ParseMonthParam(month).value))
    ensures r.reply.Ok? ==>
      && ParseMonthParam(month).Some?
      && var key := Key(id, ParseMonthParam(month).value);
      && r.reply.status == 201
      && r.reply.body == Doc(key, PaymentData(amount.value, now, OrElse(via, ""), OrElse(note, ""), Confirmed))
      && Find(r.store.payments, key) == Some(r.reply.body.data)
      && (forall k' :: k' != key ==> Find(r.store.payments, k') == Find(s.payments, k'))
      && |r.store.payments| == |s.payments| + 1
      && r.store.expenses == s.expenses && r.store.variants == s.variants
    ensures Valid(s) ==> Valid(r.store)
  {
    match ParseMonthParam(month)
    case None => Step(Reject(400, MsgBadMonth), s)
    case Some(k) =>
      if !AmountOk(amount) then Step(Reject(400, MsgBadAmount), s)
      else if FindOwned(s.expenses, id, user).None? then Step(Reject(404, MsgNoExpense), s)
      else
        var key := Key(id, k);
        if HasKey(s.payments, key) then Step(Reject(409, MsgAlreadyPaid), s)
        else
          var p := NewPayment(amount.value, now, Some(OrElse(via, "")), Some(OrElse(note, "")), Some(Confirmed));
          Step(Ok(201, Doc(key, p)), s.(payments := Insert(s.payments, key, p)))
  }

  /**
   * Removes the payment of (expense, month).  Checks, in order: the month token
   * (400), ownership (404), an existing payment (404).
   */
  function UnmarkPaid(s: Store, user: UserId, id: Id, month: Option<string>): (r: Step<string>)
    ensures r.reply.Err? ==> r.store == s
    ensures ParseMonthParam(month).None? ==> r.reply == Reject(400, MsgBadMonth)
    ensures ParseMonthParam(month).Some? && FindOwned(s.expenses, id, user).None?
            ==> r.reply == Reject(404, MsgNotOwned)
    ensures ParseMonthParam(month).Some? && FindOwned(s.expenses, id, user).Some?
            && !HasKey(s.payments, Key(id, ParseMonthParam(month).value))
            ==> r.reply == Reject(404, MsgNoPayment)
    ensures r.reply.Ok? <==> ParseMonthParam(month).Some? && FindOwned(s.expenses, id, user).Some?
                             && HasKey(s.payments, Key(id, ParseMonthParam(month).value))
    ensures r.reply.Ok? ==>
      && ParseMonthParam(month).Some?
      && var key := Key(id, ParseMonthParam(month).value);
      && r.reply == Ok(200, MsgRemoved)
      && (forall k' :: k' != key ==> Find(r.store.payments, k') == Find(s.payments, k'))
      && |r.store.payments| == |s.payments| - 1
      && (Unique(s.payments) ==> !HasKey(r.store.payments, key))
      && r.store.expenses == s.expenses && r.store.variants == s.variants
    ensures Valid(s) ==> Valid(r.store)
  {
    match ParseMonthParam(month)
    case None => Step(Reject(400, MsgBadMonth), s)
    case Some(k) =>
      if FindOwned(s.expenses, id, user).None? then Step(Reject(404, MsgNotOwned), s)
      else
        var key := Key(id, k);
        if !HasKey(s.payments, key) then Step(Reject(404, MsgNoPayment), s)
        else Step(Ok(200, MsgRemoved), s.(payments := RemoveFirst(s.payments, key)))
  }

  /** Marking a month paid and then unmarking it restores the store exactly. */
  lemma MarkThenUnmarkRestores(s: Store, user: UserId, id: Id, month: Option<string>, amount: Option<real>,
                               via: Option<string>, note: Option<string>, now: int)
    requires MarkPaid(s, user, id, month, amount, via, note, now).reply.Ok?
    ensures UnmarkPaid(MarkPaid(s, user, id, month, amount, via, note, now).store, user, id, month).reply.Ok?
    ensures UnmarkPaid(MarkPaid(s, user, id, month, amount, via, note, now).store, user, id, month).store == s
  {
    var key := Key(id, ParseMonthParam(month).value);
    var p := MarkPaid(s, user, id, month, amount, via, note, now).reply.body.data;
    RemoveAfterInsert(s.payments, key, p);
  }
}

=== FILE: responses.dfy ===
/**
 * The uniform JSON responses and the error handler that classifies uncaught
 * errors.  The timestamp (`new Date().toISOString()`) is a parameter.
 */
module Responses {
  import opened Common
  import opened JsValues

  const MsgInvalidData := "Dados inválidos"
  const MsgDuplicate := "Dados já existem no sistema"
  const MsgBadId := "ID inválido"
  const MsgInternal := "Erro interno do servidor"

  /** Mongo's duplicate-key error code. */
  const DuplicateKeyCode := 11000

  /** The JSON body sent, with the status it is sent under; absent keys are `None`. */
  datatype JsonResponse = JsonResponse(status: int, success: bool, message: string, timestamp: string,
                                       details: Option<JsValue>, data: Option<JsValue>)

  /** `errorResponse`: `details` (default null) is included only when truthy. */
  function ErrorResponse(status: int, message: string, details: JsValue, now: string): (r: JsonResponse)
    ensures r.status == status && !r.success && r.message == message && r.timestamp == now
    ensures r.details.Some? <==> Truthy(details)
    ensures r.details.Some? ==> r.details.value == details
    ensures r.data.None?
  {
    JsonResponse(status, false, message, now, if Truthy(details) then Some(details) else None, None)
  }

  /** `successResponse`: `data` (default null) is included only when truthy. */
  function SuccessResponse(status: int, message: string, data: JsValue, now: string): (r: JsonResponse)
    ensures r.status == status && r.success && r.message == message && r.timestamp == now
    ensures r.data.Some? <==> Truthy(data)
    ensures r.data.Some? ==> r.data.value == data
    ensures r.details.None?
  {
    JsonResponse(status, true, message, now, None, if Truthy(data) then Some(data) else None)
  }

  /**
   * An uncaught error: its `name`, its `code` (any value), and for a validation
   * error the failing paths with their messages, in key order.
   */
  datatype Failure = Failure(name: string, code: JsValue, errors: seq<(string, string)>)

  /** `{ field, message }` for each failing path. */
  function DetailsOf(errors: seq<(string, string)>): (r: seq<JsValue>)
    ensures |r| == |errors|
    ensures forall i :: 0 <= i < |r| ==>
              r[i] == Object([("field", Text(errors[i].0)), ("message", Text(errors[i].1))])
  {
    if |errors| == 0 then []
    else
      var rest := DetailsOf(errors[1..]);
      assert forall i :: 1 <= i < |errors| ==> errors[i] == errors[1..][i - 1];
      [Object([("field", Text(errors[0].0)), ("message", Text(errors[0].1))])] + rest
  }

  /** Each detail read back by its keys gives the failing path and its message. */
  lemma DetailsReadBack(errors: seq<(string, string)>, i: nat)
    requires i < |errors|
    ensures DetailsOf(errors)[i].Object?
    ensures OwnKey(DetailsOf(errors)[i].fields, "field") == Some(Text(errors[i].0))
    ensures OwnKey(DetailsOf(errors)[i].fields, "message") == Some(Text(errors[i].1))
  {
    var fs := DetailsOf(errors)[i].fields;
    assert fs[1].0 == "message" && fs[0].0 == "field";
    assert "field" != "message" by { assert "field"[0] != "message"[0]; }
  }

  predicate IsDuplicateKey(code: JsValue)
  {
    code == Number(DuplicateKeyCode as real)
  }

  /**
   * `errorHandler`: a validation error is 400 with one detail per failing path,
   * then a duplicate key (`code === 11000`) is 409, then a cast error is 400
   * `ID inválido`, and anything else is 500.
   */
  function ErrorHandler(err: Failure, now: string): (r: JsonResponse)
    ensures !r.success && r.data.None? && r.timestamp == now
    ensures r.status in {400, 409, 500}
    ensures err.name == "ValidationError" <==> r.status == 400 && r.message == MsgInvalidData
    ensures r.details.Some? <==> err.name == "ValidationError"
    ensures r.details.Some? ==> r.details.value == Array(DetailsOf(err.errors))
    ensures r.status == 409 <==> err.name != "ValidationError" && IsDuplicateKey(err.code)
    ensures r.status == 400 && r.message == MsgBadId <==>
              err.name != "ValidationError" && !IsDuplicateKey(err.code) && err.name == "CastError"
    ensures r.status == 500 <==>
              err.name != "ValidationError" && !IsDuplicateKey(err.code) && err.name != "CastError"
    ensures r.status == 409 ==> r.message == MsgDuplicate
    ensures r.status == 500 ==> r.message == MsgInternal
  {
    if err.name == "ValidationError" then ErrorResponse(400, MsgInvalidData, Array(DetailsOf(err.errors)), now)
    else if IsDuplicateKey(err.code) then ErrorResponse(409, MsgDuplicate, Null, now)
    else if err.name == "CastError" then ErrorResponse(400, MsgBadId, Null, now)
    else ErrorResponse(500, MsgInternal, Null, now)
  }

  /**
   * The validation test comes first: a validation error that also carries the
   * duplicate-key code is still 400, and a cast error carrying it is 409.
   */
  lemma ValidationBeforeDuplicate(errors: seq<(string, string)>, now: string)
    ensures ErrorHandler(Failure("ValidationError", Number(11000.0), errors), now).status == 400
    ensures ErrorHandler(Failure("CastError", Number(11000.0), errors), now).status == 409
  {
  }

  /** The code is compared strictly: the string "11000" is not a duplicate key. */
  lemma DuplicateCodeIsStrict(now: string)
    ensures ErrorHandler(Failure("MongoServerError", Text("11000"), []), now).status == 500
  {
  }

  /** An array is truthy even when empty, so a validation error with no paths still carries `details: []`. */
  lemma EmptyDetailsStillSent(now: string)
    ensures ErrorHandler(Failure("ValidationError", Undefined, []), now).details == Some(Array([]))
  {
  }

  /** Falsy payloads are dropped: `0`, `""` and `null` leave the key out. */
  lemma FalsyPayloadsDropped(now: string)
    ensures SuccessResponse(200, "ok", Number(0.0), now).data.None?
    ensures SuccessResponse(200, "ok", Text(""), now).data.None?
    ensures ErrorResponse(400, "x", Null, now).details.None?
    ensures SuccessResponse(200, "ok", Array([]), now).data == Some(Array([]))
  {
  }
}

=== FILE: scope_engine.dfy ===
/**
 * Scoped edit and delete of a recurring expense: `only` one month (a variant),
 * `future` months (a variant per month from the requested one on), or `all`
 * months (the base itself).
 */
module ScopeEngine {
  import opened Common
  import opened Months
  import opened Collection
  import opened Models
  import opened Variants

  const MsgBadScope := "Escopo inválido. Use: only, future, all."
  const MsgBadMonth := "Mês inválido. Use o formato YYYY-MM."
  const MsgNotFound := "Despesa não encontrada."
  const MsgMissingParams := "Parâmetros obrigatórios: expenseId, scope, month"
  const MsgBadDeleteScope := "Escopo inválido. Permitidos apenas: future, all. O escopo 'only' foi descontinuado."
  const MsgBadDeleteMonth := "Parâmetro 'month' deve estar no formato YYYY-MM."
  const EditNote := "Marcado como pago na edição"

  /** Months a `future` edit of an open-ended expense reaches past the requested one. */
  const OpenEndedSpan := 60

  /** What a successful edit answers: the month's variant, the months touched, or nothing. */
  datatype EditBody = OnlyMonth(variant: Variant) | FromMonth(months: seq<MonthKey>) | AllMonths

  /** What a successful delete did to the base. */
  datatype DeleteBody = RemovedAtFirstMonth | EndedAtMonth | RemovedEntirely

  predicate IsEditScope(scope: Option<string>)
  {
    scope == Some("only") || scope == Some("future") || scope == Some("all")
  }

  // ---------------------------------------------------------------------------
  // Scope `only`
  // ---------------------------------------------------------------------------

  /**
   * The payment side effect of an `only` edit: "paid" creates a confirmed payment
   * unless the month has one, "unpaid" deletes the month's payment, any other
   * value (or none) leaves payments alone.
   */
  function OnlyPaymentEffect(ps: seq<Payment>, key: Key, u: Updates, o: Overrides, e: Expense, now: int)
    : (r: seq<Payment>)
    ensures u.paymentStatus == Some("paid") ==>
      && Find(r, key) == Some(OrElse(Find(ps, key),
           PaymentData(OrElse(u.amount, OrElse(o.amount, e.amount)), now, "manual", EditNote, Confirmed)))
      && (HasKey(ps, key) ==> r == ps)
      && (Unique(ps) ==> Unique(r))
    ensures u.paymentStatus == Some("unpaid") ==>
      && (Unique(ps) ==> Unique(r) && !HasKey(r, key))
      && |r| == (if HasKey(ps, key) then |ps| - 1 else |ps|)
    ensures u.paymentStatus != Some("paid") && u.paymentStatus != Some("unpaid") ==> r == ps
    ensures forall k' :: k' != key ==> Find(r, k') == Find(ps, k')
  {
    if u.paymentStatus == Some("paid") then
      if HasKey(ps, key) then ps
      else
        var p := PaymentData(OrElse(u.amount, OrElse(o.amount, e.amount)), now, "manual", EditNote, Confirmed);
        Insert(ps, key, p)
    else if u.paymentStatus == Some("unpaid") then RemoveFirst(ps, key)
    else ps
  }

  /** Upserts the variant of (expense, month) with the updates, then applies the payment effect. */
  function EditOnly(s: Store, e: Expense, k: MonthKey, u: Updates, now: int): (r: Step<EditBody>)
    ensures var key := Key(e.id, k);
            var o := ApplyToVariant(OverridesAt(s.variants, key), u);
            && r.reply == Ok(200, OnlyMonth(Doc(key, o)))
            && Find(r.store.variants, key) == Some(o)
            && Without(r.store.variants, key) == Without(s.variants, key)
            && r.store.payments == OnlyPaymentEffect(s.payments, key, u, o, e, now)
            && r.store.expenses == s.expenses
    ensures Valid(s) ==> Valid(r.store)
  {
    var key := Key(e.id, k);
    var o := ApplyToVariant(OverridesAt(s.variants, key), u);
    Step(Ok(200, OnlyMonth(Doc(key, o))),
         s.(variants := Put(s.variants, key, o),
            payments := OnlyPaymentEffect(s.payments, key, u, o, e, now)))
  }

  // ---------------------------------------------------------------------------
  // Scope `future`
  // ---------------------------------------------------------------------------

  /** The last month a `future` edit reaches: the end date's month, or 60 months on. */
  function FutureEnd(e: Expense, start: int): int
  {
    match e.endMonth
    case Some(m) => m
    case None => start + OpenEndedSpan
  }

  /**
   * Upserts a variant for every month from the requested one through the end
   * month, inclusive, and answers those months; payments and the base stay as
   * they are.
   */
  function EditFuture(s: Store, e: Expense, k: MonthKey, u: Updates): (r: Step<EditBody>)
    ensures r.reply.Ok? && r.reply.status == 200 && r.reply.body.FromMonth?
    ensures r.reply.body.months == MonthRange(DayjsMonth(k), FutureEnd(e, DayjsMonth(k)))
    ensures forall i, j :: 0 <= i < j < |r.reply.body.months| ==> KeyLt(r.reply.body.months[i], r.reply.body.months[j])
    ensures forall m :: m in r.reply.body.months ==>
              Find(r.store.variants, Key(e.id, m)) == Some(ApplyToVariant(OverridesAt(s.variants, Key(e.id, m)), u))
    ensures forall key: Key :: !(key.expenseId == e.id && key.month in r.reply.body.months) ==>
              Find(r.store.variants, key) == Find(s.variants, key)
    ensures r.store.expenses == s.expenses && r.store.payments == s.payments
    ensures Valid(s) ==> Valid(r.store)
  {
    var start := DayjsMonth(k);
    var months := MonthRange(start, FutureEnd(e, start));
    MonthRangeAscending(start, FutureEnd(e, start));
    var vs := UpsertMonths(s.variants, e.id, months, u.amount, u.dueDay, u.category).variants;
    UpsertMonthsWrites(s.variants, e.id, months, u.amount, u.dueDay, u.category);
    assert forall m :: m in months ==>
      Find(vs, Key(e.id, m)) == Some(ApplyToVariant(OverridesAt(s.variants, Key(e.id, m)), u));
    assert forall key: Key :: !(key.expenseId == e.id && key.month in months) ==> Find(vs, key) == Find(s.variants, key);
    assert Valid(s) ==> Valid(s.(variants := vs));
    Step(Ok(200, FromMonth(months)), s.(variants := vs))
  }

  // ---------------------------------------------------------------------------
  // Scope `all`
  // ---------------------------------------------------------------------------

  /** Overwrites the base at position `i` with the updates and deletes every variant of it. */
  function EditAll(s: Store, i: nat, u: Updates): (r: Step<EditBody>)
    requires i < |s.expenses|
    ensures r.reply == Ok(200, AllMonths)
    ensures |r.store.expenses| == |s.expenses|
    ensures r.store.expenses[i] == ApplyToBase(s.expenses[i], u)
    ensures forall j :: 0 <= j < |s.expenses| && j != i ==> r.store.expenses[j] == s.expenses[j]
    ensures forall j :: 0 <= j < |r.store.variants| ==> r.store.variants[j].key.expenseId != s.expenses[i].id
    ensures forall j :: 0 <= j < |s.variants| && s.variants[j].key.expenseId != s.expenses[i].id ==>
              s.variants[j] in r.store.variants
    ensures r.store.payments == s.payments
    ensures Valid(s) ==> Valid(r.store)
  {
    var e := s.expenses[i];
    Step(Ok(200, AllMonths),
         s.(expenses := s.expenses[i := ApplyToBase(e, u)],
            variants := Purge(s.variants, e.id, None)))
  }

  // ---------------------------------------------------------------------------
  // updateExpenseWithScope
  // ---------------------------------------------------------------------------

  /**
   * Checks, in order: the scope (400), the month token (400), ownership (404); then
   * runs exactly one of the three scopes.  Nothing is written on a failure.
   */
  function EditWithScope(s: Store, user: UserId, id: Id, scope: Option<string>, month: Option<string>,
                         u: Updates, now: int): (r: Step<EditBody>)
    ensures r.reply.Err? ==> r.store == s
    ensures !IsEditScope(scope) ==> r.reply == Reject(400, MsgBadScope)
    ensures IsEditScope(scope) && ParseMonthParam(month).None? ==> r.reply == Reject(400, MsgBadMonth)
    ensures IsEditScope(scope) && ParseMonthParam(month).Some? && FindOwned(s.expenses, id, user).None?
            ==> r.reply == Reject(404, MsgNotFound)
    ensures r.reply.Ok? <==>
              IsEditScope(scope) && ParseMonthParam(month).Some? && FindOwned(s.expenses, id, user).Some?
    ensures r.reply.Ok? ==>
      && ParseMonthParam(month).Some? && OwnedIndex(s.expenses, id, user).Some?
      && var k := ParseMonthParam(month).value;
      && var i := OwnedIndex(s.expenses, id, user).value;
      && (scope == Some("only") ==> r == EditOnly(s, s.expenses[i], k, u, now))
      && (scope == Some("future") ==> r == EditFuture(s, s.expenses[i], k, u))
      && (scope == Some("all") ==> r == EditAll(s, i, u))
    ensures Valid(s) ==> Valid(r.store)
  {
    if !IsEditScope(scope) then Step(Reject(400, MsgBadScope), s)
    else
      match ParseMonthParam(month)
      case None => Step(Reject(400, MsgBadMonth), s)
      case Some(k) =>
        match OwnedIndex(s.expenses, id, user)
        case None => Step(Reject(404, MsgNotFound), s)
        case Some(i) =>
          if scope == Some("only") then EditOnly(s, s.expenses[i], k, u, now)
          else if scope == Some("future") then EditFuture(s, s.expenses[i], k, u)
          else EditAll(s, i, u)
  }

  // ---------------------------------------------------------------------------
  // deleteExpenseWithScope
  // ---------------------------------------------------------------------------

  /** `!value` on a query parameter: missing or empty. */
  predicate Blank(v: Option<string>)
  {
    v.None? || v.value == ""
  }

  /** Whether the requested token is the month of the base's start date. */
  predicate IsFirstMonth(e: Expense, k: MonthKey)
  {
    CalendarMonth(e.startMonth) == k
  }

  /**
   * The future delete of the base at index `i`: variants and payments from `k` on
   * are purged; the base is removed when `k` is its first month and otherwise
   * ends at `k`.
   */
  function DeleteFromMonth(s: Store, i: nat, k: MonthKey): (r: Step<DeleteBody>)
    requires i < |s.expenses|
    ensures r.reply.Ok? && r.reply.status == 200
    ensures var e := s.expenses[i];
      && r.store.variants == Purge(s.variants, e.id, Some(k))
      && r.store.payments == Purge(s.payments, e.id, Some(k))
      && (IsFirstMonth(e, k) ==> r.reply.body == RemovedAtFirstMonth && |r.store.expenses| == |s.expenses| - 1
                                 && (UniqueIds(s.expenses) ==> forall x :: x in r.store.expenses ==> x.id != e.id))
      && (!IsFirstMonth(e, k) ==> r.reply.body == EndedAtMonth && |r.store.expenses| == |s.expenses|
                                  && e.(endMonth := Some(DayjsMonth(k))) in r.store.expenses)
      && (forall x :: x in s.expenses && x.id != e.id ==> x in r.store.expenses)
    ensures Valid(s) ==> Valid(r.store)
  {
    var e := s.expenses[i];
    var vs := Purge(s.variants, e.id, Some(k));
    var ps := Purge(s.payments, e.id, Some(k));
    if IsFirstMonth(e, k) then
      Step(Ok(200, RemovedAtFirstMonth), Store(RemoveAt(s.expenses, i), vs, ps))
    else
      var es := s.expenses[i := e.(endMonth := Some(DayjsMonth(k)))];
      assert es[i] == e.(endMonth := Some(DayjsMonth(k)));
      assert forall x :: x in s.expenses && x.id != e.id ==> x in es by {
        forall x | x in s.expenses && x.id != e.id ensures x in es {
          var j :| 0 <= j < |s.expenses| && s.expenses[j] == x;
          assert es[j] == x;
        }
      }
      Step(Ok(200, EndedAtMonth), Store(es, vs, ps))
  }

  /** The whole delete of the base at index `i`, with all its variants and payments. */
  function DeleteEverything(s: Store, i: nat): (r: Step<DeleteBody>)
    requires i < |s.expenses|
    ensures var id := s.expenses[i].id;
      && r.reply == Ok(200, RemovedEntirely)
      && r.store.variants == Purge(s.variants, id, None)
      && r.store.payments == Purge(s.payments, id, None)
      && |r.store.expenses| == |s.expenses| - 1
      && (UniqueIds(s.expenses) ==> forall x :: x in r.store.expenses ==> x.id != id)
      && (forall x :: x in s.expenses && x.id != id ==> x in r.store.expenses)
    ensures Valid(s) ==> Valid(r.store)
  {
    var id := s.expenses[i].id;
    var es := RemoveAt(s.expenses, i);
    assert forall x :: x in s.expenses && x.id != id ==> x in es by {
      forall x | x in s.expenses && x.id != id ensures x in es {
        var j :| 0 <= j < |s.expenses| && s.expenses[j] == x;
        if j < i { assert es[j] == x; } else { assert es[j - 1] == x; }
      }
    }
    Step(Ok(200, RemovedEntirely), Store(es, Purge(s.variants, id, None), Purge(s.payments, id, None)))
  }

  /**
   * Checks, in order: scope and month present (400), scope `future` or `all` (400),
   * the month token (400), ownership (404).  `future` deletes the variants and
   * payments from the requested month on, then deletes the base if that month is
   * its first, or else ends it at the requested month; `all` deletes the base and
   * all its variants and payments.
   */
  function DeleteWithScope(s: Store, user: UserId, id: Id, scope: Option<string>, month: Option<string>)
    : (r: Step<DeleteBody>)
    ensures r.reply.Err? ==> r.store == s
    ensures Blank(scope) || Blank(month) ==> r.reply == Reject(400, MsgMissingParams)
    ensures !Blank(scope) && !Blank(month) && scope != Some("future") && scope != Some("all")
            ==> r.reply == Reject(400, MsgBadDeleteScope)
    ensures (!Blank(scope) && !Blank(month) && (scope == Some("future") || scope == Some("all"))
             && ParseMonthParam(month).None?) ==> r.reply == Reject(400, MsgBadDeleteMonth)
    ensures ((scope == Some("future") || scope == Some("all")) && ParseMonthParam(month).Some?
             && FindOwned(s.expenses, id, user).None?) ==> r.reply == Reject(404, MsgNotFound)
    ensures r.reply.Ok? <==>
              (scope == Some("future") || scope == Some("all")) && ParseMonthParam(month).Some?
              && FindOwned(s.expenses, id, user).Some?
    ensures r.reply.Ok? && scope == Some("future") ==>
      && ParseMonthParam(month).Some? && FindOwned(s.expenses, id, user).Some?
      && var k := ParseMonthParam(month).value;
      && var e := FindOwned(s.expenses, id, user).value;
      && r.store.variants == Purge(s.variants, id, Some(k))
      && r.store.payments == Purge(s.payments, id, Some(k))
      && (IsFirstMonth(e, k) ==> r.reply.body == RemovedAtFirstMonth && |r.store.expenses| == |s.expenses| - 1
                                 && (UniqueIds(s.expenses) ==> forall x :: x in r.store.expenses ==> x.id != id))
      && (!IsFirstMonth(e, k) ==> r.reply.body == EndedAtMonth && |r.store.expenses| == |s.expenses|
                                  && e.(endMonth := Some(DayjsMonth(k))) in r.store.expenses)
      && (forall x :: x in s.expenses && x.id != id ==> x in r.store.expenses)
    ensures r.reply.Ok? && scope == Some("all") ==>
      && r.reply.body == RemovedEntirely
      && r.store.variants == Purge(s.variants, id, None)
      && r.store.payments == Purge(s.payments, id, None)
      && |r.store.expenses| == |s.expenses| - 1
      && (UniqueIds(s.expenses) ==> forall x :: x in r.store.expenses ==> x.id != id)
      && (forall x :: x in s.expenses && x.id != id ==> x in r.store.expenses)
    ensures Valid(s) ==> Valid(r.store)
  {
    if Blank(scope) || Blank(month) then Step(Reject(400, MsgMissingParams), s)
    else if scope != Some("future") && scope != Some("all") then Step(Reject(400, MsgBadDeleteScope), s)
    else
      match ParseMonthParam(month)
      case None => Step(Reject(400, MsgBadDeleteMonth), s)
      case Some(k) =>
        match OwnedIndex(s.expenses, id, user)
        case None => Step(Reject(404, MsgNotFound), s)
        case Some(i) =>
          if scope == Some("future") then DeleteFromMonth(s, i, k) else DeleteEverything(s, i)
  }
}

=== FILE: scope_properties.dfy ===
/**
 * What the scoped edit and delete mean for the months a user sees: the listing
 * before and after, and what repeating an edit does.
 */
module ScopeProperties {
  import opened Common
  import opened Months
  import opened Collection
  import opened Models
  import opened Materializer
  import opened ScopeEngine

  /** Whether some base with this id appears in month `m`'s listing for `user`. */
  predicate ShownIn(es: seq<Expense>, id: Id, user: UserId, m: int)
  {
    exists j :: 0 <= j < |es| && es[j].id == id && Listed(es[j], user, m)
  }

  // ---------------------------------------------------------------------------
  // Edits
  // ---------------------------------------------------------------------------

  /**
   * Repeating a successful `only` edit (same month, same updates) answers the same
   * and changes nothing more, whatever the clock says the second time.
   */
  lemma EditOnlyIdempotent(s: Store, user: UserId, id: Id, month: Option<string>, u: Updates,
                           now: int, later: int)
    requires Valid(s)
    requires EditWithScope(s, user, id, Some("only"), month, u, now).reply.Ok?
    ensures var r := EditWithScope(s, user, id, Some("only"), month, u, now);
            EditWithScope(r.store, user, id, Some("only"), month, u, later) == r
  {
    var k := ParseMonthParam(month).value;
    var i := OwnedIndex(s.expenses, id, user).value;
    var e := s.expenses[i];
    var key := Key(e.id, k);
    var o := ApplyToVariant(OverridesAt(s.variants, key), u);
    var r := EditOnly(s, e, k, u, now);
    MergeIdempotent(OverridesAt(s.variants, key), u.amount, u.dueDay, u.category);
    assert OverridesAt(r.store.variants, key) == o;
    PutTwice(s.variants, key, o);
  }

  /**
   * After a successful `only` edit the month shows the updated amount, due day and
   * category (each falling back to the month's earlier override, then the base),
   * is paid after "paid" and is not paid after "unpaid".
   */
  lemma EditOnlyShowsMonth(s: Store, user: UserId, id: Id, month: Option<string>, u: Updates,
                           now: int, isPastDue: (MonthKey, int) -> bool)
    requires Valid(s)
    requires EditWithScope(s, user, id, Some("only"), month, u, now).reply.Ok?
    ensures var r := EditWithScope(s, user, id, Some("only"), month, u, now);
            var k := ParseMonthParam(month).value;
            var e := FindOwned(s.expenses, id, user).value;
            var before := OverridesAt(s.variants, Key(id, k));
            var v := ViewIn(r.store, e, k, isPastDue);
            && v.amount == OrElse(u.amount, OrElse(before.amount, e.amount))
            && v.dueDay == OrElse(u.dueDay, OrElse(before.dueDay, e.dueDay))
            && v.category == OrElse(u.category, OrElse(before.category, e.category))
            && (u.paymentStatus == Some("paid") ==> v.status == Paid)
            && (u.paymentStatus == Some("unpaid") ==> v.status != Paid)
  {
    var k := ParseMonthParam(month).value;
    var i := OwnedIndex(s.expenses, id, user).value;
    var e := s.expenses[i];
    assert e.id == id;
    var key := Key(id, k);
    var o := ApplyToVariant(OverridesAt(s.variants, key), u);
    var r := EditOnly(s, e, k, u, now);
    assert OverridesAt(r.store.variants, key) == o;
  }

  /**
   * A `future` edit of a base without an end date touches 61 months: the requested
   * one and the 60 after it.
   */
  lemma FutureEditOpenEnded(s: Store, e: Expense, k: MonthKey, u: Updates)
    requires e.endMonth.None?
    ensures |EditFuture(s, e, k, u).reply.body.months| == OpenEndedSpan + 1
  {
  }

  /** A `future` edit leaves every month before the requested one as it was. */
  lemma FutureEditKeepsEarlierMonths(s: Store, e: Expense, k: MonthKey, u: Updates, m: MonthKey)
    requires KeyLt(m, CalendarMonth(DayjsMonth(k)))
    ensures Find(EditFuture(s, e, k, u).store.variants, Key(e.id, m)) == Find(s.variants, Key(e.id, m))
  {
    var start := DayjsMonth(k);
    var months := EditFuture(s, e, k, u).reply.body.months;
    forall i | 0 <= i < |months| ensures months[i] != m {
      CalendarOrder(start, start + i);
    }
  }

  /**
   * The example of a bounded base from 2024-08 to 2024-10: a `future` edit at
   * "2024-08" answers exactly those three months.
   */
  lemma FutureEditExample(s: Store, e: Expense, u: Updates)
    requires e.endMonth == Some(DayjsMonth(MonthKey(2024, 10)))
    ensures EditFuture(s, e, MonthKey(2024, 8), u).reply.body.months
         == [MonthKey(2024, 8), MonthKey(2024, 9), MonthKey(2024, 10)]
  {
    var start := DayjsMonth(MonthKey(2024, 8));
    assert start == 24295 && FutureEnd(e, start) == 24297;
    MonthRangeOrdinals();
  }

  /**
   * After a successful `all` edit, every month of the base shows the updated base:
   * no month keeps an override.
   */
  lemma EditAllShowsBaseEverywhere(s: Store, user: UserId, id: Id, month: Option<string>, u: Updates,
                                   now: int, k': MonthKey, isPastDue: (MonthKey, int) -> bool)
    requires EditWithScope(s, user, id, Some("all"), month, u, now).reply.Ok?
    ensures var r := EditWithScope(s, user, id, Some("all"), month, u, now);
            var e := ApplyToBase(FindOwned(s.expenses, id, user).value, u);
            var v := ViewIn(r.store, e, k', isPastDue);
            && e in r.store.expenses
            && v.amount == e.amount && v.dueDay == e.dueDay && v.category == e.category
  {
    var i := OwnedIndex(s.expenses, id, user).value;
    var r := EditAll(s, i, u);
    assert r.store.expenses[i] == ApplyToBase(s.expenses[i], u);
    assert !HasKey(r.store.variants, Key(id, k'));
  }

  // ---------------------------------------------------------------------------
  // Deletes
  // ---------------------------------------------------------------------------

  /**
   * After a successful `future` delete the base is shown in no month from the
   * requested one on, for any user: it is either gone or ends in that month.
   */
  lemma DeleteFutureHidesFromMonth(s: Store, user: UserId, id: Id, month: Option<string>,
                                   viewer: UserId, m: int)
    requires Valid(s)
    requires DeleteWithScope(s, user, id, Some("future"), month).reply.Ok?
    requires DayjsMonth(ParseMonthParam(month).value) <= m
    ensures !ShownIn(DeleteWithScope(s, user, id, Some("future"), month).store.expenses, id, viewer, m)
  {
    var k := ParseMonthParam(month).value;
    var i := OwnedIndex(s.expenses, id, user).value;
    var e := s.expenses[i];
    var es := DeleteWithScope(s, user, id, Some("future"), month).store.expenses;
    if !IsFirstMonth(e, k) {
      assert es == s.expenses[i := e.(endMonth := Some(DayjsMonth(k)))];
      forall j | 0 <= j < |es| && es[j].id == id ensures !Listed(es[j], viewer, m) {
        assert j == i;
      }
    }
  }

  /**
   * A `future` delete leaves the months before the requested one as the listing
   * showed them, provided the base reached the requested month (it had no end date
   * or one not before that month) and the month is a calendar month.
   */
  lemma DeleteFutureKeepsEarlierMonths(s: Store, user: UserId, id: Id, month: Option<string>,
                                       viewer: UserId, m: int)
    requires Valid(s)
    requires DeleteWithScope(s, user, id, Some("future"), month).reply.Ok?
    requires var k := ParseMonthParam(month).value; 100 <= k.year && 1 <= k.mm <= 12
    requires var e := FindOwned(s.expenses, id, user).value;
             e.endMonth.None? || e.endMonth.value >= DayjsMonth(ParseMonthParam(month).value)
    requires m < DayjsMonth(ParseMonthParam(month).value)
    ensures ShownIn(DeleteWithScope(s, user, id, Some("future"), month).store.expenses, id, viewer, m)
        <==> ShownIn(s.expenses, id, viewer, m)
  {
    var k := ParseMonthParam(month).value;
    var i := OwnedIndex(s.expenses, id, user).value;
    var e := s.expenses[i];
    var es := DeleteWithScope(s, user, id, Some("future"), month).store.expenses;
    assert ShownIn(s.expenses, id, viewer, m) <==> Listed(e, viewer, m);
    if IsFirstMonth(e, k) {
      assert e.startMonth == DayjsMonth(k);
      assert !ShownIn(es, id, viewer, m);
    } else {
      assert es == s.expenses[i := e.(endMonth := Some(DayjsMonth(k)))];
      assert ShownIn(es, id, viewer, m) <==> Listed(es[i], viewer, m);
    }
  }

  /**
   * The purge compares the stored strings: a variant of January 10000 (which an
   * open-ended `future` edit from a month of 9999 writes) survives a `future`
   * delete from June 9999, though it is a later month.
   */
  lemma DeleteFutureSparesYear10000(s: Store, user: UserId, id: Id, month: Option<string>, i: nat)
    requires DeleteWithScope(s, user, id, Some("future"), month).reply.Ok?
    requires ParseMonthParam(month) == Some(MonthKey(9999, 6))
    requires i < |s.variants| && s.variants[i].key == Key(id, MonthKey(10000, 1))
    ensures s.variants[i] in DeleteWithScope(s, user, id, Some("future"), month).store.variants
  {
    var vs := DeleteWithScope(s, user, id, Some("future"), month).store.variants;
    assert vs == Purge(s.variants, id, Some(MonthKey(9999, 6)));
    PurgeSparesYear10000(s.variants, id, i);
  }

  /**
   * After a successful `all` delete nothing of the expense is left: no base with
   * its id, and no variant or payment in any month.
   */
  lemma DeleteAllLeavesNothing(s: Store, user: UserId, id: Id, month: Option<string>, m: MonthKey)
    requires Valid(s)
    requires DeleteWithScope(s, user, id, Some("all"), month).reply.Ok?
    ensures var r := DeleteWithScope(s, user, id, Some("all"), month).store;
            && (forall x :: x in r.expenses ==> x.id != id)
            && Find(r.variants, Key(id, m)).None?
            && Find(r.payments, Key(id, m)).None?
  {
  }
}

=== FILE: validation.dfy ===
/**
 * The request-body validators: each checks its fields in a fixed order, answers
 * 400 with the first failing field's message, and otherwise hands the request on.
 * A method call on a value that lacks the method (`trim` on a number, say)
 * throws instead.
 */
module Validation {
  import opened Common
  import opened JsValues

  const MsgUserName := "Nome deve ter pelo menos 2 caracteres"
  const MsgEmail := "Email deve ter formato válido"
  const MsgPassword := "Senha deve ter pelo menos 6 caracteres"
  const MsgExpenseName := "Nome da despesa deve ter pelo menos 2 caracteres"
  const MsgAmount := "Valor deve ser maior que zero"
  const MsgDueDay := "Dia de vencimento deve ser entre 1 e 31"
  const MsgStartDate := "Data de início é obrigatória"
  const MsgCategory := "Categoria é obrigatória"

  /** What a validator does with a request. */
  datatype Verdict = Next | Stop(status: int, message: string) | Throws

  /** The outcome of one field check. */
  datatype Check = Pass | Fail | Raise

  /** `!v || v.trim().length < 2`. */
  function TrimmedAtLeastTwo(v: JsValue): (c: Check)
    ensures c == Pass <==> v.Text? && Utf16Length(Trim(v.s)) >= 2
    ensures c == Raise <==> Truthy(v) && !v.Text?
  {
    if !Truthy(v) then Fail
    else match v
      case Text(s) => if Utf16Length(Trim(s)) < 2 then Fail else Pass
      case _ => Raise
  }

  /** `!v || !v.includes('@')`; arrays have `includes` too. */
  function HasAt(v: JsValue): (c: Check)
    ensures c == Pass <==> (v.Text? && '@' in v.s) || (v.Array? && Text("@") in v.items)
    ensures c == Raise <==> Truthy(v) && !v.Text? && !v.Array?
  {
    if !Truthy(v) then Fail
    else match v
      case Text(s) => if '@' in s then Pass else Fail
      case Array(items) => if Text("@") in items then Pass else Fail
      case _ => Raise
  }

  /**
   * `!v || v.length < 6`.  The length is compared as a number: a truthy value
   * without `length` compares `undefined` with 6, which is false, so it passes;
   * an object's own `length` key is compared like any other value.
   */
  function LongEnough(v: JsValue, conv: Conversion): (c: Check)
    ensures c == Raise <==> Truthy(v) && ToNumber(Length(v), conv) == TypeError
    ensures c == Fail <==> !Truthy(v) || (ToNumber(Length(v), conv).Num? && ToNumber(Length(v), conv).x < 6.0)
  {
    if !Truthy(v) then Fail
    else match ToNumber(Length(v), conv)
      case Num(x) => if x < 6.0 then Fail else Pass
      case NaN => Pass
      case TypeError => Raise
  }

  /** `!v || v <= 0`: NaN compares false, so a truthy non-numeric value passes. */
  function Positive(v: JsValue, conv: Conversion): (c: Check)
    ensures c == Raise <==> Truthy(v) && ToNumber(v, conv) == TypeError
    ensures c == Fail <==> !Truthy(v) || (ToNumber(v, conv).Num? && ToNumber(v, conv).x <= 0.0)
  {
    if !Truthy(v) then Fail
    else match ToNumber(v, conv)
      case Num(x) => if x <= 0.0 then Fail else Pass
      case NaN => Pass
      case TypeError => Raise
  }

  /** `!v || v < 1 || v > 31`; the first comparison throws if the conversion does. */
  function DayOfMonth(v: JsValue, conv: Conversion): (c: Check)
    ensures c == Raise <==> Truthy(v) && ToNumber(v, conv) == TypeError
    ensures c == Pass <==> Truthy(v) && (ToNumber(v, conv) == NaN
                                         || (ToNumber(v, conv).Num? && 1.0 <= ToNumber(v, conv).x <= 31.0))
  {
    if !Truthy(v) then Fail
    else match ToNumber(v, conv)
      case Num(x) => if x < 1.0 || x > 31.0 then Fail else Pass
      case NaN => Pass
      case TypeError => Raise
  }

  /** `!v`. */
  function Present(v: JsValue): (c: Check)
    ensures c != Raise
    ensures c == Pass <==> Truthy(v)
  {
    if Truthy(v) then Pass else Fail
  }

  /** The index of the first check that does not pass, or the count when all pass. */
  function FirstNonPass(checks: seq<(Check, string)>): (k: nat)
    ensures k <= |checks|
    ensures forall m :: 0 <= m < k ==> checks[m].0 == Pass
    ensures k < |checks| ==> checks[k].0 != Pass
  {
    if |checks| == 0 || checks[0].0 != Pass then 0
    else
      assert forall m :: 1 <= m < |checks| ==> checks[m] == checks[1..][m - 1];
      FirstNonPass(checks[1..]) + 1
  }

  /** Runs the checks in order: the first that does not pass decides. */
  function Chain(checks: seq<(Check, string)>): (r: Verdict)
    ensures var k := FirstNonPass(checks);
            && (r == Next <==> k == |checks|)
            && (k < |checks| ==> r == if checks[k].0 == Fail then Stop(400, checks[k].1) else Throws)
  {
    if |checks| == 0 then Next
    else if checks[0].0 == Fail then Stop(400, checks[0].1)
    else if checks[0].0 == Raise then Throws
    else Chain(checks[1..])
  }

  datatype UserBody = UserBody(name: JsValue, email: JsValue, password: JsValue)

  function UserChecks(b: UserBody, conv: Conversion): seq<(Check, string)>
  {
    [(TrimmedAtLeastTwo(b.name), MsgUserName), (HasAt(b.email), MsgEmail), (LongEnough(b.password, conv), MsgPassword)]
  }

  /** `validateUserInput`: name, email, password. */
  function ValidateUser(b: UserBody, conv: Conversion): (r: Verdict)
    ensures r == Next <==>
              && b.name.Text? && Utf16Length(Trim(b.name.s)) >= 2
              && ((b.email.Text? && '@' in b.email.s) || (b.email.Array? && Text("@") in b.email.items))
              && Truthy(b.password)
              && ToNumber(Length(b.password), conv) != TypeError
              && !(ToNumber(Length(b.password), conv).Num? && ToNumber(Length(b.password), conv).x < 6.0)
    ensures TrimmedAtLeastTwo(b.name) == Fail ==> r == Stop(400, MsgUserName)
    ensures TrimmedAtLeastTwo(b.name) == Pass && HasAt(b.email) == Fail ==> r == Stop(400, MsgEmail)
    ensures TrimmedAtLeastTwo(b.name) == Pass && HasAt(b.email) == Pass && LongEnough(b.password, conv) == Fail ==>
              r == Stop(400, MsgPassword)
    ensures r == Throws <==>
              || TrimmedAtLeastTwo(b.name) == Raise
              || (TrimmedAtLeastTwo(b.name) == Pass && HasAt(b.email) == Raise)
              || (TrimmedAtLeastTwo(b.name) == Pass && HasAt(b.email) == Pass && LongEnough(b.password, conv) == Raise)
  {
    var cs := UserChecks(b, conv);
    var r := Chain(cs);
    assert r == Next <==> cs[0].0 == Pass && cs[1].0 == Pass && cs[2].0 == Pass;
    r
  }

  datatype ExpenseBody = ExpenseBody(name: JsValue, amount: JsValue, dueDay: JsValue,
                                     startDate: JsValue, category: JsValue)

  function ExpenseChecks(b: ExpenseBody, conv: Conversion): seq<(Check, string)>
  {
    [ (TrimmedAtLeastTwo(b.name), MsgExpenseName)
    , (Positive(b.amount, conv), MsgAmount)
    , (DayOfMonth(b.dueDay, conv), MsgDueDay)
    , (Present(b.startDate), MsgStartDate)
    , (TrimmedAtLeastTwo(b.category), MsgCategory) ]
  }

  /** `validateExpenseInput`: name, amount, due day, start date, category. */
  function ValidateExpense(b: ExpenseBody, conv: Conversion): (r: Verdict)
    ensures r == Next <==>
              && b.name.Text? && Utf16Length(Trim(b.name.s)) >= 2
              && Truthy(b.amount) && ToNumber(b.amount, conv) != TypeError
              && !(ToNumber(b.amount, conv).Num? && ToNumber(b.amount, conv).x <= 0.0)
              && Truthy(b.dueDay)
              && (ToNumber(b.dueDay, conv) == NaN
                  || (ToNumber(b.dueDay, conv).Num? && 1.0 <= ToNumber(b.dueDay, conv).x <= 31.0))
              && Truthy(b.startDate)
              && b.category.Text? && Utf16Length(Trim(b.category.s)) >= 2
    ensures r.Stop? ==>
              r.status == 400 && r.message in [MsgExpenseName, MsgAmount, MsgDueDay, MsgStartDate, MsgCategory]
    ensures TrimmedAtLeastTwo(b.name) == Fail ==> r == Stop(400, MsgExpenseName)
    ensures TrimmedAtLeastTwo(b.name) == Pass && Positive(b.amount, conv) == Fail ==> r == Stop(400, MsgAmount)
    ensures (&& TrimmedAtLeastTwo(b.name) == Pass && Positive(b.amount, conv) == Pass
             && DayOfMonth(b.dueDay, conv) == Fail)
            ==> r == Stop(400, MsgDueDay)
    ensures (&& TrimmedAtLeastTwo(b.name) == Pass && Positive(b.amount, conv) == Pass
             && DayOfMonth(b.dueDay, conv) == Pass && Present(b.startDate) == Fail)
            ==> r == Stop(400, MsgStartDate)
    ensures (&& TrimmedAtLeastTwo(b.name) == Pass && Positive(b.amount, conv) == Pass
             && DayOfMonth(b.dueDay, conv) == Pass && Present(b.startDate) == Pass
             && TrimmedAtLeastTwo(b.category) == Fail)
            ==> r == Stop(400, MsgCategory)
    ensures r == Throws <==>
              || TrimmedAtLeastTwo(b.name) == Raise
              || (TrimmedAtLeastTwo(b.name) == Pass && Positive(b.amount, conv) == Raise)
              || (TrimmedAtLeastTwo(b.name) == Pass && Positive(b.amount, conv) == Pass
                  && DayOfMonth(b.dueDay, conv) == Raise)
              || (&& TrimmedAtLeastTwo(b.name) == Pass && Positive(b.amount, conv) == Pass
                  && DayOfMonth(b.dueDay, conv) == Pass && Present(b.startDate) == Pass
                  && TrimmedAtLeastTwo(b.category) == Raise)
  {
    var cs := ExpenseChecks(b, conv);
    var r := Chain(cs);
    assert r == Next <==> cs[0].0 == Pass && cs[1].0 == Pass && cs[2].0 == Pass && cs[3].0 == Pass && cs[4].0 == Pass;
    r
  }

  /** The checks run in order: a body failing every check is refused for its name. */
  lemma NameCheckedFirst(b: ExpenseBody, conv: Conversion)
    requires !Truthy(b.name) && !Truthy(b.amount) && !Truthy(b.dueDay) && !Truthy(b.startDate)
    ensures ValidateExpense(b, conv) == Stop(400, MsgExpenseName)
  {
  }

  /** White space around a name does not count towards its length. */
  lemma PaddingIgnored(p: string, core: string, q: string)
    requires forall k :: 0 <= k < |p| ==> IsWhiteSpace(p[k])
    requires forall k :: 0 <= k < |q| ==> IsWhiteSpace(q[k])
    requires |core| > 0 && !IsWhiteSpace(core[0]) && !IsWhiteSpace(core[|core| - 1])
    ensures TrimmedAtLeastTwo(Text(p + core + q)) == TrimmedAtLeastTwo(Text(core))
  {
    TrimPadding(p, core, q);
    TrimWord(core);
  }

  /** A string amount that is no numeral is NaN, and NaN passes `amount <= 0`. */
  lemma AmountNaNPasses(conv: Conversion)
    requires conv.numeral("abc").None?
    ensures Positive(Text("abc"), conv) == Pass
  {
  }

  /** A string password is refused exactly when it has fewer than six UTF-16 units. */
  lemma PasswordStringLength(s: string, conv: Conversion)
    ensures LongEnough(Text(s), conv) == Fail <==> Utf16Length(s) < 6
    ensures LongEnough(Text(s), conv) != Raise
  {
  }

  /** An object password is measured by its own `length` key: `{"length": 3}` is too short. */
  lemma ObjectPasswordTooShort(name: string, email: string, conv: Conversion)
    requires Utf16Length(Trim(name)) >= 2 && '@' in email
    ensures var pw := Object([("length", Number(3.0))]);
            ValidateUser(UserBody(Text(name), Text(email), pw), conv) == Stop(400, MsgPassword)
  {
    var pw := Object([("length", Number(3.0))]);
    assert OwnKey(pw.fields, "length") == Some(Number(3.0));
  }

  /** An amount object with its own `toString` key cannot be compared: the validator throws. */
  lemma ObjectAmountThrows(b: ExpenseBody, conv: Conversion)
    requires TrimmedAtLeastTwo(b.name) == Pass
    requires b.amount == Object([("toString", Number(1.0))])
    ensures ValidateExpense(b, conv) == Throws
  {
    assert OwnKey(b.amount.fields, "toString").Some?;
    assert Positive(b.amount, conv) == Raise;
  }
}

=== FILE: variants.dfy ===
/**
 * The two variant endpoints: upserting one month's overrides, and upserting the
 * same overrides for every month of a range.
 */
module Variants {
  import opened Common
  import opened Months
  import opened Collection
  import opened Models

  const MsgBadMonth := "Mês inválido. Use o formato YYYY-MM."
  const MsgNoBase := "Despesa base não encontrada"
  const MsgFailed := "Erro ao aplicar alterações futuras"

  /** Months a range upsert of an open-ended base reaches past the current month. */
  const OpenEndedReach := 12

  /** One entry of a range upsert's answer: the month and whether its variant was new. */
  datatype Touched = Created(month: MonthKey) | Updated(month: MonthKey)

  datatype Upserted = Upserted(variants: seq<Variant>, touched: seq<Touched>)

  predicate Distinct(months: seq<MonthKey>)
  {
    forall i, j :: 0 <= i < j < |months| ==> months[i] != months[j]
  }

  lemma DistinctTail(months: seq<MonthKey>)
    requires Distinct(months) && |months| > 0
    ensures Distinct(months[1..])
  {
    forall i, j | 0 <= i < j < |months| - 1 ensures months[1..][i] != months[1..][j] {
      assert months[1..][i] == months[i + 1] && months[1..][j] == months[j + 1];
    }
  }

  /**
   * Upserts, month by month in order, the variant of (id, month) with the `??`
   * merge, recording for each month whether it created the variant.
   */
  function UpsertMonths(vs: seq<Variant>, id: Id, months: seq<MonthKey>,
                        amount: Option<real>, dueDay: Option<int>, category: Option<string>): (r: Upserted)
    decreases |months|
    ensures |r.touched| == |months|
    ensures forall i :: 0 <= i < |months| ==> r.touched[i].month == months[i]
    ensures Distinct(months) ==>
      forall i :: 0 <= i < |months| ==> (r.touched[i].Created? <==> !HasKey(vs, Key(id, months[i])))
    ensures Unique(vs) ==> Unique(r.variants)
  {
    if |months| == 0 then Upserted(vs, [])
    else
      var key := Key(id, months[0]);
      var o := MergeOverrides(OverridesAt(vs, key), amount, dueDay, category);
      var entry := if HasKey(vs, key) then Updated(months[0]) else Created(months[0]);
      var vs' := Put(vs, key, o);
      var rest := UpsertMonths(vs', id, months[1..], amount, dueDay, category);
      var t := [entry] + rest.touched;
      if Distinct(months) then
        DistinctTail(months);
        CreatedShift(vs, vs', id, months, t, rest.touched);
        Upserted(rest.variants, t)
      else
        Upserted(rest.variants, t)
  }

  /**
   * After a range upsert every month of the range holds the merge of what it held
   * before with the supplied fields, and every other key holds what it held.
   */
  lemma {:induction false} UpsertMonthsWrites(vs: seq<Variant>, id: Id, months: seq<MonthKey>,
                                              amount: Option<real>, dueDay: Option<int>, category: Option<string>)
    decreases |months|
    ensures var r := UpsertMonths(vs, id, months, amount, dueDay, category).variants;
            && (forall m :: m in months ==>
                  Find(r, Key(id, m)) == Some(MergeOverrides(OverridesAt(vs, Key(id, m)), amount, dueDay, category)))
            && (forall k: Key :: !(k.expenseId == id && k.month in months) ==> Find(r, k) == Find(vs, k))
  {
    if |months| > 0 {
      var key := Key(id, months[0]);
      var vs' := Put(vs, key, MergeOverrides(OverridesAt(vs, key), amount, dueDay, category));
      UpsertMonthsWrites(vs', id, months[1..], amount, dueDay, category);
      assert UpsertMonths(vs, id, months, amount, dueDay, category).variants
          == UpsertMonths(vs', id, months[1..], amount, dueDay, category).variants;
      UpsertMonthsStep(vs, id, months, amount, dueDay, category,
                       UpsertMonths(vs, id, months, amount, dueDay, category).variants);
    }
  }

  /** The inductive step of `UpsertMonths`: the first month's write survives the rest. */
  lemma UpsertMonthsStep(vs: seq<Variant>, id: Id, months: seq<MonthKey>,
                         amount: Option<real>, dueDay: Option<int>, category: Option<string>,
                         r: seq<Variant>)
    requires |months| > 0
    requires var key := Key(id, months[0]);
             var vs' := Put(vs, key, MergeOverrides(OverridesAt(vs, key), amount, dueDay, category));
             && (forall m :: m in months[1..] ==>
                   Find(r, Key(id, m)) == Some(MergeOverrides(OverridesAt(vs', Key(id, m)), amount, dueDay, category)))
             && (forall k: Key :: !(k.expenseId == id && k.month in months[1..]) ==> Find(r, k) == Find(vs', k))
    ensures forall m :: m in months ==>
      Find(r, Key(id, m)) == Some(MergeOverrides(OverridesAt(vs, Key(id, m)), amount, dueDay, category))
    ensures forall k: Key :: !(k.expenseId == id && k.month in months) ==> Find(r, k) == Find(vs, k)
  {
    var key := Key(id, months[0]);
    var o := MergeOverrides(OverridesAt(vs, key), amount, dueDay, category);
    var vs' := Put(vs, key, o);
    forall m | m in months
      ensures Find(r, Key(id, m)) == Some(MergeOverrides(OverridesAt(vs, Key(id, m)), amount, dueDay, category))
    {
      if m in months[1..] {
        if m == months[0] {
          MergeIdempotent(OverridesAt(vs, key), amount, dueDay, category);
        }
      } else {
        assert m == months[0];
      }
    }
    forall k: Key | !(k.expenseId == id && k.month in months)
      ensures Find(r, k) == Find(vs, k)
    {
      assert k != key;
    }
  }

  /** Shifting the created marks of the tail past a write to the first month's key. */
  lemma CreatedShift(vs: seq<Variant>, vs': seq<Variant>, id: Id, months: seq<MonthKey>,
                     t: seq<Touched>, t': seq<Touched>)
    requires Distinct(months) && |months| > 0 && |t| == |months| && |t'| + 1 == |t|
    requires forall i :: 1 <= i < |t| ==> t[i] == t'[i - 1]
    requires forall k: Key :: k != Key(id, months[0]) ==> Find(vs', k) == Find(vs, k)
    requires forall i :: 0 <= i < |months[1..]| ==> (t'[i].Created? <==> !HasKey(vs', Key(id, months[1..][i])))
    ensures forall i :: 1 <= i < |months| ==> (t[i].Created? <==> !HasKey(vs, Key(id, months[i])))
  {
    forall i | 1 <= i < |months|
      ensures t[i].Created? <==> !HasKey(vs, Key(id, months[i]))
    {
      var k := Key(id, months[i]);
      assert months[1..][i - 1] == months[i];
      assert Find(vs', k) == Find(vs, k);
    }
  }

  // ---------------------------------------------------------------------------
  // updateMonthlyVariant
  // ---------------------------------------------------------------------------

  /**
   * `updateMonthlyVariant` as written: 400 unless the month is a token; otherwise
   * the variant of (id, month) is upserted with the `??` merge and answered.  No
   * base is looked up, so the caller's ownership is never checked.
   */
  function UpdateMonthlyVariant(s: Store, id: Id, month: Option<string>,
                                amount: Option<real>, dueDay: Option<int>, category: Option<string>)
    : (r: Step<Variant>)
    ensures r.reply.Err? <==> ParseMonthParam(month).None?
    ensures r.reply.Err? ==> r.reply == Reject(400, MsgBadMonth) && r.store == s
    ensures r.reply.Ok? ==>
      && var key := Key(id, ParseMonthParam(month).value);
      && var before := OverridesAt(s.variants, key);
      && r.reply.status == 200 && r.reply.body.key == key
      && var o := r.reply.body.data;
      && o.amount == FirstOf(amount, before.amount)
      && o.dueDay == FirstOf(dueDay, before.dueDay)
      && o.category == FirstOf(category, before.category)
      && Find(r.store.variants, key) == Some(o)
      && (forall k :: k != key ==> Find(r.store.variants, k) == Find(s.variants, k))
      && |r.store.variants| == (if HasKey(s.variants, key) then |s.variants| else |s.variants| + 1)
      && r.store.expenses == s.expenses && r.store.payments == s.payments
    ensures Valid(s) ==> Valid(r.store)
  {
    match ParseMonthParam(month)
    case None => Step(Reject(400, MsgBadMonth), s)
    case Some(k) =>
      var key := Key(id, k);
      var o := MergeOverrides(OverridesAt(s.variants, key), amount, dueDay, category);
      Step(Ok(200, Doc(key, o)), s.(variants := Put(s.variants, key, o)))
  }

  /**
   * `updateMonthlyVariant` with the ownership check its sibling endpoints make:
   * 404 unless the caller owns the base, then as written.
   */
  function UpdateMonthlyVariantOwned(s: Store, user: UserId, id: Id, month: Option<string>,
                                     amount: Option<real>, dueDay: Option<int>, category: Option<string>)
    : (r: Step<Variant>)
    ensures ParseMonthParam(month).Some? && FindOwned(s.expenses, id, user).None? ==>
              r.reply == Reject(404, MsgNoBase)
    ensures r.reply.Ok? ==> FindOwned(s.expenses, id, user).Some?
    ensures r.reply.Err? ==> r.store == s
    ensures FindOwned(s.expenses, id, user).Some? ==>
              r == UpdateMonthlyVariant(s, id, month, amount, dueDay, category)
    ensures Valid(s) ==> Valid(r.store)
  {
    if ParseMonthParam(month).Some? && FindOwned(s.expenses, id, user).None? then
      Step(Reject(404, MsgNoBase), s)
    else
      UpdateMonthlyVariant(s, id, month, amount, dueDay, category)
  }

  /**
   * The missing check, exhibited: in a store where only `owner` holds base `id`,
   * a request by anyone else still writes that base's variant, where the checked
   * endpoint answers 404 and writes nothing.
   */
  lemma OtherUserWritesVariant(s: Store, owner: UserId, intruder: UserId, id: Id, month: Option<string>,
                               amount: Option<real>, dueDay: Option<int>, category: Option<string>)
    requires UniqueIds(s.expenses)
    requires exists i :: 0 <= i < |s.expenses| && s.expenses[i].id == id && s.expenses[i].userId == owner
    requires intruder != owner && ParseMonthParam(month).Some?
    ensures var r := UpdateMonthlyVariant(s, id, month, amount, dueDay, category);
            r.reply.Ok? && HasKey(r.store.variants, Key(id, ParseMonthParam(month).value))
    ensures var c := UpdateMonthlyVariantOwned(s, intruder, id, month, amount, dueDay, category);
            c.reply == Reject(404, MsgNoBase) && c.store == s
  {
    var i :| 0 <= i < |s.expenses| && s.expenses[i].id == id && s.expenses[i].userId == owner;
    forall e | e in s.expenses ensures !OwnedBy(e, id, intruder) {
      var j :| 0 <= j < |s.expenses| && s.expenses[j] == e;
      if e.id == id {
        assert j == i;
      }
    }
  }

  // ---------------------------------------------------------------------------
  // updateVariantsFromMonth
  // ---------------------------------------------------------------------------

  /** The month ordinal the range upsert stops at: the end date's, or twelve months from now. */
  function RangeEnd(e: Expense, thisMonth: int): int
  {
    match e.endMonth
    case Some(m) => m
    case None => thisMonth + OpenEndedReach
  }

  /** Whether `fromMonth` is of the modelled shape: a four-digit year and a two-digit month. */
  predicate FromMonthModelled(from: Option<MonthKey>)
  {
    from.Some? ==> 1000 <= from.value.year <= 9999 && 0 <= from.value.mm <= 99
  }

  /**
   * `updateVariantsFromMonth`: 404 unless the caller owns the base; a missing
   * `fromMonth` fails (500) before anything is written.  Otherwise every month from
   * `fromMonth` through the end month, inclusive, gets the `??`-merged variant, and
   * the answer lists those months ascending, each marked created or updated.
   */
  function UpdateVariantsFromMonth(s: Store, user: UserId, id: Id, from: Option<MonthKey>,
                                   amount: Option<real>, dueDay: Option<int>, category: Option<string>,
                                   thisMonth: int): (r: Step<seq<Touched>>)
    requires FromMonthModelled(from)
    ensures r.reply.Err? ==> r.store == s
    ensures FindOwned(s.expenses, id, user).None? ==> r.reply == Reject(404, MsgNoBase)
    ensures FindOwned(s.expenses, id, user).Some? && from.None? ==> r.reply == Reject(500, MsgFailed)
    ensures r.reply.Ok? <==> FindOwned(s.expenses, id, user).Some? && from.Some?
    ensures r.reply.Ok? ==>
      && FindOwned(s.expenses, id, user).Some? && from.Some?
      && var start := DayjsMonth(from.value);
      && var end := RangeEnd(FindOwned(s.expenses, id, user).value, thisMonth);
      && var t := r.reply.body;
      && r.reply.status == 200
      && var months := MonthRange(start, end);
      && |t| == |months|
      && (forall i :: 0 <= i < |t| ==> t[i].month == months[i])
      && (forall i, j :: 0 <= i < j < |t| ==> KeyLt(t[i].month, t[j].month))
      && (forall i :: 0 <= i < |t| ==> (t[i].Created? <==> !HasKey(s.variants, Key(id, months[i]))))
      && (forall m :: m in months ==>
            Find(r.store.variants, Key(id, m))
            == Some(MergeOverrides(OverridesAt(s.variants, Key(id, m)), amount, dueDay, category)))
      && (forall k: Key :: !(k.expenseId == id && k.month in months) ==>
            Find(r.store.variants, k) == Find(s.variants, k))
      && r.store.expenses == s.expenses && r.store.payments == s.payments
    ensures Valid(s) ==> Valid(r.store)
  {
    match FindOwned(s.expenses, id, user)
    case None => Step(Reject(404, MsgNoBase), s)
    case Some(e) =>
      match from
      case None => Step(Reject(500, MsgFailed), s)
      case Some(f) =>
        var start := DayjsMonth(f);
        var months := MonthRange(start, RangeEnd(e, thisMonth));
        MonthRangeAscending(start, RangeEnd(e, thisMonth));
        var u := UpsertMonths(s.variants, id, months, amount, dueDay, category);
        UpsertMonthsWrites(s.variants, id, months, amount, dueDay, category);
        Step(Ok(200, u.touched), s.(variants := u.variants))
  }

  /**
   * Repeating a successful range upsert leaves every variant as the first call
   * left it, and the second answer marks every month updated.
   */
  lemma FromMonthRepeat(s: Store, user: UserId, id: Id, from: Option<MonthKey>,
                        amount: Option<real>, dueDay: Option<int>, category: Option<string>,
                        thisMonth: int, k: Key)
    requires FromMonthModelled(from)
    requires UpdateVariantsFromMonth(s, user, id, from, amount, dueDay, category, thisMonth).reply.Ok?
    ensures var r1 := UpdateVariantsFromMonth(s, user, id, from, amount, dueDay, category, thisMonth);
            var r2 := UpdateVariantsFromMonth(r1.store, user, id, from, amount, dueDay, category, thisMonth);
            && r2.reply.Ok?
            && Find(r2.store.variants, k) == Find(r1.store.variants, k)
            && forall i :: 0 <= i < |r2.reply.body| ==> r2.reply.body[i].Updated?
  {
    var e := FindOwned(s.expenses, id, user).value;
    var months := MonthRange(DayjsMonth(from.value), RangeEnd(e, thisMonth));
    var r1 := UpdateVariantsFromMonth(s, user, id, from, amount, dueDay, category, thisMonth);
    var r2 := UpdateVariantsFromMonth(r1.store, user, id, from, amount, dueDay, category, thisMonth);
    assert FindOwned(r1.store.expenses, id, user) == Some(e);
    if k.expenseId == id && k.month in months {
      MergeIdempotent(OverridesAt(s.variants, k), amount, dueDay, category);
      assert OverridesAt(r1.store.variants, k) == MergeOverrides(OverridesAt(s.variants, k), amount, dueDay, category);
    }
    forall i | 0 <= i < |r2.reply.body| ensures r2.reply.body[i].Updated? {
      assert months[i] in months;
      assert Find(r1.store.variants, Key(id, months[i])).Some?;
    }
  }
}
